=== FILE: README.md ===
# Parfly customer app: decision logic in Dafny

This project models the decision logic of the Parfly customer app. The app
is a React Native courier client: a customer picks a pickup and a drop-off
on a map, sees a fare, adds order details and places a delivery. The screens,
the network and the device are left out. What remains is modelled as pure
Dafny functions over immutable records:

- the fare and duration estimator;
- two variants of the location cache service;
- the order-draft and location stores;
- the order submission and sender seeding;
- the route-distance hook;
- the order-details screen;
- the registration form;
- a few small decision tables: the details badge, the ORDER button, the
  service picker and the permission modal;
- the helpers of the two map screens.

Every platform or server call becomes a parameter holding what the call
answered. Examples are a permission status, a GPS fix, whether a storage
write succeeded, an HTTP outcome, and the clock reading `now` in
milliseconds. React state becomes a record, and each effect, timer or handler
becomes a function from one record to the next. Traces of such events are
folded with a `Run` function, and the inductive lemmas speak about whole
traces. Where another event can run while an operation awaits, the
operation is split into the part before its first await and the part after
it, and the uninterrupted operation is their composition.

Money, distances and coordinates are Dafny `real`s, which are exact
rationals. `Math.round` is `Floor(x + 1/2)`. `parseFloat` is modelled for an
optional sign, digits and an optional fraction. String truthiness, `x || d`
and `??` are written out where the code relies on them.

Modules, one per file:

- `Js`: optional values, `Reply` (a call threw or gave a value), rounding,
  JavaScript whitespace and `trim`, string truthiness.
- `JsNumber`: `parseFloat` and `Number#toString` for whole numbers.
- `Pricing`: the delivery-pricing hook.
- `LocationTypes`: shared by both cache variants. It holds the cache entry
  and the configuration with its patch, and the staleness tests.
- `LocationCache`: the cache service the map screen imports. Its
  asynchronous operations are split at their awaits, and a `World` of
  pending writes and pending starts interleaves them.
- `LocationCacheSrc`: the variant with the Bacolod fallback and the interval
  timer.
- `DeliveryStore` and `LocationStore`: the two stores.
- `DeliverySender`: seeding the sender from secure storage.
- `OrderSubmission`: payload building and confirmation.
- `RouteLookup`: the route-distance hook.
- `OrderDetails`: the order-details screen.
- `Register`: the registration form.
- `FilledFields`: the filled-field counter.
- `OrderButton`: the ORDER button.
- `ServiceSelector`: the service picker.
- `LocationPermission`: the permission hook.
- `MapPicker`: the two map screens.

## Model

| member | source | states |
|---|---|---|
| Js.Round | hooks/useDeliveryPricing.ts:41 | `Math.round` gives an integer within one half of its argument, halves going up |
| Js.RoundMonotone | hooks/useDeliveryPricing.ts:41 | rounding to the nearest peso never reorders two amounts |
| Js.TrimEmptyIffBlank | app/register.tsx:61 | `trim()` is empty exactly when every character is JavaScript whitespace |
| JsNumber.ParseFloat | app/order-details.tsx:80 | empty or all-whitespace text reads as `NaN`; the lemmas below pin down the value of each literal shape |
| JsNumber.Decimal | app/order-details.tsx:36 | a whole number prints as a non-empty run of digits with no leading zero |
| JsNumber.DecimalValue | app/order-details.tsx:36 | the printed digits of a whole number denote that number |
| JsNumber.DecimalRoundTrip | app/order-details.tsx:36-81 | `parseFloat` of a printed whole number gives the number back, followed by any text that starts with neither a digit, a point nor an exponent mark |
| JsNumber.NegativeDecimal | app/order-details.tsx:80 | a minus sign before the digits negates the value |
| JsNumber.FractionLiteral | app/order-details.tsx:80 | "x.y" reads as x plus y over ten to the length of y |
| JsNumber.LonePointIsNaN | app/order-details.tsx:80-81 | a lone "." is `NaN`, which the screen stores as 0 |
| JsNumber.NoLiteralIsNaN | app/order-details.tsx:80-81 | text not starting with a digit, sign or point is `NaN` |
| Pricing.SpeedKmh | hooks/useDeliveryPricing.ts:17-25 | the assumed speed is one of 30, 35 or 40 km/h |
| Pricing.EstimateDuration | hooks/useDeliveryPricing.ts:17-25 | covering the distance at the band's speed takes exactly the duration; it is zero at 0 km and never negative |
| Pricing.DurationNotMonotone | hooks/useDeliveryPricing.ts:18-22 | a trip of 7.35 km is estimated quicker than one of 7 km |
| Pricing.PerKmRate | hooks/useDeliveryPricing.ts:30-38 | each rate is charged exactly on its band, with upper bounds 2, 6 and 10 km inclusive |
| Pricing.EstimateFare | hooks/useDeliveryPricing.ts:27-42 | the fare is within half a peso of base plus distance times rate |
| Pricing.FareAtZero | hooks/useDeliveryPricing.ts:40-41 | a zero-length trip costs the rounded base price |
| Pricing.FareMonotone | hooks/useDeliveryPricing.ts:30-41 | a longer trip never costs less, across the band edges too |
| Pricing.Pricing | hooks/useDeliveryPricing.ts:10-51 | total = fare + tip + compensation, each extra 0 when absent; commission = 15% of the fare, unrounded; earnings + commission = total |
| Pricing.CommissionIgnoresExtras | hooks/useDeliveryPricing.ts:47-50 | neither the fare nor the commission depends on the tip or the compensation |
| Pricing.TipGoesToDriver | hooks/useDeliveryPricing.ts:48-51 | raising the tip by x raises the driver's earnings by x |
| Pricing.AbsentExtrasAreZero | hooks/useDeliveryPricing.ts:13-14 | an absent tip or compensation prices like an explicit 0 |
| Pricing.SixKilometreExample | hooks/useDeliveryPricing.ts:27-51 | 6 km at base 10 with tip 20 gives fare 76, total 96, commission 11.4, earnings 84.6 |
| LocationTypes.UpdateConfig | services/LocationCacheService.ts:317-319 | each supplied setting wins and every other setting is kept |
| LocationTypes.UpdateConfigIdempotent | services/LocationCacheService.ts:317-319 | applying a patch twice is applying it once, and an empty patch changes nothing |
| LocationTypes.KeptAccuracy | services/LocationCacheService.ts:151 | an accuracy is kept exactly when it is present and non-zero |
| LocationTypes.FromFix | services/LocationCacheService.ts:226-232 | a new entry has the fix's coordinates, the current time and the given source |
| LocationTypes.ThresholdAgeIsNeitherFreshNorStale | services/LocationCacheService.ts:297-302 | at an age of exactly the threshold, an entry is neither served as fresh nor reported stale |
| LocationTypes.FreshOrStale | services/LocationCacheService.ts:297-302 | away from the threshold age, exactly one of fresh and stale holds |
| LocationTypes.AgeMinutes | services/LocationCacheService.ts:307-312 | the age is the number of whole minutes elapsed, absent without an entry |
| LocationCache.LoadCachedLocation | services/LocationCacheService.ts:71-88 | a stored entry is adopted only when it is younger than `maxAgeMs` |
| LocationCache.SaveCachedLocation | services/LocationCacheService.ts:90-98 | memory follows storage only when the write succeeds; nothing else changes |
| LocationCache.ReceiveReading | services/LocationCacheService.ts:134-158 | before the unawaited save: a discarded reading changes nothing and hands nothing to save; an accepted one moves `lastUpdateTime` to now at once and hands over its GPS entry |
| LocationCache.HandleLocationUpdate | services/LocationCacheService.ts:134-158 | with its save settling at once: a reading within the update interval, or with poor accuracy, changes nothing; an accepted one is cached as GPS and moves `lastUpdateTime` even if the write fails |
| LocationCache.WatchIsRateLimited | services/LocationCacheService.ts:137-157 | after an accepted reading, every reading within the interval is dropped |
| LocationCache.PoorReadingNeverCached | services/LocationCacheService.ts:142-146 | a reading with poor accuracy never replaces the cache |
| LocationCache.BeginFresh | services/LocationCacheService.ts:199-205 | a call during an update returns the cache untouched; otherwise it takes the guard and changes nothing else |
| LocationCache.CompleteFresh | services/LocationCacheService.ts:207-270 | GPS first, then network; a refusal or a double failure returns the existing cache; success is returned even when saving fails; the guard is always released |
| LocationCache.GetFreshLocation | services/LocationCacheService.ts:199-271 | the guard is back where it started, and config, tracking and `lastUpdateTime` are untouched |
| LocationCache.ConcurrentFreshCallsCollapse | services/LocationCacheService.ts:199-205 | a second call while the first is suspended yields the old cache; the first call's completion releases the guard |
| LocationCache.GetLocation | services/LocationCacheService.ts:168-194 | a fresh entry is served untouched; otherwise, with no update in flight and permission granted, a GPS fix is returned, or failing that a network fix; while an update is in flight nothing changes and a stale entry younger than `maxAgeMs` comes back tagged `cached`, an older one or none gives null; a null result means no entry younger than `maxAgeMs` is left |
| LocationCache.StaleCacheKeepsItsSource | services/LocationCacheService.ts:259-270 | when acquisition fails, a stale entry comes back with its original source, not re-tagged |
| LocationCache.BusyStaleCacheIsRetagged | services/LocationCacheService.ts:178-189 | while an update is in flight, a stale but valid entry comes back tagged `cached` |
| LocationCache.ThresholdAgeIsReacquired | services/LocationCacheService.ts:171-175 | at exactly the threshold age the entry is reported not stale, yet a GPS fix is taken |
| LocationCache.UpdateLocationIfStale | services/LocationCacheService.ts:276-292 | it acquires exactly when there is no entry or the entry is stale |
| LocationCache.IsLocationStale | services/LocationCacheService.ts:297-302 | stale means no entry, or an age strictly above the threshold |
| LocationCache.GetLocationAge | services/LocationCacheService.ts:307-312 | the age is present exactly when an entry is, and is the elapsed time in whole minutes, rounded down |
| LocationCache.StartTracking | services/LocationCacheService.ts:100-124 | run without interruption: a set watch is kept; otherwise one starts exactly when permission is granted, and no subscription is lost |
| LocationCache.CompleteStart | services/LocationCacheService.ts:103-124 | after the prompt, a refusal changes nothing; a grant sets the watch over whatever the field holds, so one set meanwhile is lost while still running |
| LocationCache.OverlappingStartsLeakAWatch | services/LocationCacheService.ts:100-118 | two starts that both pass the guard before either prompt resolves end with one subscription leaked |
| LocationCache.StopDuringStartLeavesWatch | services/LocationCacheService.ts:100-132 | a stop while a start waits on its prompt finds no watch, and the start then sets one: tracking runs in the background |
| LocationCache.StopTracking | services/LocationCacheService.ts:126-132 | the field's watch is removed, leaked subscriptions stay, and nothing else changes |
| LocationCache.HandleAppStateChange | services/LocationCacheService.ts:60-69 | foreground refreshes a stale entry and starts tracking; background stops tracking; other states change nothing |
| LocationCache.StartTrackingIdempotent | services/LocationCacheService.ts:101 | a start that begins after another has completed with permission granted does nothing |
| LocationCache.RefusedStartLeavesNextToDecide | services/LocationCacheService.ts:100-108 | a refused start leaves nothing behind, so a later start is decided by its own prompt |
| LocationCache.UpdateServiceConfig | services/LocationCacheService.ts:317-319 | only the configuration changes |
| LocationCache.ApplyKeepsTimestampsOrdered | services/LocationCacheService.ts:84-319 | one interleaved event keeps every timestamp, pending writes included, at or before the clock and never drops the entry; only a settling write can replace it with an older one |
| LocationCache.RunKeepsTimestampsInPast | services/LocationCacheService.ts:84-319 | over any interleaving of readings, settling writes, acquisitions, starts and stops with a clock that does not go backwards, no timestamp passes the last event and the entry is never dropped |
| LocationCache.Settle | services/LocationCacheService.ts:90-98 | a settling write updates memory only when it succeeded, and leaves the pending list, which keeps only entries it had |
| LocationCache.ReadingThenSettleIsHandleLocationUpdate | services/LocationCacheService.ts:134-158 | a reading whose save settles at once is `handleLocationUpdate` run without interruption |
| LocationCache.BeginThenCompleteIsGetFreshLocation | services/LocationCacheService.ts:199-271 | entering and completing an acquisition back to back is `getFreshLocation` run without interruption |
| LocationCache.LateWatchSaveRollsCacheBack | services/LocationCacheService.ts:134-271 | a watch write that settles after a later acquisition's save replaces the newer entry with the older one |
| LocationCacheSrc.BacolodFallback | src/services/LocationCacheService.ts:192-197 | the fallback is 10.6772, 122.9547, without accuracy, stamped now, tagged network |
| LocationCacheSrc.LoadCachedLocation | src/services/LocationCacheService.ts:65-82 | a stored entry younger than `maxAgeMs` becomes the cache, and its coordinates the last saved location |
| LocationCacheSrc.SaveCachedLocation | src/services/LocationCacheService.ts:84-91 | memory follows storage only when the write succeeds |
| LocationCacheSrc.HandleLocationUpdate | src/services/LocationCacheService.ts:110-156 | accuracy is the only filter; an accepted reading is cached as GPS and recorded as the last saved location |
| LocationCacheSrc.NoRateLimit | src/services/LocationCacheService.ts:110-156 | two good readings a millisecond apart are both taken |
| LocationCacheSrc.BeginFresh | src/services/LocationCacheService.ts:203-208 | the same re-entrancy guard as the other variant |
| LocationCacheSrc.CompleteFresh | src/services/LocationCacheService.ts:210-251 | without permission or with services off, the cache comes back; a GPS failure returns a `cached` copy without overwriting it; the guard is always released |
| LocationCacheSrc.GetFreshLocation | src/services/LocationCacheService.ts:203-252 | only the cache can change, and the guard is as before |
| LocationCacheSrc.GetLocation | src/services/LocationCacheService.ts:174-201 | this variant always resolves to a location and serves a fresh entry untouched; otherwise, with no update in flight and permission granted with services on, a GPS fix is returned; while an update is in flight a stale entry younger than `maxAgeMs` comes back tagged `cached`, and without one the Bacolod point is saved and returned |
| LocationCacheSrc.EmptyCacheFallsBackToBacolod | src/services/LocationCacheService.ts:192-200 | with no entry and no fix, the Bacolod point is saved and returned |
| LocationCacheSrc.FallbackShortCircuits | src/services/LocationCacheService.ts:177-200 | a saved fallback is then served as fresh for the stale threshold |
| LocationCacheSrc.UpdateLocationIfStale | src/services/LocationCacheService.ts:254-266 | it acquires exactly when there is no entry or the entry is stale |
| LocationCacheSrc.IsLocationStale | src/services/LocationCacheService.ts:268-273 | stale means no entry, or an age strictly above the threshold |
| LocationCacheSrc.GetLocationAge | src/services/LocationCacheService.ts:275-280 | the age is present exactly when an entry is, and is the elapsed time in whole minutes, rounded down |
| LocationCacheSrc.UpdateServiceConfig | src/services/LocationCacheService.ts:282-284 | only the configuration changes |
| LocationCacheSrc.StartTracking | src/services/LocationCacheService.ts:93-104 | run without interruption: a set timer is kept; otherwise one starts exactly when permission is already granted and services are on, and no interval is lost |
| LocationCacheSrc.CompleteStart | src/services/LocationCacheService.ts:98-103 | after the two reads, without permission or services nothing changes; otherwise an interval is scheduled over whatever handle the field holds, so one set meanwhile keeps firing |
| LocationCacheSrc.OverlappingStartsLeakATimer | src/services/LocationCacheService.ts:93-102 | two starts that both pass the guard before either read resolves end with one interval leaked |
| LocationCacheSrc.StartInFlightSurvivesBackground | src/services/LocationCacheService.ts:93-108 | a stop while a start reads the permission finds no timer, and the start then schedules one |
| LocationCacheSrc.StopTracking | src/services/LocationCacheService.ts:316-321 | the field's interval is cleared, leaked intervals stay, and nothing else changes |
| LocationCacheSrc.TimerTick | src/services/LocationCacheService.ts:293-313 | run without interruption: with no live interval, or a failed reading, nothing changes; otherwise the reading goes to the update handler |
| LocationCacheSrc.CompleteTick | src/services/LocationCacheService.ts:298-308 | after its awaits the callback hands a good reading to the update handler whether or not the timer was cleared meanwhile |
| LocationCacheSrc.TickInFlightStillWrites | src/services/LocationCacheService.ts:294-321 | a tick waiting on its position when the interval is cleared still saves the reading |
| LocationCacheSrc.LeakedTimerOutlivesBackground | src/services/LocationCacheService.ts:293-321 | with a leaked interval, a tick after going to the background still acquires and saves |
| LocationCacheSrc.HandleAppStateChange | src/services/LocationCacheService.ts:56-63 | foreground refreshes a stale entry and starts the timer; background stops it |
| LocationCacheSrc.BackgroundSilencesTimer | src/services/LocationCacheService.ts:293-321 | after going to the background, ticks that begin later change nothing, provided no overlapping start leaked an interval |
| LocationCacheSrc.TicksWhileStopped | src/services/LocationCacheService.ts:293-321 | any number of ticks with no live interval leave the service as it was |
| LocationCacheSrc.ClearCachedLocation | src/services/LocationCacheService.ts:323-332 | a successful delete forgets the entry, the last saved location and the update time; a failed one changes nothing |
| LocationCacheSrc.ClearedCacheIsStale | src/services/LocationCacheService.ts:323-332 | after a clear the cache is stale and has no age |
| DeliveryStore.DefaultIsEmptyPendingOrder | store/useDeliveryStore.ts:43-75 | the default draft is pending, has no parties, coordinates or cities, and every amount is zero |
| DeliveryStore.SameFieldsSameDraft | store/useDeliveryStore.ts:3-35 | two drafts that agree on every key are equal, so the per-key view loses nothing |
| DeliveryStore.SetDeliveryField | store/useDeliveryStore.ts:80-86 | the written key reads back the value and every other key is unchanged |
| DeliveryStore.SetterKeepsSameValue | store/useDeliveryStore.ts:80-86 | writing back a key's own value changes nothing |
| DeliveryStore.SetterOverwrites | store/useDeliveryStore.ts:80-86 | a second write to the same key erases the first |
| DeliveryStore.ResetDeliveryData | store/useDeliveryStore.ts:88-94 | the sender survives and every other key is back to its default |
| DeliveryStore.ResetIdempotent | store/useDeliveryStore.ts:88-94 | resetting twice is resetting once, and a reset forgets any write except one to the sender |
| LocationStore.Updated | store/useLocationStore.ts:23-36 | each supplied field wins; a missing field keeps the current place's value, or the blank place's |
| LocationStore.SetPickup | store/useLocationStore.ts:23-28 | the pickup becomes the merged place and the drop-off is untouched |
| LocationStore.SetDropoff | store/useLocationStore.ts:31-36 | the drop-off becomes the merged place and the pickup is untouched |
| LocationStore.ClearLocations | store/useLocationStore.ts:38 | both places are forgotten |
| LocationStore.SetIdempotent | store/useLocationStore.ts:23-36 | applying the same partial place twice is applying it once |
| LocationStore.CompletePlaceReplaces | store/useLocationStore.ts:23-28 | a complete place replaces the previous one outright |
| LocationStore.SettersCommuteAndClear | store/useLocationStore.ts:23-38 | the two setters commute, and a clear undoes both |
| DeliverySender.InitDeliverySender | utils/initDeliverySender.ts:4-17 | the sender is set to the stored `userId` exactly when the text is non-empty, parses and carries a non-zero id; nothing else changes |
| DeliverySender.SeedingIdempotentAndSurvivesReset | utils/initDeliverySender.ts:4-17 | seeding twice is seeding once, and a reset keeps the seeded sender |
| DeliverySender.ZeroOrEmptyIsIgnored | utils/initDeliverySender.ts:6-10 | an id of 0 or an empty stored text leaves the draft as it was |
| OrderSubmission.PayloadOf | hooks/useOrderSubmission.ts:17-40 | the payer is the receiver only when set so, otherwise the sender; a falsy city is sent as ""; every other body field is the draft field of the same name |
| OrderSubmission.PayloadIgnoresServerFields | hooks/useOrderSubmission.ts:17-40 | receiver and driver ids, status and timestamps are not sent; an unset payer or city is sent like the default |
| OrderSubmission.BeginConfirm | hooks/useOrderSubmission.ts:12-40 | loading goes up, both stores are untouched, and the payload is built from the draft |
| OrderSubmission.CompleteConfirm | hooks/useOrderSubmission.ts:42-65 | success resets the draft, keeping the sender, clears the places and returns true; failure changes nothing and returns false; loading ends either way |
| OrderSubmission.HandleOrderConfirm | hooks/useOrderSubmission.ts:11-66 | the sender always survives, and a failure leaves both stores as they were |
| OrderSubmission.SuccessStartsAFreshOrder | hooks/useOrderSubmission.ts:45-46 | the next order after a success carries nothing of the old draft but its sender |
| OrderSubmission.FailureAllowsIdenticalRetry | hooks/useOrderSubmission.ts:55-65 | after a failure, a retry sends the identical payload |
| RouteLookup.FetchRouteDistance | hooks/useRouteCalculation.ts:28-54 | a route comes back exactly for a successful JSON body, with its three figures renamed |
| RouteLookup.RunEffect | hooks/useRouteCalculation.ts:56-77 | a timer for the current coordinates is scheduled exactly when nothing was fetched yet and all four are known |
| RouteLookup.Mount | hooks/useRouteCalculation.ts:22-77 | the hook starts empty, with a timer exactly when all four coordinates are known |
| RouteLookup.Render | hooks/useRouteCalculation.ts:56-77 | unchanged props do nothing; changed props cancel the old timer and reschedule under the same rule |
| RouteLookup.TimerFires | hooks/useRouteCalculation.ts:66-68 | a request for the scheduled coordinates leaves, and loading goes up |
| RouteLookup.Settle | hooks/useRouteCalculation.ts:69-73 | the answer replaces the route (null on failure), the fetched flag is set even on failure, and loading drops |
| RouteLookup.ResetRoute | hooks/useRouteCalculation.ts:79-82 | route and flag are cleared, and nothing is rescheduled |
| RouteLookup.RunKeepsScheduled | hooks/useRouteCalculation.ts:56-77 | along any trace a scheduled timer holds the current, complete coordinates |
| RouteLookup.MountThenRunKeepsScheduled | hooks/useRouteCalculation.ts:56-77 | the same from the first render on |
| RouteLookup.FetchedOnceIsSticky | hooks/useRouteCalculation.ts:56-72 | once a request has settled and no timer is pending, no further request leaves until a reset |
| RouteLookup.TimerSetBeforeSettleStillFires | hooks/useRouteCalculation.ts:56-77 | a timer scheduled by new coordinates while a request is in flight still fires after that request settled, so a second request leaves |
| RouteLookup.FailureIsNotRetried | hooks/useRouteCalculation.ts:50-72 | after a failed request, new coordinates still schedule nothing |
| RouteLookup.ResetNeedsNewCoordinates | hooks/useRouteCalculation.ts:79-82 | after a reset the same coordinates fetch nothing; different complete ones do |
| RouteLookup.LoadingDropsWithRequestInFlight | hooks/useRouteCalculation.ts:66-74 | with two overlapping requests, loading is already off while one is still in flight |
| OrderDetails.Mount | app/order-details.tsx:29-48 | switches are on for positive amounts, an unset tip or compensation preselects 10, and the debounce effects raise loading |
| OrderDetails.TotalPrice | app/order-details.tsx:55-66 | with both switches off the total is the base fee; when the draft holds the screen's extras it is the stored fee |
| OrderDetails.TotalTracksHomePricing | app/order-details.tsx:60-66 | while the stored fee is a fare plus the stored extras, the total is that fare plus the screen's extras |
| OrderDetails.SelectTip | app/order-details.tsx:90-98 | a new choice is selected but not yet current, and loading goes up only when the value changes |
| OrderDetails.SelectComp | app/order-details.tsx:100-108 | the same for the compensation |
| OrderDetails.TipTimerFires | app/order-details.tsx:92-95 | the choice becomes current, loading drops, and the compensation is untouched |
| OrderDetails.CompTimerFires | app/order-details.tsx:102-105 | the same for the compensation |
| OrderDetails.ChosenTipIsCharged | app/order-details.tsx:55-98 | a chosen tip reaches the price once its timer fires |
| OrderDetails.LoadingClearedBeforeCompSettles | app/order-details.tsx:90-108 | the tip timer clears loading while a changed compensation is still pending |
| OrderDetails.ApplyCod | app/order-details.tsx:78-87 | the sender pays exactly when the switch is on with text; a non-zero amount is the parsed text; only amount and payer change |
| OrderDetails.CodAmountRoundTrip | app/order-details.tsx:35-87 | a whole cash-on-delivery amount survives a visit to the screen, with the sender as payer |
| OrderDetails.CodOffClears | app/order-details.tsx:83-86 | switching cash on delivery off clears the amount and the payer |
| OrderDetails.WriteBack | app/order-details.tsx:70-120 | the receiver fields, the information and the current extras are written, and every other key of the draft is unchanged |
| OrderDetails.WrittenBackTotalIsStoredFee | app/order-details.tsx:60-116 | once the extras are written back, the shown total equals the stored fee |
| OrderDetails.WriteBackThenRepriceMatchesPricing | app/order-details.tsx:60-116 | after the fee is re-priced from the written extras, the total is the full trip price with the screen's extras |
| OrderDetails.HandleDone | app/order-details.tsx:122-124 | the shown total becomes the stored fee and nothing else changes |
| OrderDetails.DoneAfterWriteBackKeepsFee | app/order-details.tsx:110-124 | Done after the write-back stores the fee that was already there |
| Register.CheckPhone | app/register.tsx:68 | the check accepts exactly the numbers an optional 0, then 9, then nine digits |
| Register.NormalizePhone | app/register.tsx:128-131 | a ten-digit number starting with 9 gains a leading 0; anything else is sent as typed |
| Register.NormalizedPhoneIsLongForm | app/register.tsx:128-131 | every accepted number is sent as 11 digits starting with 09 |
| Register.BothFormsNormalizeAlike | app/register.tsx:128-131 | the 9... and 09... spellings of a number are sent alike |
| Register.EmailSplitAnatomy | app/register.tsx:75 | an @ and a later point split the address into three non-empty parts without blanks or further @ |
| Register.CheckEmail | app/register.tsx:75 | the check accepts exactly the addresses of the email pattern |
| Register.ValidateForm | app/register.tsx:50-100 | each field's message appears exactly when its rule fails, and the form is valid exactly when no message appears |
| Register.RegisterRequest | app/register.tsx:124-140 | a request leaves exactly for a valid form, with the phone in its 11-digit form |
| Register.React | app/register.tsx:142-155 | success goes to login; a client error offers login with the server's message or a default; anything else shows a plain error; loading ends |
| Register.ClientErrorsOfferLogin | app/register.tsx:145-151 | every client-error message ends with the offer to log in |
| Register.PatternExamples | app/register.tsx:68-75 | sample numbers and addresses fall on the expected sides of both patterns |
| FilledFields.FieldsToCheck | hooks/useFilledFieldCounter.ts:30-37 | six fields are checked |
| FilledFields.ReducerStringTest | hooks/useFilledFieldCounter.ts:40-41 | a string counts exactly when its `trim()` is non-empty, that is when it has a non-whitespace character |
| FilledFields.CountFilled | hooks/useFilledFieldCounter.ts:39-46 | the one-pass count equals the number of filled positions |
| FilledFields.FilledFieldCount | hooks/useFilledFieldCounter.ts:12-49 | 0 without details, otherwise the number of filled fields, at most six |
| FilledFields.FillingOneFieldAddsItsPosition | hooks/useFilledFieldCounter.ts:39-46 | filling a field adds exactly its position to the filled ones |
| FilledFields.FillingOneFieldCountsOnce | hooks/useFilledFieldCounter.ts:39-46 | filling one more field raises the count by exactly one |
| FilledFields.NoneFilledIffEmpty | hooks/useFilledFieldCounter.ts:39-46 | the count is zero exactly when no field is filled |
| FilledFields.BlankDraftCountsNothing | hooks/useFilledFieldCounter.ts:21-46 | a draft with blank texts and non-positive amounts shows no badge |
| FilledFields.DefaultDraftCountsNothing | hooks/useFilledFieldCounter.ts:21-46 | a fresh draft shows no badge |
| OrderButton.Render | components/delivery/OrderButton.tsx:23-43 | disabled exactly when an address is missing or something loads; the real price exactly when both addresses are known; a spinner exactly while the price loads; the label defaults to ORDER |
| OrderButton.EnabledShowsRealPrice | components/delivery/OrderButton.tsx:25-27 | a pressable button never shows the fallback price or a spinner |
| ServiceSelector.HandleServicePress | components/delivery/ServiceSelector.tsx:152-158 | cars and trucks are refused, and any other key is forwarded unchanged |
| ServiceSelector.OnlyMotorcyclesSelectable | components/delivery/ServiceSelector.tsx:152-158 | of the listed services only motorcycles get through, and the keys are distinct |
| ServiceSelector.AdvertisedFromPrice | components/delivery/ServiceSelector.tsx:30-52 | every service prices from 10, matching the motorcycle and truck labels but not the car label's 40 |
| ServiceSelector.DetailsBadge | components/delivery/ServiceSelector.tsx:166-168 | the badge is empty exactly when the count is zero |
| ServiceSelector.BadgeReadsBack | components/delivery/ServiceSelector.tsx:166-168 | a badge reads back as the count it shows |
| LocationPermission.CheckLocationStatus | hooks/useLocationPermission.ts:28-61 | a stored location is recorded exactly when services are on, a non-empty location is stored and permission is granted; otherwise the modal shows |
| LocationPermission.DisabledServicesIgnoreStore | hooks/useLocationPermission.ts:31-37 | with services off, the store and the permission make no difference |
| LocationPermission.MountDecidesExactlyOne | hooks/useLocationPermission.ts:16-61 | after the mount check, exactly one of "modal" and "stored" holds |
| LocationPermission.FetchBegin | hooks/useLocationPermission.ts:80 | loading goes up and nothing else changes |
| LocationPermission.FetchComplete | hooks/useLocationPermission.ts:64-104 | position and time are written exactly when permission is granted, a position comes and the write succeeds; loading always drops |
| LocationPermission.HandleAllowLocation | hooks/useLocationPermission.ts:107-114 | the modal closes and loading starts |
| LocationPermission.HandleSkipLocation | hooks/useLocationPermission.ts:117-119 | only the modal closes |
| LocationPermission.HandleDismissModal | hooks/useLocationPermission.ts:122-124 | dismissing acts exactly like skipping |
| LocationPermission.AllowThenFetch | hooks/useLocationPermission.ts:79-114 | allowing then getting a position stores it with the modal closed; a denial stores nothing |
| LocationPermission.SavedLocationPassesCheck | hooks/useLocationPermission.ts:40-72 | a location written by a fetch passes the next check while services and permission hold |
| LocationPermission.ApplyKeepsStored | hooks/useLocationPermission.ts:28-124 | no event clears the stored-location flag |
| LocationPermission.StoredIsSticky | hooks/useLocationPermission.ts:28-124 | over any trace, once set, the flag stays set |
| LocationPermission.ClosedModalStaysClosed | hooks/useLocationPermission.ts:28-124 | only a status check opens the modal |
| MapPicker.SmartInitialRegion | app/location-selector.tsx:36-66 | the stored place if both coordinates are truthy, else the cache service's location, else Bacolod; always at span 0.008 |
| MapPicker.StoredPlaceWins | app/location-selector.tsx:38-46 | with a stored place the service is irrelevant; a zero coordinate counts as no place |
| MapPicker.GetZoomStep | app/location-selector.tsx:443-454 | the step is between 20% and 40% of the span: 40% above 0.1, 20% at 0.008 and below |
| MapPicker.ZoomStepMonotone | app/location-selector.tsx:443-454 | a wider view never takes a smaller step |
| MapPicker.ZoomIn | app/location-selector.tsx:439-467 | the span shrinks but never below 0.001; both spans come from the latitude span |
| MapPicker.ZoomOut | app/location-selector.tsx:440-489 | the span grows from within the bounds, never above 0.1, and is square |
| MapPicker.ZoomOutFromWideViewNarrows | app/location-selector.tsx:483-488 | from a span above 0.1, zooming out narrows the view to 0.1 |
| MapPicker.ZoomsStayInRange | app/location-selector.tsx:439-489 | any sequence of zooms keeps an in-range span in range |
| MapPicker.FixedZoomIn | app/pickup-location.tsx:360-377 | each span independently loses 0.05, never below 0.001 |
| MapPicker.FixedZoomOut | app/pickup-location.tsx:361-392 | each span independently gains 0.05, never above 0.3 |
| MapPicker.FixedZoomsUndoEachOther | app/pickup-location.tsx:364-392 | away from the bounds, the two fixed buttons undo each other exactly |
| MapPicker.ComposeAddress | app/location-selector.tsx:215-224 | "POI, street", else the POI, else either free-form address, else "Unknown address"; empty parts count as missing |
| MapPicker.AddressNeverEmpty | app/location-selector.tsx:215-224 | the address line is never blank, and a POI always leads it |
| MapPicker.UnknownMeansNothingUsable | app/location-selector.tsx:215-224 | "Unknown address" appears exactly when no part of the answer is usable |
| MapPicker.BeginFetchAddress | app/location-selector.tsx:193-199 | a lookup within 1000 ms of the last accepted one does nothing, not even move the reference time |
| MapPicker.CompleteFetchAddress | app/location-selector.tsx:201-241 | an answer sets the address and city; a timeout and other failures set their own messages; fetching and loading end |
| MapPicker.PickupFetchAddress | app/pickup-location.tsx:147-178 | any failure reads "Failed to get address"; loading and UI are untouched |
| MapPicker.ScreensAgreeOnAnswers | app/pickup-location.tsx:158-169 | both screens read an answer into the same address and city |
| MapPicker.Accepted | app/location-selector.tsx:193-199 | no more lookups pass the throttle than were requested |
| MapPicker.AcceptedAreSpaced | app/location-selector.tsx:193-199 | accepted lookups are at least a second apart, and each was requested |
| MapPicker.GateKeepsLastAccepted | app/location-selector.tsx:195-199 | after a run of requests, the reference time is the last accepted one |
| MapPicker.HandleDone | app/location-selector.tsx:627-645 | mode "pickup" writes the place to the pickup slot, any other mode to the drop-off, and the other slot is untouched |
| MapPicker.DoneThenReopen | app/location-selector.tsx:627-645 | a place chosen with Done is where the map opens next time, unless a coordinate is 0 |

## Left out

- Rendering, navigation, animation, toasts, alerts and logging are left
  out. They decide nothing the model states.
- Real timers are left out. A debounce or interval timer is an explicit
  event, and the order in which events occur is left open.
- The draft record also carries `pickup_city` and `dropoff_city`. The store's
  type does not declare them, but the home screen writes them and the
  submission reads them. They are absent from the defaults, so they start
  unset and a reset unsets them again.
- Network and storage calls are parameters holding their outcome. JSON
  parsing is replaced by its outcome: an entry that parsed, or a parse
  failure.
- The Haversine distance in the second cache variant is left out. It only
  picks a log message.
- The `formattedPrice` strings and `toFixed` formatting are left out.
- `dispose`, singleton construction and the app-state subscription are left
  out.
- The location selector's search box, its 300 ms search debounce and
  `skipSearchRef` handling are left out. Only the flag being set is modelled.
  The selector's map animation on mount is also left out.
- The pickup-location screen's own start-up sequence is left out. Only its
  address lookup, zoom buttons and Done are modelled.
- JsNumber.ParseFloat: exponents and `Infinity` are not read. The model
  reads the decimal literal in front of an exponent and ignores the rest, so
  "5e3" gives 5 where JavaScript gives 5000, and "Infinity" gives `None`
  (`NaN`) where JavaScript gives Infinity. `NaN` is `None`.
- JsNumber.Decimal: only whole numbers are printed. `toString` of fractions
  is not modelled. Whole numbers from 1e21 up print in exponent form in
  JavaScript ("1e+21"); the model prints them as digits.
- MapPicker.Zooms: in the location selector each press reads the region of
  its render and commits the new one 300 ms later, so two presses within
  300 ms both step from the same region. The model lets each press see the
  previous result; MapPicker.ZoomsStayInRange holds either way.
- String lengths count code points, not UTF-16 units. This matters only for
  the password-length rule with characters outside the basic plane.
- A `Partial` with a key present but `undefined` is modelled only for the
  `city` of a place. The other optional keys are either present with a
  value or absent.
- LocationCache.GetLocation and LocationCacheSrc.GetLocation: the
  acquisition is treated as instantaneous. The entry made by a fresh fix is
  stamped with the time the call started, not the later `Date.now()`.
- LocationCache.Apply: loading the stored entry is not an event of the
  trace. It happens once, at start-up. A reading is delivered only while a
  subscription is live, and a completion only while its call is in flight.
- LocationCacheSrc.HandleLocationUpdate: this variant's callback does not
  await its save either, but here the save settles within the step. The
  interleaving of a late save is modelled for the other variant only
  (LocationCache.LateWatchSaveRollsCacheBack).
- RouteLookup.FetchRouteDistance: a successful JSON body always carries the
  three figures. The hook would return a route with undefined fields for an
  object that lacks them; a body of `null` counts as malformed, since reading
  its fields throws.
- LocationPermission.FetchComplete: two overlapping fetches are not
  tracked. The state has no in-flight count, matching the hook, which keeps
  only a boolean.
- MapPicker.CompleteFetchAddress: a JSON body of `null` counts as a failed
  lookup. Reading its municipality throws after the address was set, so
  the screen ends on the failure message.
- DeliveryStore.SetDeliveryField: commutation of writes to two different
  keys is not stated as one lemma. It follows from the per-key frame in the
  contract.
- The home screen's pricing effect is not modelled as an operation. Its
  fare comes from Pricing.Pricing, and its relation to the order-details
  total is stated by OrderDetails.TotalTracksHomePricing and
  OrderDetails.WriteBackThenRepriceMatchesPricing.

Places where the code behaves differently from what its names and
comments suggest; the model follows the code:

- The commission is the fare times 0.15 and is not rounded, although the
  fare itself is rounded to the nearest peso (hooks/useDeliveryPricing.ts:41
  and :50).
- The imported cache variant does not re-tag a stale entry as `cached` when
  acquisition fails: `getFreshLocation` returns it with its original source
  (LocationCache.StaleCacheKeepsItsSource). It does so even when the entry is
  older than `maxAgeMs`, the age the configuration comment calls invalid
  (services/LocationCacheService.ts:15): that path never reaches the
  `maxAgeMs` test at services/LocationCacheService.ts:186.
- The two screens' fallback centres differ. The selector uses 10.6765,
  122.9511; the cache variant uses 10.6772, 122.9547.

=== FILE: delivery_sender.dfy ===
/** Seeding the order draft's sender from the signed-in user's record kept in
    secure storage. Reading the storage and parsing its JSON happen outside;
    their outcomes are parameters. */
module DeliverySender {
  import opened Js
  import opened DeliveryStore

  /** What `JSON.parse` made of the stored text: a parse error, or an object
      whose `userId` may be missing. */
  datatype ParseOutcome = Unparsable | Parsed(userId: Option<int>)

  /** `initDeliverySenderFromSecureStore`: the sender is set only when some
      text is stored, it parses, and the `userId` it carries is truthy (present
      and non-zero); a parse error is logged and swallowed. */
  function InitDeliverySender(d: DeliveryData, stored: Option<string>, parsed: ParseOutcome): (r: DeliveryData)
    ensures r != d ==> Truthy(stored) && parsed.Parsed? && parsed.userId.Some? && parsed.userId.value != 0
    ensures Truthy(stored) && parsed.Parsed? && parsed.userId.Some? && parsed.userId.value != 0
        ==> Get(r, SenderId) == Id(parsed.userId)
    ensures forall k :: k != SenderId ==> Get(r, k) == Get(d, k)
  {
    if Truthy(stored) && parsed.Parsed? && parsed.userId.Some? && parsed.userId.value != 0 then
      SetDeliveryField(d, SenderId, Id(parsed.userId))
    else
      d
  }

  /** Seeding twice from the same storage is seeding once, and a later order
      reset keeps the seeded sender. */
  lemma SeedingIdempotentAndSurvivesReset(d: DeliveryData, stored: Option<string>, parsed: ParseOutcome)
    ensures InitDeliverySender(InitDeliverySender(d, stored, parsed), stored, parsed) == InitDeliverySender(d, stored, parsed)
    ensures Get(ResetDeliveryData(InitDeliverySender(d, stored, parsed)), SenderId) == Get(InitDeliverySender(d, stored, parsed), SenderId)
  {
    var once := InitDeliverySender(d, stored, parsed);
    if once != d {
      SetterOverwrites(d, SenderId, Id(parsed.userId), Id(parsed.userId));
    }
  }

  /** A stored user id of 0 is falsy and leaves the draft alone, as does
      empty stored text. */
  lemma ZeroOrEmptyIsIgnored(d: DeliveryData)
    ensures InitDeliverySender(d, Some("{}"), Parsed(Some(0))) == d
    ensures InitDeliverySender(d, Some(""), Parsed(Some(7))) == d
  {
  }
}

=== FILE: delivery_store.dfy ===
/** The order-draft store: one `DeliveryData` record, a setter that replaces
    one field, and a reset back to the defaults that keeps the sender. Fields
    are read and written through a `Key` so that "every other field is
    unchanged" can be stated once for all keys. */
module DeliveryStore {
  import opened Js

  datatype PayerRole = Sender | Receiver

  /** The draft order. `pickupCity` and `dropoffCity` are not declared by
      the store's type, but the home screen writes them through the setter;
      the defaults do not contain them, so they start absent and a reset
      removes them again. */
  datatype DeliveryData = DeliveryData(
    senderId: Option<int>,
    receiverId: Option<int>,
    driverId: Option<int>,
    pickupAddress: string,
    dropoffAddress: string,
    pickupLat: Option<real>,
    pickupLong: Option<real>,
    dropoffLat: Option<real>,
    dropoffLong: Option<real>,
    parcelAmount: real,
    payer: Option<PayerRole>,
    addInfo: string,
    status: string,
    receiverName: string,
    receiverContact: string,
    deliveryFee: real,
    commissionAmount: real,
    driverEarnings: real,
    commissionDeducted: bool,
    additionalCompensation: real,
    tip: real,
    distanceKm: real,
    durationMinutes: real,
    acceptedAt: Option<string>,
    receivedAt: Option<string>,
    pickupCity: Option<string>,
    dropoffCity: Option<string>)

  /** `defaultData`: nothing chosen, status 'pending', every amount 0. */
  const Default := DeliveryData(
    None, None, None,
    "", "", None, None, None, None,
    0.0, None, "", "pending",
    "", "",
    0.0, 0.0, 0.0, false, 0.0, 0.0,
    0.0, 0.0,
    None, None,
    None, None)

  /** A fresh store starts from the defaults: a pending order with no
      parties, no coordinates and every amount zero. */
  lemma DefaultIsEmptyPendingOrder()
    ensures Default.status == "pending"
    ensures Default.senderId.None? && Default.receiverId.None? && Default.driverId.None? && Default.payer.None?
    ensures Default.parcelAmount == Default.deliveryFee == Default.commissionAmount == Default.driverEarnings == 0.0
    ensures Default.additionalCompensation == Default.tip == Default.distanceKm == Default.durationMinutes == 0.0
    ensures Default.pickupCity.None? && Default.dropoffCity.None? && !Default.commissionDeducted
  {
  }

  datatype Key =
    | SenderId | ReceiverId | DriverId
    | PickupAddress | DropoffAddress
    | PickupLat | PickupLong | DropoffLat | DropoffLong
    | ParcelAmount | Payer | AddInfo | Status
    | ReceiverName | ReceiverContact
    | DeliveryFee | CommissionAmount | DriverEarnings | CommissionDeducted
    | AdditionalCompensation | Tip
    | DistanceKm | DurationMinutes
    | AcceptedAt | ReceivedAt
    | PickupCity | DropoffCity

  /** A field value, tagged by the field's type. */
  datatype Value =
    | Id(id: Option<int>)
    | Text(text: string)
    | Coord(coord: Option<real>)
    | Amount(amount: real)
    | Role(role: Option<PayerRole>)
    | Flag(flag: bool)
    | MaybeText(maybe: Option<string>)

  /** `DeliveryData[K]`: the value types the setter accepts for each key. */
  predicate Fits(k: Key, v: Value) {
    match k
    case SenderId | ReceiverId | DriverId => v.Id?
    case PickupAddress | DropoffAddress | AddInfo | Status | ReceiverName | ReceiverContact => v.Text?
    case PickupLat | PickupLong | DropoffLat | DropoffLong => v.Coord?
    case ParcelAmount | DeliveryFee | CommissionAmount | DriverEarnings
       | AdditionalCompensation | Tip | DistanceKm | DurationMinutes => v.Amount?
    case Payer => v.Role?
    case CommissionDeducted => v.Flag?
    case AcceptedAt | ReceivedAt | PickupCity | DropoffCity => v.MaybeText?
  }

  /** `deliveryData[k]` */
  function Get(d: DeliveryData, k: Key): (v: Value)
    ensures Fits(k, v)
  {
    match k
    case SenderId => Id(d.senderId)
    case ReceiverId => Id(d.receiverId)
    case DriverId => Id(d.driverId)
    case PickupAddress => Text(d.pickupAddress)
    case DropoffAddress => Text(d.dropoffAddress)
    case PickupLat => Coord(d.pickupLat)
    case PickupLong => Coord(d.pickupLong)
    case DropoffLat => Coord(d.dropoffLat)
    case DropoffLong => Coord(d.dropoffLong)
    case ParcelAmount => Amount(d.parcelAmount)
    case Payer => Role(d.payer)
    case AddInfo => Text(d.addInfo)
    case Status => Text(d.status)
    case ReceiverName => Text(d.receiverName)
    case ReceiverContact => Text(d.receiverContact)
    case DeliveryFee => Amount(d.deliveryFee)
    case CommissionAmount => Amount(d.commissionAmount)
    case DriverEarnings => Amount(d.driverEarnings)
    case CommissionDeducted => Flag(d.commissionDeducted)
    case AdditionalCompensation => Amount(d.additionalCompensation)
    case Tip => Amount(d.tip)
    case DistanceKm => Amount(d.distanceKm)
    case DurationMinutes => Amount(d.durationMinutes)
    case AcceptedAt => MaybeText(d.acceptedAt)
    case ReceivedAt => MaybeText(d.receivedAt)
    case PickupCity => MaybeText(d.pickupCity)
    case DropoffCity => MaybeText(d.dropoffCity)
  }

  /** Two drafts that agree on every key are the same draft. */
  lemma SameFieldsSameDraft(a: DeliveryData, b: DeliveryData)
    requires forall k :: Get(a, k) == Get(b, k)
    ensures a == b
  {
    SameParties(a, b);
    SamePlaces(a, b);
    SameMoney(a, b);
    SameTrip(a, b);
  }

  /** Agreement on every key fixes the parties. */
  lemma SameParties(a: DeliveryData, b: DeliveryData)
    requires forall k :: Get(a, k) == Get(b, k)
    ensures a.senderId == b.senderId
    ensures a.receiverId == b.receiverId
    ensures a.driverId == b.driverId
    ensures a.payer == b.payer
    ensures a.receiverName == b.receiverName
    ensures a.receiverContact == b.receiverContact
  {
    assert Get(a, SenderId) == Get(b, SenderId);
    assert Get(a, ReceiverId) == Get(b, ReceiverId);
    assert Get(a, DriverId) == Get(b, DriverId);
    assert Get(a, Payer) == Get(b, Payer);
    assert Get(a, ReceiverName) == Get(b, ReceiverName);
    assert Get(a, ReceiverContact) == Get(b, ReceiverContact);
  }

  /** Agreement on every key fixes the places. */
  lemma SamePlaces(a: DeliveryData, b: DeliveryData)
    requires forall k :: Get(a, k) == Get(b, k)
    ensures a.pickupAddress == b.pickupAddress
    ensures a.dropoffAddress == b.dropoffAddress
    ensures a.pickupLat == b.pickupLat
    ensures a.pickupLong == b.pickupLong
    ensures a.dropoffLat == b.dropoffLat
    ensures a.dropoffLong == b.dropoffLong
    ensures a.pickupCity == b.pickupCity
    ensures a.dropoffCity == b.dropoffCity
  {
    assert Get(a, PickupAddress) == Get(b, PickupAddress);
    assert Get(a, DropoffAddress) == Get(b, DropoffAddress);
    assert Get(a, PickupLat) == Get(b, PickupLat);
    assert Get(a, PickupLong) == Get(b, PickupLong);
    assert Get(a, DropoffLat) == Get(b, DropoffLat);
    assert Get(a, DropoffLong) == Get(b, DropoffLong);
    assert Get(a, PickupCity) == Get(b, PickupCity);
    assert Get(a, DropoffCity) == Get(b, DropoffCity);
  }

  /** Agreement on every key fixes the money. */
  lemma SameMoney(a: DeliveryData, b: DeliveryData)
    requires forall k :: Get(a, k) == Get(b, k)
    ensures a.parcelAmount == b.parcelAmount
    ensures a.deliveryFee == b.deliveryFee
    ensures a.commissionAmount == b.commissionAmount
    ensures a.driverEarnings == b.driverEarnings
    ensures a.commissionDeducted == b.commissionDeducted
    ensures a.additionalCompensation == b.additionalCompensation
    ensures a.tip == b.tip
  {
    assert Get(a, ParcelAmount) == Get(b, ParcelAmount);
    assert Get(a, DeliveryFee) == Get(b, DeliveryFee);
    assert Get(a, CommissionAmount) == Get(b, CommissionAmount);
    assert Get(a, DriverEarnings) == Get(b, DriverEarnings);
    assert Get(a, CommissionDeducted) == Get(b, CommissionDeducted);
    assert Get(a, AdditionalCompensation) == Get(b, AdditionalCompensation);
    assert Get(a, Tip) == Get(b, Tip);
  }

  /** Agreement on every key fixes the trip details. */
  lemma SameTrip(a: DeliveryData, b: DeliveryData)
    requires forall k :: Get(a, k) == Get(b, k)
    ensures a.addInfo == b.addInfo
    ensures a.status == b.status
    ensures a.distanceKm == b.distanceKm
    ensures a.durationMinutes == b.durationMinutes
    ensures a.acceptedAt == b.acceptedAt
    ensures a.receivedAt == b.receivedAt
  {
    assert Get(a, AddInfo) == Get(b, AddInfo);
    assert Get(a, Status) == Get(b, Status);
    assert Get(a, DistanceKm) == Get(b, DistanceKm);
    assert Get(a, DurationMinutes) == Get(b, DurationMinutes);
    assert Get(a, AcceptedAt) == Get(b, AcceptedAt);
    assert Get(a, ReceivedAt) == Get(b, ReceivedAt);
  }

  /** `setDeliveryField(k, v)`: `{ ...deliveryData, [k]: v }`. */
  function SetDeliveryField(d: DeliveryData, k: Key, v: Value): (r: DeliveryData)
    requires Fits(k, v)
    ensures Get(r, k) == v
    ensures forall k' :: k' != k ==> Get(r, k') == Get(d, k')
  {
    match k
    case SenderId => d.(senderId := v.id)
    case ReceiverId => d.(receiverId := v.id)
    case DriverId => d.(driverId := v.id)
    case PickupAddress => d.(pickupAddress := v.text)
    case DropoffAddress => d.(dropoffAddress := v.text)
    case PickupLat => d.(pickupLat := v.coord)
    case PickupLong => d.(pickupLong := v.coord)
    case DropoffLat => d.(dropoffLat := v.coord)
    case DropoffLong => d.(dropoffLong := v.coord)
    case ParcelAmount => d.(parcelAmount := v.amount)
    case Payer => d.(payer := v.role)
    case AddInfo => d.(addInfo := v.text)
    case Status => d.(status := v.text)
    case ReceiverName => d.(receiverName := v.text)
    case ReceiverContact => d.(receiverContact := v.text)
    case DeliveryFee => d.(deliveryFee := v.amount)
    case CommissionAmount => d.(commissionAmount := v.amount)
    case DriverEarnings => d.(driverEarnings := v.amount)
    case CommissionDeducted => d.(commissionDeducted := v.flag)
    case AdditionalCompensation => d.(additionalCompensation := v.amount)
    case Tip => d.(tip := v.amount)
    case DistanceKm => d.(distanceKm := v.amount)
    case DurationMinutes => d.(durationMinutes := v.amount)
    case AcceptedAt => d.(acceptedAt := v.maybe)
    case ReceivedAt => d.(receivedAt := v.maybe)
    case PickupCity => d.(pickupCity := v.maybe)
    case DropoffCity => d.(dropoffCity := v.maybe)
  }

  /** Writing the value a field already holds changes nothing. */
  lemma SetterKeepsSameValue(d: DeliveryData, k: Key)
    ensures SetDeliveryField(d, k, Get(d, k)) == d
  {
    SameFieldsSameDraft(SetDeliveryField(d, k, Get(d, k)), d);
  }

  /** A second write to the same field overrides the first. */
  lemma SetterOverwrites(d: DeliveryData, k: Key, v1: Value, v2: Value)
    requires Fits(k, v1) && Fits(k, v2)
    ensures SetDeliveryField(SetDeliveryField(d, k, v1), k, v2) == SetDeliveryField(d, k, v2)
  {
    SameFieldsSameDraft(SetDeliveryField(SetDeliveryField(d, k, v1), k, v2), SetDeliveryField(d, k, v2));
  }

  /** `resetDeliveryData`: `{ ...defaultData, sender_id }`. */
  function ResetDeliveryData(d: DeliveryData): (r: DeliveryData)
    ensures Get(r, SenderId) == Get(d, SenderId)
    ensures forall k :: k != SenderId ==> Get(r, k) == Get(Default, k)
  {
    Default.(senderId := d.senderId)
  }

  /** Resetting twice is resetting once, and a reset forgets every write
      except one to the sender. */
  lemma ResetIdempotent(d: DeliveryData, k: Key, v: Value)
    requires Fits(k, v) && k != SenderId
    ensures ResetDeliveryData(ResetDeliveryData(d)) == ResetDeliveryData(d)
    ensures ResetDeliveryData(SetDeliveryField(d, k, v)) == ResetDeliveryData(d)
  {
    assert Get(SetDeliveryField(d, k, v), SenderId) == Get(d, SenderId);
  }
}

=== FILE: filled_fields.dfy ===
/** The badge count on the Details button: how many of the six optional order
    details are filled in. A string counts when it is not blank, a number when
    it is positive, anything else never. */
module FilledFields {
  import opened Js
  import opened DeliveryStore

  /** A detail as the hook sees it at run time: missing, a string or a number. */
  datatype FieldValue = Missing | Str(text: string) | Num(n: real)

  /** The hook's input; every field may be absent. */
  datatype Details = Details(
    addInfo: Option<string>,
    receiverName: Option<string>,
    receiverContact: Option<string>,
    additionalCompensation: Option<real>,
    tip: Option<real>,
    parcelAmount: Option<real>)

  function StrField(s: Option<string>): FieldValue {
    if s.Some? then Str(s.value) else Missing
  }

  function NumField(n: Option<real>): FieldValue {
    if n.Some? then Num(n.value) else Missing
  }

  /** `fieldsToCheck`, in the hook's order. */
  function FieldsToCheck(d: Details): (fs: seq<FieldValue>)
    ensures |fs| == 6
  {
    [StrField(d.addInfo), StrField(d.receiverName), StrField(d.receiverContact),
     NumField(d.additionalCompensation), NumField(d.tip), NumField(d.parcelAmount)]
  }

  /** What one step of the reducer counts: a string with a character other
      than white space, or a positive number. */
  predicate Filled(f: FieldValue) {
    match f
    case Str(s) => !AllWhitespace(s)
    case Num(n) => n > 0.0
    case Missing => false
  }

  /** The reducer's own test on a string, `field.trim() !== ''`, is exactly
      `Filled`. */
  lemma ReducerStringTest(s: string)
    ensures Filled(Str(s)) <==> Trim(s) != ""
  {
    TrimEmptyIffBlank(s);
  }

  /** The positions of the filled fields: the count's reference definition. */
  function FilledPositions(fs: seq<FieldValue>): set<int> {
    set i | 0 <= i < |fs| && Filled(fs[i])
  }

  /** `fieldsToCheck.reduce(...)`: one pass, adding 1 per filled field. */
  method CountFilled(fs: seq<FieldValue>) returns (count: nat)
    ensures count == |FilledPositions(fs)|
    ensures count <= |fs|
  {
    count := 0;
    var k := 0;
    while k < |fs|
      invariant 0 <= k <= |fs| && count <= k
      invariant count == |set i | 0 <= i < k && Filled(fs[i])|
    {
      ghost var before := set i | 0 <= i < k && Filled(fs[i]);
      ghost var after := set i | 0 <= i < k + 1 && Filled(fs[i]);
      if Filled(fs[k]) {
        assert after == before + {k};
        count := count + 1;
      } else {
        assert after == before;
      }
      k := k + 1;
    }
  }

  /** `useFilledFieldCounter`: 0 without details, otherwise the number of
      filled fields among the six. */
  method FilledFieldCount(d: Option<Details>) returns (count: nat)
    ensures d.None? ==> count == 0
    ensures d.Some? ==> count == |FilledPositions(FieldsToCheck(d.value))|
    ensures count <= 6
  {
    if d.None? {
      return 0;
    }
    count := CountFilled(FieldsToCheck(d.value));
  }

  /** Filling in one more field adds exactly its position. */
  lemma FillingOneFieldAddsItsPosition(fs: seq<FieldValue>, i: int, v: FieldValue)
    requires 0 <= i < |fs| && Filled(v)
    ensures FilledPositions(fs[i := v]) == FilledPositions(fs) + {i}
  {
    var before, after := FilledPositions(fs), FilledPositions(fs[i := v]);
    forall j | 0 <= j < |fs| && j != i ensures fs[i := v][j] == fs[j] {
    }
    forall j | j in after ensures j in before + {i} {
    }
    forall j | j in before + {i} ensures j in after {
    }
  }

  /** Filling in one more field raises the count by exactly one. */
  lemma FillingOneFieldCountsOnce(fs: seq<FieldValue>, i: int, v: FieldValue)
    requires 0 <= i < |fs| && !Filled(fs[i]) && Filled(v)
    ensures |FilledPositions(fs[i := v])| == |FilledPositions(fs)| + 1
  {
    FillingOneFieldAddsItsPosition(fs, i, v);
    assert i !in FilledPositions(fs);
  }

  /** The details the home screen hands over: every field of the draft. */
  function DetailsOf(d: DeliveryData): Details {
    Details(Some(d.addInfo), Some(d.receiverName), Some(d.receiverContact),
            Some(d.additionalCompensation), Some(d.tip), Some(d.parcelAmount))
  }

  /** No field of a list is filled exactly when its filled positions are
      none. */
  lemma NoneFilledIffEmpty(fs: seq<FieldValue>)
    ensures FilledPositions(fs) == {} <==> forall i :: 0 <= i < |fs| ==> !Filled(fs[i])
  {
    if FilledPositions(fs) == {} {
      forall i | 0 <= i < |fs|
        ensures !Filled(fs[i])
      {
        assert i !in FilledPositions(fs);
      }
    }
  }

  /** A draft whose three texts are blank and whose three amounts are not
      positive shows no badge. */
  lemma BlankDraftCountsNothing(d: DeliveryData)
    requires AllWhitespace(d.addInfo) && AllWhitespace(d.receiverName) && AllWhitespace(d.receiverContact)
    requires d.additionalCompensation <= 0.0 && d.tip <= 0.0 && d.parcelAmount <= 0.0
    ensures FilledPositions(FieldsToCheck(DetailsOf(d))) == {}
  {
    var fs := FieldsToCheck(DetailsOf(d));
    assert fs[0] == Str(d.addInfo) && fs[1] == Str(d.receiverName) && fs[2] == Str(d.receiverContact);
    assert fs[3] == Num(d.additionalCompensation) && fs[4] == Num(d.tip) && fs[5] == Num(d.parcelAmount);
    NoneFilledIffEmpty(fs);
  }

  /** In particular a fresh draft shows no badge. */
  lemma DefaultDraftCountsNothing()
    ensures FilledPositions(FieldsToCheck(DetailsOf(Default))) == {}
  {
    DefaultIsEmptyPendingOrder();
    assert Default.addInfo == "" && Default.receiverName == "" && Default.receiverContact == "";
    BlankDraftCountsNothing(Default);
  }
}

=== FILE: js.dfy ===
/** JavaScript runtime behaviour the app relies on: optional values,
    `Math.round`, the whitespace class of `\s` / `String.prototype.trim`,
    and string truthiness. Numbers are modelled as exact reals. */
module Js {

  /** `undefined`/`null` versus a present value. */
  datatype Option<+T> = None | Some(value: T) {

    /** `x ?? d` */
    function GetOr(default: T): T {
      match this
      case Some(v) => v
      case None => default
    }
  }

  /** How an awaited call ended: it threw, or it gave a value. */
  datatype Reply<T> = Threw | Gave(value: T)

  /** `Math.round(x)`: the nearest integer, halves going up (toward +infinity). */
  function Round(x: real): (r: int)
    ensures x - 0.5 < r as real <= x + 0.5
  {
    (x + 0.5).Floor
  }

  /** Rounding never reorders two values. */
  lemma RoundMonotone(x: real, y: real)
    requires x <= y
    ensures Round(x) <= Round(y)
  {
  }

  /** An integral value rounds to itself. */
  lemma RoundOfInteger(n: int)
    ensures Round(n as real) == n
  {
  }

  /** The characters JavaScript treats as white space (the `\s` class and
      what `trim` removes): tab, line feed, vertical tab, form feed, carriage
      return, space, no-break space, the Unicode space separators, the line and
      paragraph separators and the byte order mark. */
  predicate IsWhitespace(c: char) {
    var n := c as int;
    || 0x09 <= n <= 0x0D
    || n == 0x20
    || n == 0xA0
    || n == 0x1680
    || 0x2000 <= n <= 0x200A
    || n == 0x2028 || n == 0x2029
    || n == 0x202F || n == 0x205F
    || n == 0x3000 || n == 0xFEFF
  }

  /** `\d`: an ASCII digit. */
  predicate IsDigit(c: char) {
    '0' <= c <= '9'
  }

  predicate AllWhitespace(s: string) {
    forall i :: 0 <= i < |s| ==> IsWhitespace(s[i])
  }

  /** `s.trimStart()` */
  function TrimStart(s: string): (r: string)
    ensures |r| <= |s| && r == s[|s| - |r|..]
    ensures r == [] || !IsWhitespace(r[0])
    ensures AllWhitespace(s[..|s| - |r|])
  {
    if s != [] && IsWhitespace(s[0]) then TrimStart(s[1..]) else s
  }

  /** `s.trimEnd()` */
  function TrimEnd(s: string): (r: string)
    ensures |r| <= |s| && r == s[..|r|]
    ensures r == [] || !IsWhitespace(r[|r| - 1])
    ensures AllWhitespace(s[|r|..])
  {
    if s != [] && IsWhitespace(s[|s| - 1]) then
      var init := s[..|s| - 1];
      var r := TrimEnd(init);
      assert init[..|r|] == s[..|r|];
      assert s[|r|..] == init[|r|..] + [s[|s| - 1]];
      r
    else s
  }

  /** `s.trim()` */
  function Trim(s: string): string {
    TrimEnd(TrimStart(s))
  }

  /** `s.trim()` is empty exactly when every character of `s` is white space. */
  lemma TrimEmptyIffBlank(s: string)
    ensures Trim(s) == [] <==> AllWhitespace(s)
  {
    var t := TrimStart(s);
    if Trim(s) == [] {
      assert s[..|s|] == s;
    } else {
      var r := Trim(s);
      assert r[0] == t[0] == s[|s| - |t|];
    }
  }

  /** Truthiness of a possibly-absent string: present and non-empty. */
  predicate Truthy(s: Option<string>) {
    s.Some? && s.value != ""
  }
}

=== FILE: js_number.dfy ===
/** `parseFloat` on the decimal notation the app's amount fields accept, and
    the decimal rendering of whole numbers it must read back. The result is
    `None` where JavaScript yields `NaN`. */
module JsNumber {
  import opened Js

  function DigitOf(c: char): (d: nat)
    requires IsDigit(c)
    ensures d < 10
  {
    (c as int - '0' as int) as nat
  }

  function DigitChar(d: nat): (c: char)
    requires d < 10
    ensures IsDigit(c) && DigitOf(c) == d
  {
    ('0' as int + d) as char
  }

  predicate AllDigits(s: string) {
    forall i :: 0 <= i < |s| ==> IsDigit(s[i])
  }

  /** The number a run of decimal digits denotes. */
  function DigitsValue(s: string): nat
    requires AllDigits(s)
  {
    if s == [] then 0 else DigitsValue(s[..|s| - 1]) * 10 + DigitOf(s[|s| - 1])
  }

  function Pow10(n: nat): (p: nat)
    ensures p >= 1
  {
    if n == 0 then 1 else 10 * Pow10(n - 1)
  }

  /** The value of the digits after a decimal point: `"25"` is 0.25. */
  function FractionValue(y: string): (f: real)
    requires AllDigits(y)
    ensures 0.0 <= f
  {
    DigitsValue(y) as real / Pow10(|y|) as real
  }

  /** Length of the longest all-digit prefix. */
  function DigitRun(s: string): (n: nat)
    ensures n <= |s| && AllDigits(s[..n])
    ensures n < |s| ==> !IsDigit(s[n])
  {
    if s == [] || !IsDigit(s[0]) then 0 else 1 + DigitRun(s[1..])
  }

  /** The unsigned decimal literal at the start of `u`: digits, optionally a
      point and more digits, with at least one digit in all. */
  function UnsignedPrefix(u: string): (r: Option<real>)
    ensures r.Some? ==> r.value >= 0.0
  {
    var n := DigitRun(u);
    var whole := DigitsValue(u[..n]) as real;
    if n < |u| && u[n] == '.' then
      var frac := u[n + 1..];
      var m := DigitRun(frac);
      if n + m == 0 then None
      else Some(whole + FractionValue(frac[..m]))
    else if n == 0 then None
    else Some(whole)
  }

  /** `parseFloat(s)`: leading white space is skipped, then an optional sign
      and the longest decimal literal are read; whatever follows is ignored.
      No literal at all is `NaN`. */
  function ParseFloat(s: string): (r: Option<real>)
    ensures TrimStart(s) == [] ==> r.None?
  {
    var t := TrimStart(s);
    if t != [] && (t[0] == '-' || t[0] == '+') then
      var v := UnsignedPrefix(t[1..]);
      if v.None? then None else if t[0] == '-' then Some(-v.value) else v
    else
      UnsignedPrefix(t)
  }

  /** `String(k)` for a whole number `k >= 0`: its decimal digits, no leading
      zero. */
  function Decimal(k: nat): (s: string)
    ensures |s| >= 1 && AllDigits(s)
    ensures |s| > 1 ==> s[0] != '0'
  {
    if k < 10 then [DigitChar(k)] else Decimal(k / 10) + [DigitChar(k % 10)]
  }

  /** Reading back a rendered whole number gives the number. */
  lemma {:induction false} DecimalValue(k: nat)
    ensures DigitsValue(Decimal(k)) == k
    decreases k
  {
    if k >= 10 {
      var s := Decimal(k);
      assert s[..|s| - 1] == Decimal(k / 10);
      DecimalValue(k / 10);
    }
  }

  /** A digit run followed by a non-digit stops at the join. */
  lemma {:induction false} DigitRunOfDigits(x: string, rest: string)
    requires AllDigits(x)
    requires rest == [] || !IsDigit(rest[0])
    ensures DigitRun(x + rest) == |x|
    decreases |x|
  {
    if x != [] {
      assert (x + rest)[1..] == x[1..] + rest;
      DigitRunOfDigits(x[1..], rest);
    } else {
      assert x + rest == rest;
    }
  }

  /** The unsigned literal at the start of a rendered whole number followed
      by text that does not continue it is the number. */
  lemma UnsignedOfDecimal(k: nat, rest: string)
    requires rest == [] || (!IsDigit(rest[0]) && rest[0] != '.')
    ensures UnsignedPrefix(Decimal(k) + rest) == Some(k as real)
  {
    var s := Decimal(k);
    DigitRunOfDigits(s, rest);
    DecimalValue(k);
    assert (s + rest)[..|s|] == s;
  }

  /** Text that does not start with white space is its own `trimStart`. */
  lemma TrimStartNoop(s: string)
    requires s == [] || !IsWhitespace(s[0])
    ensures TrimStart(s) == s
  {
  }

  /** `parseFloat(String(k))` is `k`, and text after the number that does not
      continue a literal (no digit, no point, no exponent mark) is ignored. */
  lemma DecimalRoundTrip(k: nat, rest: string)
    requires rest == [] || (!IsDigit(rest[0]) && rest[0] != '.' && rest[0] != 'e' && rest[0] != 'E')
    ensures ParseFloat(Decimal(k) + rest) == Some(k as real)
  {
    var s := Decimal(k);
    var t := s + rest;
    assert t[0] == s[0] && IsDigit(t[0]);
    TrimStartNoop(t);
    UnsignedOfDecimal(k, rest);
  }

  /** A minus sign in front negates: `parseFloat("-" + String(k)) == -k`. */
  lemma NegativeDecimal(k: nat)
    ensures ParseFloat("-" + Decimal(k)) == Some(-(k as real))
  {
    var s := Decimal(k);
    var m := "-" + s;
    assert m[0] == '-';
    TrimStartNoop(m);
    assert m[1..] == s + [];
    UnsignedOfDecimal(k, []);
    assert UnsignedPrefix(m[1..]) == Some(k as real);
  }

  /** Text that starts (after white space) with neither a sign, a digit nor a
      point is `NaN`. */
  lemma NoLiteralIsNaN(s: string)
    requires var t := TrimStart(s); t == [] || (!IsDigit(t[0]) && t[0] != '.' && t[0] != '-' && t[0] != '+')
    ensures ParseFloat(s).None?
  {
  }

  /** How `x.y` splits at its point, for digit runs `x` and `y`. */
  lemma FractionShape(x: string, y: string)
    requires AllDigits(x) && AllDigits(y)
    ensures var u := x + "." + y;
      && DigitRun(u) == |x| && u[..|x|] == x && u[|x|] == '.'
      && u[|x| + 1..] == y && DigitRun(y) == |y| && y[..|y|] == y
  {
    var u := x + "." + y;
    assert x + ("." + y) == u;
    DigitRunOfDigits(x, "." + y);
    DigitRunOfDigits(y, []);
    assert y + [] == y;
  }

  /** The unsigned literal `x.y` for digit runs `x` and `y`, not both empty. */
  lemma UnsignedOfFraction(x: string, y: string)
    requires AllDigits(x) && AllDigits(y) && |x| + |y| > 0
    ensures UnsignedPrefix(x + "." + y).Some?
    ensures UnsignedPrefix(x + "." + y).value == DigitsValue(x) as real + FractionValue(y)
  {
    FractionShape(x, y);
  }

  /** A point between two digit runs, not both empty, reads as the whole part
      plus the fraction: `parseFloat("12.5") == 12.5`, `parseFloat(".5") == 0.5`,
      `parseFloat("3.") == 3`. */
  lemma FractionLiteral(x: string, y: string)
    requires AllDigits(x) && AllDigits(y) && |x| + |y| > 0
    ensures ParseFloat(x + "." + y).Some?
    ensures ParseFloat(x + "." + y).value == DigitsValue(x) as real + FractionValue(y)
  {
    var u := x + "." + y;
    assert u[0] == (if x == [] then '.' else x[0]);
    assert u[0] != '-' && u[0] != '+' && !IsWhitespace(u[0]);
    TrimStartNoop(u);
    UnsignedOfFraction(x, y);
  }

  /** A lone point is not a number. */
  lemma LonePointIsNaN()
    ensures ParseFloat(".") == None
  {
    var u: string := ".";
    assert u[0] == '.' && u[1..] == [];
    assert TrimStart(u) == u;
    assert DigitRun(u) == 0 && DigitRun(u[1..]) == 0;
  }
}

=== FILE: location_cache.dfy ===
/** The location cache service the location picker uses: an in-memory cache
    entry persisted to secure storage, a re-entrancy guard around acquisition,
    a GPS-then-network acquisition chain that prompts for permission, and a
    rate-limited position watch that runs only while the app is in the
    foreground.

    The singleton's fields become a `Service` record. Every operation takes
    the current time and the answers of the platform (permission, GPS,
    network, storage write) as parameters. Each asynchronous operation is
    split at its awaits: `getFreshLocation` into `BeginFresh` and
    `CompleteFresh`, `startLocationTracking` into its guard and
    `CompleteStart`, and the watch callback into `ReceiveReading` and the
    save it does not await. `World` and `Apply` interleave these steps. */
module LocationCache {
  import opened Js
  import opened LocationTypes

  /** The singleton's fields. `tracking` says whether `watchSubscription` is
      set; `leakedWatches` counts subscriptions that were overwritten while
      still active, which keep delivering readings and can no longer be
      removed. */
  datatype Service = Service(
    cachedLocation: Option<CachedLocation>,
    isUpdating: bool,
    lastUpdateTime: int,
    tracking: bool,
    leakedWatches: nat,
    config: Config)

  /** The state after construction, before the stored entry is loaded. */
  const Initial := Service(None, false, 0, false, 0, DefaultConfig)

  /** A new state together with what the call resolved to. */
  datatype Step<R> = Step(next: Service, result: R)

  /** The answers the platform gives one acquisition attempt: whether the
      permission prompt was granted, and the GPS (5-second race) and the
      low-accuracy network readings, `None` for a failure or timeout. */
  datatype Acquisition = Acquisition(granted: bool, gps: Option<Fix>, network: Option<Fix>)

  /** `loadCachedLocation`: adopt the stored entry (if storage held one that
      parsed) only when it is younger than `maxAgeMs`. */
  function LoadCachedLocation(s: Service, now: int, stored: Option<CachedLocation>): (r: Service)
    ensures stored.Some? && WithinMaxAge(stored.value, s.config, now) ==> r == s.(cachedLocation := stored)
    ensures !(stored.Some? && WithinMaxAge(stored.value, s.config, now)) ==> r == s
  {
    if stored.Some? && now - stored.value.timestamp < s.config.maxAgeMs then s.(cachedLocation := stored) else s
  }

  /** `saveCachedLocation`: the in-memory entry follows storage only when the
      write succeeds; a failed write is swallowed. */
  function SaveCachedLocation(s: Service, loc: CachedLocation, writeOk: bool): (r: Service)
    ensures r.cachedLocation == (if writeOk then Some(loc) else s.cachedLocation)
    ensures r.(cachedLocation := s.cachedLocation) == s
  {
    if writeOk then s.(cachedLocation := Some(loc)) else s
  }

  /** Whether the watch callback throws a reading away: it arrived within
      `updateIntervalMs` of the last accepted one, or its accuracy is poor. */
  predicate WatchDiscards(s: Service, now: int, fix: Fix) {
    now - s.lastUpdateTime < s.config.updateIntervalMs || PoorAccuracy(fix.accuracy, s.config)
  }

  /** The synchronous part of `handleLocationUpdate`: a reading that passes
      both filters moves `lastUpdateTime` to now at once and yields the GPS
      entry handed to the save, which the callback does not await. */
  function ReceiveReading(s: Service, now: int, fix: Fix): (r: Step<Option<CachedLocation>>)
    ensures WatchDiscards(s, now, fix) ==> r == Step(s, None)
    ensures !WatchDiscards(s, now, fix) ==>
      r == Step(s.(lastUpdateTime := now), Some(FromFix(fix, now, Gps)))
  {
    if now - s.lastUpdateTime < s.config.updateIntervalMs then Step(s, None)
    else if fix.accuracy.Some? && fix.accuracy.value != 0.0 && fix.accuracy.value > s.config.minAccuracyMeters then Step(s, None)
    else Step(s.(lastUpdateTime := now), Some(FromFix(fix, now, Gps)))
  }

  /** `handleLocationUpdate` with its save settling before anything else
      happens: an accepted reading is saved as a GPS entry and moves
      `lastUpdateTime` to now, whether or not the storage write succeeds. */
  function HandleLocationUpdate(s: Service, now: int, fix: Fix, writeOk: bool): (r: Service)
    ensures WatchDiscards(s, now, fix) ==> r == s
    ensures !WatchDiscards(s, now, fix) ==>
      && r.lastUpdateTime == now
      && r.cachedLocation == (if writeOk then Some(FromFix(fix, now, Gps)) else s.cachedLocation)
      && r.(cachedLocation := s.cachedLocation, lastUpdateTime := s.lastUpdateTime) == s
  {
    var received := ReceiveReading(s, now, fix);
    if received.result.Some? then SaveCachedLocation(received.next, received.result.value, writeOk) else received.next
  }

  /** After an accepted reading, every reading within the update interval is
      dropped, whatever its accuracy. */
  lemma WatchIsRateLimited(s: Service, t: int, fix: Fix, ok: bool, t': int, fix': Fix, ok': bool)
    requires !WatchDiscards(s, t, fix)
    requires t' - t < s.config.updateIntervalMs
    ensures HandleLocationUpdate(HandleLocationUpdate(s, t, fix, ok), t', fix', ok')
         == HandleLocationUpdate(s, t, fix, ok)
  {
  }

  /** A reading with poor accuracy never overwrites the cached entry. */
  lemma PoorReadingNeverCached(s: Service, now: int, fix: Fix, ok: bool)
    requires PoorAccuracy(fix.accuracy, s.config)
    ensures HandleLocationUpdate(s, now, fix, ok).cachedLocation == s.cachedLocation
  {
  }

  /** Entering `getFreshLocation`: either the call proceeds holding the
      update guard, or it returns at once with the current cache. */
  datatype Begun = Proceed(next: Service) | Returned(next: Service, result: Option<CachedLocation>)

  function BeginFresh(s: Service): (r: Begun)
    ensures s.isUpdating ==> r == Returned(s, s.cachedLocation)
    ensures !s.isUpdating ==> r.Proceed? && r.next.isUpdating && r.next.(isUpdating := false) == s
  {
    if s.isUpdating then Returned(s, s.cachedLocation) else Proceed(s.(isUpdating := true))
  }

  /** The rest of `getFreshLocation`, once the platform has answered: GPS
      first, then the network reading. A success is returned even if saving
      it failed; a refusal or a double failure returns the existing cache,
      possibly null. Every path releases the guard. */
  function CompleteFresh(s: Service, now: int, a: Acquisition, writeOk: bool): (r: Step<Option<CachedLocation>>)
    requires s.isUpdating
    ensures !r.next.isUpdating
    ensures r.next.(isUpdating := true, cachedLocation := s.cachedLocation) == s
    ensures !a.granted ==> r == Step(s.(isUpdating := false), s.cachedLocation)
    ensures a.granted && a.gps.Some? ==>
      && r.result == Some(FromFix(a.gps.value, now, Gps))
      && r.next.cachedLocation == (if writeOk then r.result else s.cachedLocation)
    ensures a.granted && a.gps.None? && a.network.Some? ==>
      && r.result == Some(FromFix(a.network.value, now, Network))
      && r.next.cachedLocation == (if writeOk then r.result else s.cachedLocation)
    ensures a.granted && a.gps.None? && a.network.None? ==>
      r == Step(s.(isUpdating := false), s.cachedLocation)
  {
    var released := s.(isUpdating := false);
    if !a.granted then Step(released, s.cachedLocation)
    else if a.gps.Some? then
      var loc := FromFix(a.gps.value, now, Gps);
      Step(SaveCachedLocation(released, loc, writeOk), Some(loc))
    else if a.network.Some? then
      var loc := FromFix(a.network.value, now, Network);
      Step(SaveCachedLocation(released, loc, writeOk), Some(loc))
    else Step(released, s.cachedLocation)
  }

  /** `getFreshLocation` run without interruption. A call made while another
      is in flight changes nothing and yields the current cache; otherwise the
      guard is taken and released again. */
  function GetFreshLocation(s: Service, now: int, a: Acquisition, writeOk: bool): (r: Step<Option<CachedLocation>>)
    ensures r.next.isUpdating == s.isUpdating
    ensures s.isUpdating ==> r == Step(s, s.cachedLocation)
    ensures r.next.config == s.config && r.next.tracking == s.tracking && r.next.lastUpdateTime == s.lastUpdateTime
  {
    match BeginFresh(s)
    case Returned(n, loc) => Step(n, loc)
    case Proceed(n) => CompleteFresh(n, now, a, writeOk)
  }

  /** A second call arriving while the first is suspended collapses into it:
      it returns the cache as it was and issues no acquisition, and the first
      call's completion then releases the guard. */
  lemma ConcurrentFreshCallsCollapse(s: Service, now: int, a: Acquisition, writeOk: bool)
    requires !s.isUpdating
    ensures BeginFresh(s).Proceed?
    ensures var mid := BeginFresh(s).next;
      && BeginFresh(mid) == Returned(mid, s.cachedLocation)
      && !CompleteFresh(mid, now, a, writeOk).next.isUpdating
  {
  }

  /** `getLocation`: a fresh cache is returned untouched; otherwise, unless an
      update is already in flight, a fresh acquisition is made; failing that a
      cache younger than `maxAgeMs` is returned re-tagged `cached`; else null.
      The ages are measured against the time the call started. */
  function GetLocation(s: Service, now: int, a: Acquisition, writeOk: bool): (r: Step<Option<CachedLocation>>)
    ensures IsFresh(s.cachedLocation, s.config, now) ==> r == Step(s, s.cachedLocation)
    ensures r.next.isUpdating == s.isUpdating
    ensures r.next.config == s.config && r.next.tracking == s.tracking
    ensures r.result.None? ==> r.next.cachedLocation.None? || !WithinMaxAge(r.next.cachedLocation.value, s.config, now)
    ensures !IsFresh(s.cachedLocation, s.config, now) && !s.isUpdating && a.granted && a.gps.Some? ==>
      r.result == Some(FromFix(a.gps.value, now, Gps))
    ensures !IsFresh(s.cachedLocation, s.config, now) && !s.isUpdating && a.granted && a.gps.None? && a.network.Some? ==>
      r.result == Some(FromFix(a.network.value, now, Network))
    ensures !IsFresh(s.cachedLocation, s.config, now) && s.isUpdating ==>
      r == Step(s, if s.cachedLocation.Some? && WithinMaxAge(s.cachedLocation.value, s.config, now)
                   then Some(Retagged(s.cachedLocation.value)) else None)
  {
    if s.cachedLocation.Some? && now - s.cachedLocation.value.timestamp < s.config.staleThresholdMs then
      Step(s, s.cachedLocation)
    else
      var attempt := if !s.isUpdating then GetFreshLocation(s, now, a, writeOk) else Step(s, None);
      if attempt.result.Some? then attempt
      else
        var c := attempt.next.cachedLocation;
        if c.Some? && now - c.value.timestamp < attempt.next.config.maxAgeMs then
          Step(attempt.next, Some(Retagged(c.value)))
        else Step(attempt.next, None)
  }

  /** When the acquisition fails outright, a stale cache comes back through
      `getFreshLocation` with its original source: the `cached` re-tag is only
      reached while another update is in flight. */
  lemma StaleCacheKeepsItsSource(s: Service, now: int, a: Acquisition, writeOk: bool)
    requires s.cachedLocation.Some? && !IsFresh(s.cachedLocation, s.config, now) && !s.isUpdating
    requires !a.granted || (a.gps.None? && a.network.None?)
    ensures GetLocation(s, now, a, writeOk) == Step(s, s.cachedLocation)
  {
  }

  /** While an update is in flight, a stale entry younger than `maxAgeMs` is
      returned re-tagged `cached`, and nothing changes. */
  lemma BusyStaleCacheIsRetagged(s: Service, now: int, a: Acquisition, writeOk: bool)
    requires s.isUpdating && s.cachedLocation.Some?
    requires !IsFresh(s.cachedLocation, s.config, now) && WithinMaxAge(s.cachedLocation.value, s.config, now)
    ensures GetLocation(s, now, a, writeOk) == Step(s, Some(Retagged(s.cachedLocation.value)))
  {
  }

  /** At an age of exactly the stale threshold `isLocationStale` reports the
      entry as not stale, yet `getLocation` does not serve it: a GPS fix is
      taken instead. */
  lemma ThresholdAgeIsReacquired(s: Service, now: int, fix: Fix)
    requires s.cachedLocation.Some? && !s.isUpdating
    requires now - s.cachedLocation.value.timestamp == s.config.staleThresholdMs
    ensures !IsLocationStale(s, now)
    ensures GetLocation(s, now, Acquisition(true, Some(fix), None), true).result == Some(FromFix(fix, now, Gps))
  {
  }

  /** `updateLocationIfStale`: acquire when there is no cache or it is stale. */
  function UpdateLocationIfStale(s: Service, now: int, a: Acquisition, writeOk: bool): (r: Service)
    ensures !IsStale(s.cachedLocation, s.config, now) ==> r == s
    ensures IsStale(s.cachedLocation, s.config, now) ==> r == GetFreshLocation(s, now, a, writeOk).next
  {
    if s.cachedLocation.None? then GetFreshLocation(s, now, a, writeOk).next
    else if now - s.cachedLocation.value.timestamp > s.config.staleThresholdMs then GetFreshLocation(s, now, a, writeOk).next
    else s
  }

  /** `isLocationStale` */
  function IsLocationStale(s: Service, now: int): (stale: bool)
    ensures stale <==> s.cachedLocation.None? || now - s.cachedLocation.value.timestamp > s.config.staleThresholdMs
  {
    IsStale(s.cachedLocation, s.config, now)
  }

  /** `getLocationAge` */
  function GetLocationAge(s: Service, now: int): (minutes: Option<int>)
    ensures minutes.Some? <==> s.cachedLocation.Some?
    ensures minutes.Some? ==>
      minutes.value * 60000 <= now - s.cachedLocation.value.timestamp < (minutes.value + 1) * 60000
  {
    AgeMinutes(s.cachedLocation, now)
  }

  /** The guard of `startLocationTracking`, checked before its first await:
      the call goes on to the permission prompt only while no watch is set. */
  predicate StartPassesGuard(s: Service) {
    !s.tracking
  }

  /** The rest of `startLocationTracking`, once the permission prompt and
      `watchPositionAsync` have answered (`granted` folds both). The new
      subscription is assigned over whatever the field holds by then: one set
      meanwhile by an overlapping start is overwritten and keeps running. */
  function CompleteStart(s: Service, granted: bool): (r: Service)
    ensures !granted ==> r == s
    ensures granted ==> r.tracking
    ensures granted && !s.tracking ==> r.leakedWatches == s.leakedWatches
    ensures granted && s.tracking ==> r.leakedWatches == s.leakedWatches + 1
    ensures r.(tracking := s.tracking, leakedWatches := s.leakedWatches) == s
  {
    if !granted then s
    else if s.tracking then s.(leakedWatches := s.leakedWatches + 1)
    else s.(tracking := true)
  }

  /** `startLocationTracking` run without interruption: a no-op while a watch
      exists; otherwise a watch is started when the prompt is granted. */
  function StartTracking(s: Service, granted: bool): (r: Service)
    ensures s.tracking ==> r == s
    ensures r.tracking == (s.tracking || granted)
    ensures r.leakedWatches == s.leakedWatches
    ensures r.(tracking := s.tracking) == s
  {
    if StartPassesGuard(s) then CompleteStart(s, granted) else s
  }

  /** `stopLocationTracking`: removes the subscription the field holds; a
      leaked one is out of its reach. */
  function StopTracking(s: Service): (r: Service)
    ensures !r.tracking && r.leakedWatches == s.leakedWatches
    ensures r.(tracking := s.tracking) == s
  {
    s.(tracking := false)
  }

  /** Two starts that both pass the guard before either prompt resolves (the
      constructor's and an `active` event's, say) both assign a watch: one of
      the two subscriptions is lost while still running. */
  lemma OverlappingStartsLeakAWatch(s: Service)
    requires StartPassesGuard(s)
    ensures var r := CompleteStart(CompleteStart(s, true), true);
      r.tracking && r.leakedWatches == s.leakedWatches + 1
  {
  }

  /** A start still waiting on its prompt when the app goes to the background
      finds nothing stopped in its way and sets its watch afterwards: the
      watch runs in the background. */
  lemma StopDuringStartLeavesWatch(s: Service)
    requires StartPassesGuard(s)
    ensures !StopTracking(s).tracking
    ensures CompleteStart(StopTracking(s), true).tracking
  {
  }

  /** `handleAppStateChange`: coming to the foreground refreshes a stale
      location and starts tracking; going to the background stops tracking;
      other states change nothing. The refresh and the tracking start touch
      disjoint fields, so their interleaving does not matter. */
  function HandleAppStateChange(s: Service, next: AppState, now: int, a: Acquisition, writeOk: bool, watchGranted: bool): (r: Service)
    ensures next == Background ==> r == StopTracking(s)
    ensures next != Active && next != Background ==> r == s
    ensures next == Active ==> r.tracking == (s.tracking || watchGranted)
    ensures next == Active ==> r.cachedLocation == UpdateLocationIfStale(s, now, a, writeOk).cachedLocation
  {
    match next
    case Active => StartTracking(UpdateLocationIfStale(s, now, a, writeOk), watchGranted)
    case Background => StopTracking(s)
    case _ => s
  }

  /** A start that begins after a granted one has completed is a no-op:
      starting twice in sequence is starting once. */
  lemma StartTrackingIdempotent(s: Service, g1: bool, g2: bool)
    requires g1
    ensures StartTracking(StartTracking(s, g1), g2) == StartTracking(s, g1)
  {
  }

  /** A refused start leaves nothing behind, so the next start decides on its
      own prompt. */
  lemma RefusedStartLeavesNextToDecide(s: Service, g2: bool)
    ensures StartTracking(StartTracking(s, false), g2) == StartTracking(s, g2)
  {
  }

  /** `updateConfig` */
  function UpdateServiceConfig(s: Service, p: ConfigPatch): (r: Service)
    ensures r.config == UpdateConfig(s.config, p) && r.(config := s.config) == s
  {
    s.(config := UpdateConfig(s.config, p))
  }

  /** The service together with what is in flight around it: the entries
      whose unawaited storage writes have not settled, in the order they were
      started, and the starts of tracking that passed their guard and wait on
      the prompt. An acquisition in flight is the service's own `isUpdating`. */
  datatype World = World(service: Service, saving: seq<CachedLocation>, starting: nat)

  /** Whether some subscription, the current one or a leaked one, delivers
      readings. */
  predicate WatchLive(s: Service) {
    s.tracking || s.leakedWatches > 0
  }

  /** One step of the service after it has loaded its stored entry. The
      public calls decompose into these: `getLocation` and
      `updateLocationIfStale` enter `getFreshLocation` or change nothing, and
      an app-state change is a refresh, a start or a stop. */
  datatype Event =
    | Reading(fix: Fix)
    | SaveSettles(index: nat, ok: bool)
    | FreshBegins
    | FreshCompletes(a: Acquisition, ok: bool)
    | StartBegins
    | StartCompletes(granted: bool)
    | Stop
    | Configure(patch: ConfigPatch)

  /** The pending write at `i` settles: memory follows it only when it
      succeeded, and it leaves the pending list. */
  function Settle(w: World, i: nat, ok: bool): (r: World)
    ensures i < |w.saving| ==>
      && r.service == SaveCachedLocation(w.service, w.saving[i], ok)
      && |r.saving| == |w.saving| - 1
      && (forall k :: 0 <= k < |r.saving| ==> r.saving[k] in w.saving)
    ensures i >= |w.saving| ==> r == w
    ensures r.starting == w.starting
  {
    if i < |w.saving| then
      World(SaveCachedLocation(w.service, w.saving[i], ok), w.saving[..i] + w.saving[i + 1..], w.starting)
    else w
  }

  /** An event at time `now`. A completion with nothing in flight, and a
      reading with no live subscription, do not occur and change nothing. */
  function Apply(w: World, now: int, e: Event): World {
    match e
    case Reading(fix) =>
      if WatchLive(w.service) then
        var received := ReceiveReading(w.service, now, fix);
        World(received.next, if received.result.Some? then w.saving + [received.result.value] else w.saving, w.starting)
      else w
    case SaveSettles(i, ok) => Settle(w, i, ok)
    case FreshBegins => w.(service := BeginFresh(w.service).next)
    case FreshCompletes(a, ok) =>
      if w.service.isUpdating then w.(service := CompleteFresh(w.service, now, a, ok).next) else w
    case StartBegins => if StartPassesGuard(w.service) then w.(starting := w.starting + 1) else w
    case StartCompletes(g) =>
      if w.starting > 0 then World(CompleteStart(w.service, g), w.saving, w.starting - 1) else w
    case Stop => w.(service := StopTracking(w.service))
    case Configure(p) => w.(service := UpdateServiceConfig(w.service, p))
  }

  /** A reading whose save settles at once is `handleLocationUpdate` run
      without interruption. */
  lemma ReadingThenSettleIsHandleLocationUpdate(s: Service, now: int, fix: Fix, ok: bool)
    requires WatchLive(s)
    ensures var w := Apply(World(s, [], 0), now, Reading(fix));
      Apply(w, now, SaveSettles(0, ok)).service == HandleLocationUpdate(s, now, fix, ok)
  {
  }

  /** Entering and completing an acquisition with nothing in between is
      `getFreshLocation` run without interruption. */
  lemma BeginThenCompleteIsGetFreshLocation(w: World, now: int, a: Acquisition, ok: bool)
    requires !w.service.isUpdating
    ensures Apply(Apply(w, now, FreshBegins), now, FreshCompletes(a, ok)).service
         == GetFreshLocation(w.service, now, a, ok).next
  {
  }

  /** Neither the cached entry, nor a pending write, nor the last accepted
      watch reading lies in the future of `now`. */
  predicate NotAhead(w: World, now: int) {
    && (w.service.cachedLocation.Some? ==> w.service.cachedLocation.value.timestamp <= now)
    && w.service.lastUpdateTime <= now
    && forall k :: 0 <= k < |w.saving| ==> w.saving[k].timestamp <= now
  }

  /** One event that does not run the clock backwards keeps every timestamp
      in the past and never drops the cached entry. Only a settling write can
      replace the entry with an older one. */
  lemma ApplyKeepsTimestampsOrdered(w: World, t0: int, now: int, e: Event)
    requires NotAhead(w, t0) && t0 <= now
    ensures NotAhead(Apply(w, now, e), now)
    ensures w.service.cachedLocation.Some? ==> Apply(w, now, e).service.cachedLocation.Some?
    ensures !e.SaveSettles? && w.service.cachedLocation.Some? ==>
      w.service.cachedLocation.value.timestamp <= Apply(w, now, e).service.cachedLocation.value.timestamp
  {
    if e.SaveSettles? && e.index < |w.saving| {
      var r := Apply(w, now, e);
      forall k | 0 <= k < |r.saving|
        ensures r.saving[k].timestamp <= now
      {
        assert r.saving[k] in w.saving;
      }
    }
  }

  /** A timed sequence of events, in order. */
  function Run(w: World, events: seq<(int, Event)>): World
    decreases |events|
  {
    if events == [] then w else Run(Apply(w, events[0].0, events[0].1), events[1..])
  }

  /** The events are stamped no earlier than `t0` and in non-decreasing order. */
  predicate TimesFrom(t0: int, events: seq<(int, Event)>) {
    && (events != [] ==> t0 <= events[0].0)
    && forall i :: 0 < i < |events| ==> events[i - 1].0 <= events[i].0
  }

  /** Over any interleaving whose clock never goes backwards, no timestamp
      passes the last event and a cached entry is never dropped. */
  lemma {:induction false} RunKeepsTimestampsInPast(w: World, t0: int, events: seq<(int, Event)>)
    requires NotAhead(w, t0) && TimesFrom(t0, events)
    ensures var last := if events == [] then t0 else events[|events| - 1].0;
      NotAhead(Run(w, events), last)
    ensures w.service.cachedLocation.Some? ==> Run(w, events).service.cachedLocation.Some?
    decreases |events|
  {
    if events != [] {
      var now := events[0].0;
      ApplyKeepsTimestampsOrdered(w, t0, now, events[0].1);
      assert TimesFrom(now, events[1..]) by {
        forall i | 0 < i < |events[1..]|
          ensures events[1..][i - 1].0 <= events[1..][i].0
        {
          assert events[1..][i] == events[i + 1];
        }
      }
      RunKeepsTimestampsInPast(Apply(w, now, events[0].1), now, events[1..]);
    }
  }

  /** The cached entry can go back in time. A watch reading at two minutes
      starts its write; an acquisition ten seconds later saves a newer fix;
      then the first write settles and overwrites it with the older entry. */
  lemma LateWatchSaveRollsCacheBack(fix: Fix)
    requires fix.accuracy.None?
    ensures var w0 := World(Initial.(tracking := true), [], 0);
      var w1 := Apply(w0, 120000, Reading(fix));
      var w2 := Apply(w1, 130000, FreshBegins);
      var w3 := Apply(w2, 130000, FreshCompletes(Acquisition(true, Some(fix), None), true));
      var w4 := Apply(w3, 131000, SaveSettles(0, true));
      && w3.service.cachedLocation == Some(FromFix(fix, 130000, Gps))
      && w4.service.cachedLocation == Some(FromFix(fix, 120000, Gps))
  {
  }
}

=== FILE: location_cache_src.dfy ===
/** The second variant of the location cache service. It differs from the
    one the picker imports in four ways:
    - it only checks the existing permission and whether location services
      are on, and never prompts;
    - it refreshes on a two-minute interval timer instead of a position
      watch, and that timer filters readings by accuracy only;
    - it has a last-resort Bacolod city-centre coordinate, which it persists
      as if it were a network fix;
    - it remembers the last saved coordinates and can clear the cache.

    As in `LocationCache`, every operation takes the current time and the
    platform's answers as parameters, and tracking starts and timer ticks
    are split at their awaits. */
module LocationCacheSrc {
  import opened Js
  import opened LocationTypes

  /** Coordinates remembered from the last accepted reading. */
  datatype LatLon = LatLon(lat: real, lon: real)

  /** The singleton's fields. `timerRunning` says whether `manualUpdateTimer`
      is set; `leakedTimers` counts intervals whose handle was overwritten
      while they were still scheduled, which keep firing and can no longer be
      cleared. */
  datatype Service = Service(
    cachedLocation: Option<CachedLocation>,
    isUpdating: bool,
    lastUpdateTime: int,
    lastSavedLocation: Option<LatLon>,
    timerRunning: bool,
    leakedTimers: nat,
    config: Config)

  const Initial := Service(None, false, 0, None, false, 0, DefaultConfig)

  datatype Step<R> = Step(next: Service, result: R)

  /** The answers to one acquisition attempt: the existing permission, whether
      location services are enabled, and the high-accuracy GPS reading raced
      against a 5-second timeout (`None` for a failure or timeout). */
  datatype Attempt = Attempt(granted: bool, servicesOn: bool, gps: Option<Fix>)

  /** The Bacolod city-centre coordinate used when nothing else is known. */
  function BacolodFallback(now: int): (loc: CachedLocation)
    ensures loc.latitude == 10.6772 && loc.longitude == 122.9547
    ensures loc.accuracy.None? && loc.timestamp == now && loc.source == Network
  {
    CachedLocation(10.6772, 122.9547, None, now, Network)
  }

  /** `loadCachedLocation`: a stored entry younger than `maxAgeMs` becomes
      the cache, and its coordinates the last saved location. */
  function LoadCachedLocation(s: Service, now: int, stored: Option<CachedLocation>): (r: Service)
    ensures stored.Some? && WithinMaxAge(stored.value, s.config, now) ==>
      r == s.(cachedLocation := stored,
              lastSavedLocation := Some(LatLon(stored.value.latitude, stored.value.longitude)))
    ensures !(stored.Some? && WithinMaxAge(stored.value, s.config, now)) ==> r == s
  {
    if stored.Some? && now - stored.value.timestamp < s.config.maxAgeMs then
      s.(cachedLocation := stored, lastSavedLocation := Some(LatLon(stored.value.latitude, stored.value.longitude)))
    else s
  }

  /** `saveCachedLocation`: memory follows storage only on a successful write. */
  function SaveCachedLocation(s: Service, loc: CachedLocation, writeOk: bool): (r: Service)
    ensures r.cachedLocation == (if writeOk then Some(loc) else s.cachedLocation)
    ensures r.(cachedLocation := s.cachedLocation) == s
  {
    if writeOk then s.(cachedLocation := Some(loc)) else s
  }

  /** `handleLocationUpdate` of this variant. The distance to the last saved
      location and the time since the last update only choose a log message,
      so the one filter is accuracy. An accepted reading is saved as GPS and
      sets `lastUpdateTime` and `lastSavedLocation`. */
  function HandleLocationUpdate(s: Service, now: int, fix: Fix, writeOk: bool): (r: Service)
    ensures PoorAccuracy(fix.accuracy, s.config) ==> r == s
    ensures !PoorAccuracy(fix.accuracy, s.config) ==>
      && r.cachedLocation == (if writeOk then Some(FromFix(fix, now, Gps)) else s.cachedLocation)
      && r.lastUpdateTime == now
      && r.lastSavedLocation == Some(LatLon(fix.latitude, fix.longitude))
      && r.isUpdating == s.isUpdating && r.timerRunning == s.timerRunning && r.config == s.config
      && r.leakedTimers == s.leakedTimers
  {
    if fix.accuracy.Some? && fix.accuracy.value != 0.0 && fix.accuracy.value > s.config.minAccuracyMeters then s
    else
      SaveCachedLocation(s, FromFix(fix, now, Gps), writeOk)
        .(lastUpdateTime := now, lastSavedLocation := Some(LatLon(fix.latitude, fix.longitude)))
  }

  /** Unlike the other variant there is no rate limit: two good readings a
      millisecond apart are both taken. */
  lemma NoRateLimit(s: Service, now: int, f1: Fix, f2: Fix)
    requires !PoorAccuracy(f1.accuracy, s.config) && !PoorAccuracy(f2.accuracy, s.config)
    ensures HandleLocationUpdate(HandleLocationUpdate(s, now, f1, true), now + 1, f2, true).cachedLocation
         == Some(FromFix(f2, now + 1, Gps))
  {
  }

  datatype Begun = Proceed(next: Service) | Returned(next: Service, result: Option<CachedLocation>)

  /** Entering `getFreshLocation`: the re-entrancy guard. */
  function BeginFresh(s: Service): (r: Begun)
    ensures s.isUpdating ==> r == Returned(s, s.cachedLocation)
    ensures !s.isUpdating ==> r.Proceed? && r.next.isUpdating && r.next.(isUpdating := false) == s
  {
    if s.isUpdating then Returned(s, s.cachedLocation) else Proceed(s.(isUpdating := true))
  }

  /** The rest of `getFreshLocation`. Without permission or with location
      services off, the cache comes back unchanged. A GPS fix is saved and
      returned. A GPS failure returns a `cached`-tagged copy of the existing
      entry without overwriting it, or null when there is none. */
  function CompleteFresh(s: Service, now: int, at: Attempt, writeOk: bool): (r: Step<Option<CachedLocation>>)
    requires s.isUpdating
    ensures !r.next.isUpdating
    ensures r.next.(isUpdating := true, cachedLocation := s.cachedLocation) == s
    ensures !(at.granted && at.servicesOn) ==> r == Step(s.(isUpdating := false), s.cachedLocation)
    ensures at.granted && at.servicesOn && at.gps.Some? ==>
      && r.result == Some(FromFix(at.gps.value, now, Gps))
      && r.next.cachedLocation == (if writeOk then r.result else s.cachedLocation)
    ensures at.granted && at.servicesOn && at.gps.None? ==>
      && r.next == s.(isUpdating := false)
      && r.result == (if s.cachedLocation.Some? then Some(Retagged(s.cachedLocation.value)) else None)
  {
    var released := s.(isUpdating := false);
    if !(at.granted && at.servicesOn) then Step(released, s.cachedLocation)
    else if at.gps.Some? then
      var loc := FromFix(at.gps.value, now, Gps);
      Step(SaveCachedLocation(released, loc, writeOk), Some(loc))
    else if s.cachedLocation.Some? then Step(released, Some(Retagged(s.cachedLocation.value)))
    else Step(released, None)
  }

  /** `getFreshLocation` run without interruption. */
  function GetFreshLocation(s: Service, now: int, at: Attempt, writeOk: bool): (r: Step<Option<CachedLocation>>)
    ensures r.next.isUpdating == s.isUpdating
    ensures s.isUpdating ==> r == Step(s, s.cachedLocation)
    ensures r.next.(cachedLocation := s.cachedLocation, isUpdating := s.isUpdating) == s
  {
    match BeginFresh(s)
    case Returned(n, loc) => Step(n, loc)
    case Proceed(n) => CompleteFresh(n, now, at, writeOk)
  }

  /** `getLocation`: fresh cache, else a fresh acquisition (unless one is in
      flight), else a `cached`-tagged entry younger than `maxAgeMs`, else the
      Bacolod fallback, which is saved and returned. This variant always
      resolves to a location. */
  function GetLocation(s: Service, now: int, at: Attempt, writeOk: bool): (r: Step<Option<CachedLocation>>)
    ensures r.result.Some?
    ensures IsFresh(s.cachedLocation, s.config, now) ==> r == Step(s, s.cachedLocation)
    ensures r.next.isUpdating == s.isUpdating && r.next.config == s.config && r.next.timerRunning == s.timerRunning
    ensures !IsFresh(s.cachedLocation, s.config, now) && !s.isUpdating && at.granted && at.servicesOn && at.gps.Some? ==>
      r.result == Some(FromFix(at.gps.value, now, Gps))
    ensures !IsFresh(s.cachedLocation, s.config, now) && s.isUpdating && s.cachedLocation.Some?
            && WithinMaxAge(s.cachedLocation.value, s.config, now) ==>
      r == Step(s, Some(Retagged(s.cachedLocation.value)))
    ensures !IsFresh(s.cachedLocation, s.config, now) && s.isUpdating
            && !(s.cachedLocation.Some? && WithinMaxAge(s.cachedLocation.value, s.config, now)) ==>
      r == Step(SaveCachedLocation(s, BacolodFallback(now), writeOk), Some(BacolodFallback(now)))
  {
    if s.cachedLocation.Some? && now - s.cachedLocation.value.timestamp < s.config.staleThresholdMs then
      Step(s, s.cachedLocation)
    else
      var attempt := if !s.isUpdating then GetFreshLocation(s, now, at, writeOk) else Step(s, None);
      if attempt.result.Some? then attempt
      else
        var c := attempt.next.cachedLocation;
        if c.Some? && now - c.value.timestamp < attempt.next.config.maxAgeMs then
          Step(attempt.next, Some(Retagged(c.value)))
        else
          var fallback := BacolodFallback(now);
          Step(SaveCachedLocation(attempt.next, fallback, writeOk), Some(fallback))
  }

  /** With no cache at all and no fix to be had, `getLocation` saves and
      returns the Bacolod coordinate. */
  lemma EmptyCacheFallsBackToBacolod(s: Service, now: int, at: Attempt)
    requires s.cachedLocation.None?
    requires !(at.granted && at.servicesOn && at.gps.Some?)
    ensures GetLocation(s, now, at, true).result == Some(BacolodFallback(now))
    ensures GetLocation(s, now, at, true).next.cachedLocation == Some(BacolodFallback(now))
  {
  }

  /** Once the fallback has been saved, a later call within the stale
      threshold returns it directly: no acquisition, no change. */
  lemma FallbackShortCircuits(s: Service, now: int, at: Attempt, now': int, at': Attempt, writeOk': bool)
    requires s.cachedLocation.None?
    requires !(at.granted && at.servicesOn && at.gps.Some?)
    requires now' - now < s.config.staleThresholdMs
    ensures var s1 := GetLocation(s, now, at, true).next;
      GetLocation(s1, now', at', writeOk') == Step(s1, Some(BacolodFallback(now)))
  {
    EmptyCacheFallsBackToBacolod(s, now, at);
  }

  /** `updateLocationIfStale` */
  function UpdateLocationIfStale(s: Service, now: int, at: Attempt, writeOk: bool): (r: Service)
    ensures !IsStale(s.cachedLocation, s.config, now) ==> r == s
    ensures IsStale(s.cachedLocation, s.config, now) ==> r == GetFreshLocation(s, now, at, writeOk).next
  {
    if s.cachedLocation.None? then GetFreshLocation(s, now, at, writeOk).next
    else if now - s.cachedLocation.value.timestamp > s.config.staleThresholdMs then GetFreshLocation(s, now, at, writeOk).next
    else s
  }

  /** `isLocationStale` */
  function IsLocationStale(s: Service, now: int): (stale: bool)
    ensures stale <==> s.cachedLocation.None? || now - s.cachedLocation.value.timestamp > s.config.staleThresholdMs
  {
    IsStale(s.cachedLocation, s.config, now)
  }

  /** `getLocationAge` */
  function GetLocationAge(s: Service, now: int): (minutes: Option<int>)
    ensures minutes.Some? <==> s.cachedLocation.Some?
    ensures minutes.Some? ==>
      minutes.value * 60000 <= now - s.cachedLocation.value.timestamp < (minutes.value + 1) * 60000
  {
    AgeMinutes(s.cachedLocation, now)
  }

  /** `updateConfig` */
  function UpdateServiceConfig(s: Service, p: ConfigPatch): (r: Service)
    ensures r.config == UpdateConfig(s.config, p) && r.(config := s.config) == s
  {
    s.(config := UpdateConfig(s.config, p))
  }

  /** The guard of `startLocationTracking`, checked before its first await:
      the call goes on to read the permission only while no timer is set. */
  predicate StartPassesGuard(s: Service) {
    !s.timerRunning
  }

  /** The rest of `startLocationTracking`, once the permission and the
      services flag have been read: with both, `startManualLocationUpdates`
      schedules an interval and stores its handle over whatever the field
      holds by then. A handle set meanwhile by an overlapping start is
      overwritten and its interval keeps firing. */
  function CompleteStart(s: Service, granted: bool, servicesOn: bool): (r: Service)
    ensures !(granted && servicesOn) ==> r == s
    ensures granted && servicesOn ==> r.timerRunning
    ensures granted && servicesOn && !s.timerRunning ==> r.leakedTimers == s.leakedTimers
    ensures granted && servicesOn && s.timerRunning ==> r.leakedTimers == s.leakedTimers + 1
    ensures r.(timerRunning := s.timerRunning, leakedTimers := s.leakedTimers) == s
  {
    if !(granted && servicesOn) then s
    else if s.timerRunning then s.(leakedTimers := s.leakedTimers + 1)
    else s.(timerRunning := true)
  }

  /** `startLocationTracking` run without interruption: nothing if the
      interval timer already exists; otherwise the timer starts when
      permission is already granted and location services are on (checked,
      never prompted). */
  function StartTracking(s: Service, granted: bool, servicesOn: bool): (r: Service)
    ensures s.timerRunning ==> r == s
    ensures r.timerRunning == (s.timerRunning || (granted && servicesOn))
    ensures r.leakedTimers == s.leakedTimers
    ensures r.(timerRunning := s.timerRunning) == s
  {
    if StartPassesGuard(s) then CompleteStart(s, granted, servicesOn) else s
  }

  /** `stopLocationTracking`: clears the interval whose handle the field
      holds; a leaked interval is out of its reach. */
  function StopTracking(s: Service): (r: Service)
    ensures !r.timerRunning && r.leakedTimers == s.leakedTimers
    ensures r.(timerRunning := s.timerRunning) == s
  {
    s.(timerRunning := false)
  }

  /** Whether some interval, the current one or a leaked one, still fires. */
  predicate TimerLive(s: Service) {
    s.timerRunning || s.leakedTimers > 0
  }

  /** The interval callback after its awaits: when permission and services
      allow and a position came back, the reading goes to
      `handleLocationUpdate`, whether or not the timer has been cleared since
      the callback began. */
  function CompleteTick(s: Service, now: int, at: Attempt, writeOk: bool): (r: Service)
    ensures !(at.granted && at.servicesOn && at.gps.Some?) ==> r == s
    ensures at.granted && at.servicesOn && at.gps.Some? ==>
      r == HandleLocationUpdate(s, now, at.gps.value, writeOk)
  {
    if at.granted && at.servicesOn && at.gps.Some? then
      HandleLocationUpdate(s, now, at.gps.value, writeOk)
    else s
  }

  /** One tick of a two-minute interval, run without interruption. With no
      interval scheduled nothing fires. */
  function TimerTick(s: Service, now: int, at: Attempt, writeOk: bool): (r: Service)
    ensures !TimerLive(s) ==> r == s
    ensures !(at.granted && at.servicesOn && at.gps.Some?) ==> r == s
    ensures TimerLive(s) && at.granted && at.servicesOn && at.gps.Some? ==>
      r == HandleLocationUpdate(s, now, at.gps.value, writeOk)
  {
    if TimerLive(s) then CompleteTick(s, now, at, writeOk) else s
  }

  /** `handleAppStateChange` */
  function HandleAppStateChange(s: Service, next: AppState, now: int, at: Attempt, writeOk: bool, granted: bool, servicesOn: bool): (r: Service)
    ensures next == Background ==> r == StopTracking(s)
    ensures next != Active && next != Background ==> r == s
    ensures next == Active ==> r.timerRunning == (s.timerRunning || (granted && servicesOn))
    ensures next == Active ==> r.cachedLocation == UpdateLocationIfStale(s, now, at, writeOk).cachedLocation
  {
    match next
    case Active => StartTracking(UpdateLocationIfStale(s, now, at, writeOk), granted, servicesOn)
    case Background => StopTracking(s)
    case _ => s
  }

  /** After the app goes to the background, ticks that begin later acquire
      nothing until it comes back, provided no overlapping start leaked an
      interval. */
  lemma BackgroundSilencesTimer(s: Service, now: int, at0: Attempt, ok0: bool, g: bool, on: bool, ticks: seq<(int, Attempt, bool)>)
    requires s.leakedTimers == 0
    ensures var b := HandleAppStateChange(s, Background, now, at0, ok0, g, on);
      Ticks(b, ticks) == b
  {
    var b := HandleAppStateChange(s, Background, now, at0, ok0, g, on);
    TicksWhileStopped(b, ticks);
  }

  /** Two starts that both pass the guard before either has read the
      permission both schedule an interval, and one of them leaks. */
  lemma OverlappingStartsLeakATimer(s: Service)
    requires StartPassesGuard(s)
    ensures var r := CompleteStart(CompleteStart(s, true, true), true, true);
      r.timerRunning && r.leakedTimers == s.leakedTimers + 1
  {
  }

  /** A leaked interval outlives the background: a tick after the stop still
      acquires and saves. */
  lemma LeakedTimerOutlivesBackground(s: Service, now: int, at: Attempt)
    requires s.leakedTimers > 0
    requires at.granted && at.servicesOn && at.gps.Some? && !PoorAccuracy(at.gps.value.accuracy, s.config)
    ensures TimerTick(StopTracking(s), now, at, true).cachedLocation == Some(FromFix(at.gps.value, now, Gps))
  {
  }

  /** A start still reading the permission when the app goes to the
      background finds no timer to clear and schedules one afterwards. */
  lemma StartInFlightSurvivesBackground(s: Service)
    requires StartPassesGuard(s)
    ensures !StopTracking(s).timerRunning
    ensures CompleteStart(StopTracking(s), true, true).timerRunning
  {
  }

  /** A tick whose callback is waiting on the position when the interval is
      cleared still hands the reading over and saves it. */
  lemma TickInFlightStillWrites(s: Service, now: int, at: Attempt)
    requires at.granted && at.servicesOn && at.gps.Some? && !PoorAccuracy(at.gps.value.accuracy, s.config)
    ensures CompleteTick(StopTracking(s), now, at, true).cachedLocation == Some(FromFix(at.gps.value, now, Gps))
    ensures !CompleteTick(StopTracking(s), now, at, true).timerRunning
  {
  }

  function Ticks(s: Service, ticks: seq<(int, Attempt, bool)>): Service
    decreases |ticks|
  {
    if ticks == [] then s else Ticks(TimerTick(s, ticks[0].0, ticks[0].1, ticks[0].2), ticks[1..])
  }

  lemma {:induction false} TicksWhileStopped(s: Service, ticks: seq<(int, Attempt, bool)>)
    requires !TimerLive(s)
    ensures Ticks(s, ticks) == s
    decreases |ticks|
  {
    if ticks != [] {
      TicksWhileStopped(TimerTick(s, ticks[0].0, ticks[0].1, ticks[0].2), ticks[1..]);
    }
  }

  /** `clearCachedLocation`: forget the entry, the last saved coordinates and
      the last update time, but only once the storage delete has succeeded. */
  function ClearCachedLocation(s: Service, deleteOk: bool): (r: Service)
    ensures deleteOk ==> r.cachedLocation.None? && r.lastSavedLocation.None? && r.lastUpdateTime == 0
    ensures !deleteOk ==> r == s
    ensures r.isUpdating == s.isUpdating && r.timerRunning == s.timerRunning && r.config == s.config
    ensures r.leakedTimers == s.leakedTimers
  {
    if deleteOk then s.(cachedLocation := None, lastSavedLocation := None, lastUpdateTime := 0) else s
  }

  /** After a clear, the cache is stale and has no age. */
  lemma ClearedCacheIsStale(s: Service, now: int)
    ensures IsLocationStale(ClearCachedLocation(s, true), now)
    ensures GetLocationAge(ClearCachedLocation(s, true), now).None?
  {
  }
}

=== FILE: location_permission.dfy ===
/** The location-permission hook: on mount it asks whether location services
    are on, whether a last known location is stored and whether permission is
    granted, and either records that a location is stored or asks for the
    permission modal. Allowing closes the modal at once and fetches the
    position in the background; skipping or dismissing only closes it. Each
    platform call is a parameter: what it answered, or that it threw. */
module LocationPermission {
  import opened Js

  datatype PermissionState = PermissionState(loading: bool, hasLocationStored: bool, showModal: bool)

  const Initial := PermissionState(false, false, false)

  /** All three checks pass: services on, a non-empty stored location, and
      permission granted. */
  predicate Ready(enabled: Reply<bool>, stored: Reply<Option<string>>, status: Reply<string>) {
    enabled == Gave(true) && stored.Gave? && Truthy(stored.value) && status == Gave("granted")
  }

  /** `checkLocationStatus`: with services off the store is never consulted and
      the modal shows; a missing or empty stored location, a permission other
      than granted, or any call that throws also shows the modal; only when
      all checks pass is the stored location recorded. Neither flag is ever
      cleared and `loading` is untouched. */
  function CheckLocationStatus(s: PermissionState, enabled: Reply<bool>, stored: Reply<Option<string>>,
                               status: Reply<string>): (r: PermissionState)
    ensures r.hasLocationStored <==> s.hasLocationStored || Ready(enabled, stored, status)
    ensures r.showModal <==> s.showModal || !Ready(enabled, stored, status)
    ensures r.loading == s.loading
  {
    match enabled
    case Threw => s.(showModal := true)
    case Gave(on) =>
      if !on then s.(showModal := true)
      else match stored
        case Threw => s.(showModal := true)
        case Gave(location) =>
          match status
          case Threw => s.(showModal := true)
          case Gave(st) =>
            if !Truthy(location) || st != "granted" then s.(showModal := true)
            else s.(hasLocationStored := true)
  }

  /** Services switched off decide the check alone: what the store and the
      permission query would answer makes no difference. */
  lemma DisabledServicesIgnoreStore(s: PermissionState, a: Reply<Option<string>>, b: Reply<string>,
                                    c: Reply<Option<string>>, d: Reply<string>)
    ensures CheckLocationStatus(s, Gave(false), a, b) == CheckLocationStatus(s, Gave(false), c, d)
    ensures CheckLocationStatus(s, Gave(false), a, b).showModal
  {
  }

  /** The mount check ends with exactly one of: the modal showing, or a
      stored location recorded. */
  lemma MountDecidesExactlyOne(enabled: Reply<bool>, stored: Reply<Option<string>>, status: Reply<string>)
    ensures var r := CheckLocationStatus(Initial, enabled, stored, status);
      r.showModal != r.hasLocationStored && !r.loading
  {
  }

  /** The record `saveLocationToStorage` writes under `lastKnownLocation`. */
  datatype SavedLocation = SavedLocation(latitude: real, longitude: real, timestamp: int)

  datatype Position = Position(latitude: real, longitude: real)

  /** The start of `fetchLocationSilently`: `loading` goes up. */
  function FetchBegin(s: PermissionState): (r: PermissionState)
    ensures r.loading && r.hasLocationStored == s.hasLocationStored && r.showModal == s.showModal
  {
    s.(loading := true)
  }

  datatype Fetched = Fetched(next: PermissionState, written: Option<SavedLocation>)

  /** The end of `fetchLocationSilently`: with permission granted and a
      position, the position and the clock reading `now` are written to the
      store; only a write that succeeds records a stored location. A denied
      permission, a failed position request or a failed write changes
      nothing but `loading`, which always drops. */
  function FetchComplete(s: PermissionState, permission: Reply<string>, position: Reply<Position>,
                         write: Reply<()>, now: int): (r: Fetched)
    ensures r.written.Some? <==> permission == Gave("granted") && position.Gave? && write.Gave?
    ensures r.written.Some? ==>
      r.written.value == SavedLocation(position.value.latitude, position.value.longitude, now)
    ensures r.next.hasLocationStored <==> s.hasLocationStored || r.written.Some?
    ensures !r.next.loading && r.next.showModal == s.showModal
  {
    var done := s.(loading := false);
    if permission == Gave("granted") && position.Gave? && write.Gave? then
      var p := position.value;
      Fetched(done.(hasLocationStored := true), Some(SavedLocation(p.latitude, p.longitude, now)))
    else
      Fetched(done, None)
  }

  /** `handleAllowLocation`: close the modal, then start the fetch without
      waiting for it. */
  function HandleAllowLocation(s: PermissionState): (r: PermissionState)
    ensures !r.showModal && r.loading && r.hasLocationStored == s.hasLocationStored
  {
    FetchBegin(s.(showModal := false))
  }

  /** `handleSkipLocation` and `handleDismissModal`: close the modal only. */
  function HandleSkipLocation(s: PermissionState): (r: PermissionState)
    ensures !r.showModal && r.loading == s.loading && r.hasLocationStored == s.hasLocationStored
  {
    s.(showModal := false)
  }

  function HandleDismissModal(s: PermissionState): (r: PermissionState)
    ensures r == HandleSkipLocation(s)
  {
    s.(showModal := false)
  }

  /** Allowing and then getting a position stores it, closes the modal for
      good and ends loading; a denied permission leaves no stored location
      behind but still closes the modal. */
  lemma AllowThenFetch(s: PermissionState, p: Position, st: string, now: int)
    ensures var r := FetchComplete(HandleAllowLocation(s), Gave("granted"), Gave(p), Gave(()), now);
      r.next == PermissionState(false, true, false) && r.written == Some(SavedLocation(p.latitude, p.longitude, now))
    ensures st != "granted" ==>
      var r := FetchComplete(HandleAllowLocation(s), Gave(st), Gave(p), Gave(()), now);
      r.next == s.(loading := false, showModal := false) && r.written.None?
  {
  }

  /** A location written by a successful fetch passes the next check, as
      long as services stay on and permission stays granted: whatever the
      store holds after the write is a non-empty string. */
  lemma SavedLocationPassesCheck(s: PermissionState, p: Position, now: int, json: string)
    requires json != ""
    ensures var f := FetchComplete(HandleAllowLocation(s), Gave("granted"), Gave(p), Gave(()), now);
      var c := CheckLocationStatus(f.next, Gave(true), Gave(Some(json)), Gave("granted"));
      c.hasLocationStored && !c.showModal
  {
  }

  /** Everything that can happen to the hook's state. */
  datatype Event =
    | Check(enabled: Reply<bool>, stored: Reply<Option<string>>, status: Reply<string>)
    | Allow
    | Skip
    | Dismiss
    | FetchManually
    | Complete(permission: Reply<string>, position: Reply<Position>, write: Reply<()>, now: int)

  function Apply(s: PermissionState, e: Event): PermissionState {
    match e
    case Check(enabled, stored, status) => CheckLocationStatus(s, enabled, stored, status)
    case Allow => HandleAllowLocation(s)
    case Skip => HandleSkipLocation(s)
    case Dismiss => HandleDismissModal(s)
    case FetchManually => FetchBegin(s)
    case Complete(permission, position, write, now) => FetchComplete(s, permission, position, write, now).next
  }

  function Run(s: PermissionState, events: seq<Event>): PermissionState
    decreases |events|
  {
    if events == [] then s else Run(Apply(s, events[0]), events[1..])
  }

  /** No event clears `hasLocationStored`. */
  lemma ApplyKeepsStored(s: PermissionState, e: Event)
    requires s.hasLocationStored
    ensures Apply(s, e).hasLocationStored
  {
  }

  /** Once a stored location is recorded the hook never forgets it. */
  lemma {:induction false} StoredIsSticky(s: PermissionState, events: seq<Event>)
    requires s.hasLocationStored
    ensures Run(s, events).hasLocationStored
    decreases |events|
  {
    if events != [] {
      ApplyKeepsStored(s, events[0]);
      StoredIsSticky(Apply(s, events[0]), events[1..]);
    }
  }

  /** Only a check can open the modal: without one, a closed modal stays
      closed. */
  predicate NoCheck(events: seq<Event>) {
    forall i :: 0 <= i < |events| ==> !events[i].Check?
  }

  lemma {:induction false} ClosedModalStaysClosed(s: PermissionState, events: seq<Event>)
    requires !s.showModal && NoCheck(events)
    ensures !Run(s, events).showModal
    decreases |events|
  {
    if events != [] {
      assert !events[0].Check?;
      assert NoCheck(events[1..]) by {
        forall i | 0 <= i < |events[1..]| ensures !events[1..][i].Check? {
          assert events[1..][i] == events[i + 1];
        }
      }
      ClosedModalStaysClosed(Apply(s, events[0]), events[1..]);
    }
  }
}

=== FILE: location_store.dfy ===
/** The pickup/drop-off store: two optional places, each updated by merging a
    partial place over the current one (or over a blank place when none is
    set yet), and a clear that forgets both. The declared place has an
    address and coordinates; the map screens also pass a `city`, which the
    merge carries along although the type does not declare it. */
module LocationStore {
  import opened Js

  /** A place; `city` is `None` while it is absent or `undefined`. */
  datatype Place = Place(address: string, lat: real, lon: real, city: Option<string>)

  /** `Partial<Location>`: the fields the caller supplies. For `city` the
      outer option says whether the key is present at all: a present key
      whose value is `undefined` still overrides, as a spread does. */
  datatype PlacePatch = PlacePatch(address: Option<string>, lat: Option<real>, lon: Option<real>,
                                   city: Option<Option<string>>)

  const BlankPlace := Place("", 0.0, 0.0, None)

  datatype Locations = Locations(pickup: Option<Place>, dropoff: Option<Place>)

  /** The store's initial state, and its state after a clear. */
  const NoLocations := Locations(None, None)

  /** The place a setter writes: each supplied field wins; a field left out
      keeps the current place's value, or the blank place's (`''`, 0, 0)
      when there is no current place. */
  function Updated(current: Option<Place>, patch: PlacePatch): (r: Place)
    ensures patch.address.Some? ==> r.address == patch.address.value
    ensures patch.lat.Some? ==> r.lat == patch.lat.value
    ensures patch.lon.Some? ==> r.lon == patch.lon.value
    ensures patch.address.None? ==> r.address == (if current.Some? then current.value.address else "")
    ensures patch.lat.None? ==> r.lat == (if current.Some? then current.value.lat else 0.0)
    ensures patch.lon.None? ==> r.lon == (if current.Some? then current.value.lon else 0.0)
    ensures patch.city.Some? ==> r.city == patch.city.value
    ensures patch.city.None? ==> r.city == (if current.Some? then current.value.city else None)
  {
    var base := current.GetOr(BlankPlace);
    Place(patch.address.GetOr(base.address), patch.lat.GetOr(base.lat), patch.lon.GetOr(base.lon),
          patch.city.GetOr(base.city))
  }

  /** `setPickup(data)`: the drop-off is untouched. */
  function SetPickup(s: Locations, patch: PlacePatch): (r: Locations)
    ensures r.pickup == Some(Updated(s.pickup, patch))
    ensures r.dropoff == s.dropoff
  {
    s.(pickup := Some(Updated(s.pickup, patch)))
  }

  /** `setDropoff(data)`: the pickup is untouched. */
  function SetDropoff(s: Locations, patch: PlacePatch): (r: Locations)
    ensures r.dropoff == Some(Updated(s.dropoff, patch))
    ensures r.pickup == s.pickup
  {
    s.(dropoff := Some(Updated(s.dropoff, patch)))
  }

  /** `clearLocations`: both places are forgotten. */
  function ClearLocations(s: Locations): (r: Locations)
    ensures r.pickup.None? && r.dropoff.None?
  {
    NoLocations
  }

  /** Applying the same partial place twice is applying it once. */
  lemma SetIdempotent(s: Locations, patch: PlacePatch)
    ensures SetPickup(SetPickup(s, patch), patch) == SetPickup(s, patch)
    ensures SetDropoff(SetDropoff(s, patch), patch) == SetDropoff(s, patch)
  {
  }

  /** A complete place (what the map screens' Done button writes) replaces the
      previous one outright: the result does not depend on what was set. */
  lemma CompletePlaceReplaces(s1: Locations, s2: Locations, address: string, lat: real, lon: real, city: Option<string>)
    requires s1.dropoff == s2.dropoff
    ensures SetPickup(s1, PlacePatch(Some(address), Some(lat), Some(lon), Some(city)))
         == SetPickup(s2, PlacePatch(Some(address), Some(lat), Some(lon), Some(city)))
    ensures SetPickup(s1, PlacePatch(Some(address), Some(lat), Some(lon), Some(city))).pickup
         == Some(Place(address, lat, lon, city))
  {
  }

  /** Setting the pickup and the drop-off commute, and a clear undoes both. */
  lemma SettersCommuteAndClear(s: Locations, p: PlacePatch, q: PlacePatch)
    ensures SetDropoff(SetPickup(s, p), q) == SetPickup(SetDropoff(s, q), p)
    ensures ClearLocations(SetDropoff(SetPickup(s, p), q)) == NoLocations
  {
  }
}

=== FILE: location_types.dfy ===
/** The records and staleness rules shared by both variants of the location
    cache service: a cached location, the tunable policy, a platform position
    fix, and the age tests every acquisition decision reads. Times are
    milliseconds since the epoch. */
module LocationTypes {
  import opened Js

  /** Where a cached location came from. */
  datatype Source = Gps | Network | Cached

  datatype CachedLocation = CachedLocation(
    latitude: real,
    longitude: real,
    accuracy: Option<real>,
    timestamp: int,
    source: Source)

  /** A position as the platform location API reports it; the accuracy
      (metres) may be missing. */
  datatype Fix = Fix(latitude: real, longitude: real, accuracy: Option<real>)

  datatype Config = Config(
    staleThresholdMs: int,
    maxAgeMs: int,
    updateIntervalMs: int,
    minAccuracyMeters: real)

  /** Five minutes, 24 hours, two minutes, 100 metres. */
  const DefaultConfig := Config(5 * 60 * 1000, 24 * 60 * 60 * 1000, 2 * 60 * 1000, 100.0)

  /** `Partial<LocationCacheConfig>`: the fields a caller supplies. */
  datatype ConfigPatch = ConfigPatch(
    staleThresholdMs: Option<int>,
    maxAgeMs: Option<int>,
    updateIntervalMs: Option<int>,
    minAccuracyMeters: Option<real>)

  /** `updateConfig`: `{ ...config, ...patch }`. */
  function UpdateConfig(c: Config, p: ConfigPatch): (r: Config)
    ensures p.staleThresholdMs.Some? ==> r.staleThresholdMs == p.staleThresholdMs.value
    ensures p.maxAgeMs.Some? ==> r.maxAgeMs == p.maxAgeMs.value
    ensures p.updateIntervalMs.Some? ==> r.updateIntervalMs == p.updateIntervalMs.value
    ensures p.minAccuracyMeters.Some? ==> r.minAccuracyMeters == p.minAccuracyMeters.value
    ensures p.staleThresholdMs.None? ==> r.staleThresholdMs == c.staleThresholdMs
    ensures p.maxAgeMs.None? ==> r.maxAgeMs == c.maxAgeMs
    ensures p.updateIntervalMs.None? ==> r.updateIntervalMs == c.updateIntervalMs
    ensures p.minAccuracyMeters.None? ==> r.minAccuracyMeters == c.minAccuracyMeters
  {
    Config(
      p.staleThresholdMs.GetOr(c.staleThresholdMs),
      p.maxAgeMs.GetOr(c.maxAgeMs),
      p.updateIntervalMs.GetOr(c.updateIntervalMs),
      p.minAccuracyMeters.GetOr(c.minAccuracyMeters))
  }

  /** Applying the same patch twice is applying it once, and an empty patch
      changes nothing. */
  lemma UpdateConfigIdempotent(c: Config, p: ConfigPatch)
    ensures UpdateConfig(UpdateConfig(c, p), p) == UpdateConfig(c, p)
    ensures UpdateConfig(c, ConfigPatch(None, None, None, None)) == c
  {
  }

  /** `accuracy || undefined`: a zero accuracy is falsy and is dropped. */
  function KeptAccuracy(a: Option<real>): (r: Option<real>)
    ensures r.Some? <==> a.Some? && a.value != 0.0
    ensures r.Some? ==> r == a
  {
    if a.Some? && a.value != 0.0 then a else None
  }

  /** The cache entry a successful acquisition at time `now` produces. */
  function FromFix(f: Fix, now: int, source: Source): (loc: CachedLocation)
    ensures loc.latitude == f.latitude && loc.longitude == f.longitude
    ensures loc.timestamp == now && loc.source == source
    ensures loc.accuracy == KeptAccuracy(f.accuracy)
  {
    CachedLocation(f.latitude, f.longitude, KeptAccuracy(f.accuracy), now, source)
  }

  /** `{ ...cached, source: 'cached' }` */
  function Retagged(c: CachedLocation): CachedLocation {
    c.(source := Cached)
  }

  /** A cache entry young enough for `getLocation` to return it without any
      acquisition: age strictly below the stale threshold. */
  predicate IsFresh(cached: Option<CachedLocation>, cfg: Config, now: int) {
    cached.Some? && now - cached.value.timestamp < cfg.staleThresholdMs
  }

  /** `isLocationStale` / the test in `updateLocationIfStale`: no cache, or an
      age strictly above the stale threshold. */
  predicate IsStale(cached: Option<CachedLocation>, cfg: Config, now: int) {
    cached.None? || now - cached.value.timestamp > cfg.staleThresholdMs
  }

  /** An entry still usable as a last resort: age strictly below `maxAgeMs`. */
  predicate WithinMaxAge(c: CachedLocation, cfg: Config, now: int) {
    now - c.timestamp < cfg.maxAgeMs
  }

  /** At an age of exactly the stale threshold an entry is neither fresh nor
      stale: `isLocationStale` says false, yet `getLocation` re-acquires. */
  lemma ThresholdAgeIsNeitherFreshNorStale(c: CachedLocation, cfg: Config, now: int)
    requires now - c.timestamp == cfg.staleThresholdMs
    ensures !IsFresh(Some(c), cfg, now) && !IsStale(Some(c), cfg, now)
  {
  }

  /** Away from the threshold age, exactly one of fresh and stale holds. */
  lemma FreshOrStale(cached: Option<CachedLocation>, cfg: Config, now: int)
    requires cached.Some? ==> now - cached.value.timestamp != cfg.staleThresholdMs
    ensures IsFresh(cached, cfg, now) != IsStale(cached, cfg, now)
  {
  }

  /** `getLocationAge`: whole minutes since the entry was taken, rounded down
      (`Math.floor`; for a positive divisor Dafny's division is the same floor). */
  function AgeMinutes(cached: Option<CachedLocation>, now: int): (r: Option<int>)
    ensures r.Some? <==> cached.Some?
    ensures r.Some? ==> r.value * 60000 <= now - cached.value.timestamp < (r.value + 1) * 60000
  {
    if cached.None? then None else Some((now - cached.value.timestamp) / (60 * 1000))
  }

  /** `accuracy && accuracy > minAccuracyMeters`: a reading the watch callback
      throws away. A missing or zero accuracy never counts as poor. */
  predicate PoorAccuracy(a: Option<real>, cfg: Config) {
    a.Some? && a.value != 0.0 && a.value > cfg.minAccuracyMeters
  }

  /** The application lifecycle states the platform reports. */
  datatype AppState = Active | Background | Inactive | Unknown | Extension
}

=== FILE: map_picker.dfy ===
/** The two map screens that pick a place: the location selector (used for
    both pickup and drop-off) and the older pickup-location screen. Modelled
    are where the map starts, the zoom buttons, how a reverse-geocode answer
    becomes an address line, the one-second throttle on address lookups, and
    which store slot Done writes. Regions are in degrees. */
module MapPicker {
  import opened Js
  import opened LocationTypes
  import opened LocationStore

  datatype Region = Region(latitude: real, longitude: real, latitudeDelta: real, longitudeDelta: real)

  /** The span every initial region opens with. */
  const InitialDelta := 0.008

  /** The selector's own last-resort centre, Bacolod City. */
  const FallbackLatitude := 10.6765
  const FallbackLongitude := 122.9511

  /** `storedLocation?.lat && storedLocation?.lon`: both coordinates present
      and non-zero, since 0 is falsy. */
  predicate HasStoredCoordinates(stored: Option<Place>) {
    stored.Some? && stored.value.lat != 0.0 && stored.value.lon != 0.0
  }

  /** `getSmartInitialRegion`: the place already chosen for this slot; else
      the location the cache service returns; else Bacolod. A service call
      that throws or returns null falls through to Bacolod. */
  function SmartInitialRegion(stored: Option<Place>, cached: Reply<Option<CachedLocation>>): (r: Region)
    ensures r.latitudeDelta == InitialDelta && r.longitudeDelta == InitialDelta
    ensures HasStoredCoordinates(stored) ==>
      r.latitude == stored.value.lat && r.longitude == stored.value.lon
    ensures !HasStoredCoordinates(stored) && cached.Gave? && cached.value.Some? ==>
      r.latitude == cached.value.value.latitude && r.longitude == cached.value.value.longitude
    ensures !HasStoredCoordinates(stored) && (cached.Threw? || cached.value.None?) ==>
      r.latitude == FallbackLatitude && r.longitude == FallbackLongitude
  {
    if HasStoredCoordinates(stored) then
      Region(stored.value.lat, stored.value.lon, InitialDelta, InitialDelta)
    else if cached.Gave? && cached.value.Some? then
      Region(cached.value.value.latitude, cached.value.value.longitude, InitialDelta, InitialDelta)
    else
      Region(FallbackLatitude, FallbackLongitude, InitialDelta, InitialDelta)
  }

  /** With a stored place the cache service's answer does not matter; a
      stored place on the equator or the prime meridian counts as no place at
      all. */
  lemma StoredPlaceWins(stored: Option<Place>, c1: Reply<Option<CachedLocation>>, c2: Reply<Option<CachedLocation>>)
    ensures HasStoredCoordinates(stored) ==> SmartInitialRegion(stored, c1) == SmartInitialRegion(stored, c2)
    ensures stored.Some? && (stored.value.lat == 0.0 || stored.value.lon == 0.0) ==>
      SmartInitialRegion(stored, c1) == SmartInitialRegion(None, c1)
  {
  }

  // ---------------------------------------------------------------- zoom

  /** Bounds of the location selector's adaptive zoom. */
  const MinDelta := 0.001
  const MaxDelta := 0.1

  /** `getZoomStep`: 40%, 30%, 25% or 20% of the span, the larger fractions
      for the wider views (above 0.1, 0.05 and 0.008). */
  function GetZoomStep(delta: real): (step: real)
    ensures delta >= 0.0 ==> 0.2 * delta <= step <= 0.4 * delta
    ensures delta > 0.1 ==> step == 0.4 * delta
    ensures delta <= 0.008 ==> step == 0.2 * delta
  {
    if delta > 0.1 then delta * 0.4
    else if delta > 0.05 then delta * 0.3
    else if delta > 0.008 then delta * 0.25
    else delta * 0.2
  }

  /** A wider view never takes a smaller step, across the tier edges too. */
  lemma ZoomStepMonotone(d1: real, d2: real)
    requires 0.0 <= d1 <= d2
    ensures GetZoomStep(d1) <= GetZoomStep(d2)
  {
  }

  /** `zoomIn`: the span shrinks by its step, not below `MinDelta`; both spans
      are computed from the latitude span, so the region comes out square.
      The centre stays. */
  function ZoomIn(r: Region): (z: Region)
    ensures z.latitudeDelta >= MinDelta && z.longitudeDelta == z.latitudeDelta
    ensures r.latitudeDelta >= MinDelta ==> z.latitudeDelta <= r.latitudeDelta
    ensures r.latitudeDelta > MinDelta ==> z.latitudeDelta < r.latitudeDelta
    ensures z.latitude == r.latitude && z.longitude == r.longitude
  {
    var d := Max(r.latitudeDelta - GetZoomStep(r.latitudeDelta), MinDelta);
    r.(latitudeDelta := d, longitudeDelta := d)
  }

  /** `zoomOut`: the span grows by its step, not above `MaxDelta`. */
  function ZoomOut(r: Region): (z: Region)
    ensures z.latitudeDelta <= MaxDelta && z.longitudeDelta == z.latitudeDelta
    ensures 0.0 <= r.latitudeDelta <= MaxDelta ==> z.latitudeDelta >= r.latitudeDelta
    ensures z.latitude == r.latitude && z.longitude == r.longitude
  {
    var d := Min(r.latitudeDelta + GetZoomStep(r.latitudeDelta), MaxDelta);
    r.(latitudeDelta := d, longitudeDelta := d)
  }

  function Max(a: real, b: real): real { if a >= b then a else b }
  function Min(a: real, b: real): real { if a <= b then a else b }

  /** A view wider than `MaxDelta` (reached by pinching) is narrowed by the
      zoom-out button: it snaps back to `MaxDelta`. */
  lemma ZoomOutFromWideViewNarrows(r: Region)
    requires r.latitudeDelta > MaxDelta
    ensures ZoomOut(r).latitudeDelta == MaxDelta < r.latitudeDelta
  {
  }

  datatype Zoom = In | Out

  /** A sequence of presses, each stepping from the region the previous one
      left. */
  function Zooms(r: Region, zs: seq<Zoom>): Region
    decreases |zs|
  {
    if zs == [] then r
    else Zooms(if zs[0] == In then ZoomIn(r) else ZoomOut(r), zs[1..])
  }

  predicate InZoomRange(r: Region) {
    MinDelta <= r.latitudeDelta <= MaxDelta
  }

  /** From a span within the bounds, any sequence of button presses keeps the
      span within them. */
  lemma {:induction false} ZoomsStayInRange(r: Region, zs: seq<Zoom>)
    requires InZoomRange(r)
    ensures InZoomRange(Zooms(r, zs))
    decreases |zs|
  {
    if zs != [] {
      var next := if zs[0] == In then ZoomIn(r) else ZoomOut(r);
      assert InZoomRange(next);
      ZoomsStayInRange(next, zs[1..]);
    }
  }

  /** Bounds and step of the pickup-location screen's fixed zoom. */
  const FixedMinDelta := 0.001
  const FixedMaxDelta := 0.3
  const FixedStep := 0.05

  /** The pickup-location screen's `zoomIn`: each span independently loses
      0.05, not below 0.001. */
  function FixedZoomIn(r: Region): (z: Region)
    ensures z.latitudeDelta >= FixedMinDelta && z.longitudeDelta >= FixedMinDelta
    ensures z.latitudeDelta <= r.latitudeDelta || r.latitudeDelta < FixedMinDelta
    ensures z.longitudeDelta <= r.longitudeDelta || r.longitudeDelta < FixedMinDelta
    ensures z.latitude == r.latitude && z.longitude == r.longitude
  {
    r.(latitudeDelta := Max(r.latitudeDelta - FixedStep, FixedMinDelta),
       longitudeDelta := Max(r.longitudeDelta - FixedStep, FixedMinDelta))
  }

  /** Its `zoomOut`: each span independently gains 0.05, not above 0.3. */
  function FixedZoomOut(r: Region): (z: Region)
    ensures z.latitudeDelta <= FixedMaxDelta && z.longitudeDelta <= FixedMaxDelta
    ensures z.latitudeDelta >= r.latitudeDelta || r.latitudeDelta > FixedMaxDelta
    ensures z.longitudeDelta >= r.longitudeDelta || r.longitudeDelta > FixedMaxDelta
    ensures z.latitude == r.latitude && z.longitude == r.longitude
  {
    r.(latitudeDelta := Min(r.latitudeDelta + FixedStep, FixedMaxDelta),
       longitudeDelta := Min(r.longitudeDelta + FixedStep, FixedMaxDelta))
  }

  /** Away from the bounds the fixed buttons undo each other exactly; the
      spans are clamped separately, so a non-square region stays non-square. */
  lemma FixedZoomsUndoEachOther(r: Region)
    ensures 0.051 <= r.latitudeDelta <= 0.3 && 0.051 <= r.longitudeDelta <= 0.3 ==>
      FixedZoomOut(FixedZoomIn(r)) == r
    ensures 0.001 <= r.latitudeDelta <= 0.25 && 0.001 <= r.longitudeDelta <= 0.25 ==>
      FixedZoomIn(FixedZoomOut(r)) == r
  {
  }

  // ------------------------------------------------------------ addresses

  /** The parts of a reverse-geocode answer the screens read; each may be
      missing. `addressFreeform` is `address.freeformAddress`,
      `topFreeform` the top-level `freeformAddress`. */
  datatype Geocode = Geocode(
    poiName: Option<string>,
    streetName: Option<string>,
    addressFreeform: Option<string>,
    topFreeform: Option<string>,
    municipality: Option<string>)

  const UnknownAddress := "Unknown address"
  const FailedAddress := "Failed to get address"
  const TimedOutAddress := "Address lookup timed out"

  /** The address line both screens build: "POI, street" when there is a
      point of interest and a street, the POI alone without a street, else
      the nested free-form address, else the top-level one, else "Unknown
      address". Empty strings count as missing. */
  function ComposeAddress(g: Geocode): (a: string)
    ensures Truthy(g.poiName) && Truthy(g.streetName) ==> a == g.poiName.value + ", " + g.streetName.value
    ensures Truthy(g.poiName) && !Truthy(g.streetName) ==> a == g.poiName.value
    ensures !Truthy(g.poiName) && Truthy(g.addressFreeform) ==> a == g.addressFreeform.value
    ensures !Truthy(g.poiName) && !Truthy(g.addressFreeform) && Truthy(g.topFreeform) ==> a == g.topFreeform.value
    ensures !Truthy(g.poiName) && !Truthy(g.addressFreeform) && !Truthy(g.topFreeform) ==> a == UnknownAddress
  {
    if Truthy(g.poiName) then
      var street := if Truthy(g.streetName) then g.streetName.value else "";
      if street != "" then g.poiName.value + ", " + street else g.poiName.value
    else if Truthy(g.addressFreeform) || Truthy(g.topFreeform) then
      if Truthy(g.addressFreeform) then g.addressFreeform.value else g.topFreeform.value
    else
      UnknownAddress
  }

  /** The address line is never blank, and a point of interest always leads
      it. */
  lemma AddressNeverEmpty(g: Geocode)
    ensures ComposeAddress(g) != ""
    ensures Truthy(g.poiName) ==> g.poiName.value <= ComposeAddress(g)
  {
  }

  /** "Unknown address" appears exactly when no part of the answer is usable,
      unless the answer itself spells those words. */
  lemma UnknownMeansNothingUsable(g: Geocode)
    requires g.poiName != Some(UnknownAddress) && g.addressFreeform != Some(UnknownAddress)
    requires g.topFreeform != Some(UnknownAddress)
    ensures ComposeAddress(g) == UnknownAddress <==>
      !Truthy(g.poiName) && !Truthy(g.addressFreeform) && !Truthy(g.topFreeform)
  {
    if Truthy(g.poiName) && Truthy(g.streetName) {
      var a := ComposeAddress(g);
      assert a[|g.poiName.value|] == ',';
      assert ',' in a;
      assert ',' !in UnknownAddress;
    }
  }

  /** The address-related state of a map screen. `city` is `None` once an
      answer without a municipality has been read. */
  datatype AddressState = AddressState(
    lastFetchTime: int,
    address: string,
    city: Option<string>,
    fetchingAddress: bool,
    loading: bool,
    showUI: bool,
    skipSearch: bool)

  datatype Began = Began(next: AddressState, accepted: bool)

  /** The selector's throttle: a lookup less than 1000 ms after the last
      accepted one does nothing at all, not even move the reference time;
      otherwise it records the time and starts fetching. */
  function BeginFetchAddress(s: AddressState, now: int): (r: Began)
    ensures r.accepted <==> now - s.lastFetchTime >= 1000
    ensures !r.accepted ==> r.next == s
    ensures r.accepted ==> r.next == s.(lastFetchTime := now, fetchingAddress := true)
  {
    if now - s.lastFetchTime < 1000 then Began(s, false)
    else Began(s.(lastFetchTime := now, fetchingAddress := true), true)
  }

  /** How a selector lookup ends: aborted by the five-second timeout, failed
      in any other way (network, a body that is not JSON), or answered. */
  datatype Lookup = TimedOut | Failed | Answered(data: Geocode)

  /** The selector's lookup completes: an answer sets the address line and
      the city and suppresses the next search; a timeout and any other
      failure set their own messages. Either way fetching and loading end
      and the screen's UI shows. */
  function CompleteFetchAddress(s: AddressState, l: Lookup): (r: AddressState)
    ensures l.Answered? ==> r.address == ComposeAddress(l.data) && r.city == l.data.municipality && r.skipSearch
    ensures l.TimedOut? ==> r.address == TimedOutAddress && r.city == s.city && r.skipSearch == s.skipSearch
    ensures l.Failed? ==> r.address == FailedAddress && r.city == s.city && r.skipSearch == s.skipSearch
    ensures !r.fetchingAddress && !r.loading && r.showUI && r.lastFetchTime == s.lastFetchTime
  {
    var done := s.(fetchingAddress := false, loading := false, showUI := true);
    match l
    case Answered(g) => done.(address := ComposeAddress(g), city := g.municipality, skipSearch := true)
    case TimedOut => done.(address := TimedOutAddress)
    case Failed => done.(address := FailedAddress)
  }

  /** The pickup-location screen's lookup has no throttle and no timeout:
      any failure reads "Failed to get address", and it leaves `loading` and
      `showUI` alone. */
  function PickupFetchAddress(s: AddressState, l: Reply<Geocode>): (r: AddressState)
    ensures l.Gave? ==> r.address == ComposeAddress(l.value) && r.city == l.value.municipality && r.skipSearch
    ensures l.Threw? ==> r.address == FailedAddress && r.city == s.city && r.skipSearch == s.skipSearch
    ensures !r.fetchingAddress && r.loading == s.loading && r.showUI == s.showUI
    ensures r.lastFetchTime == s.lastFetchTime
  {
    var done := s.(fetchingAddress := false);
    match l
    case Gave(g) => done.(address := ComposeAddress(g), city := g.municipality, skipSearch := true)
    case Threw => done.(address := FailedAddress)
  }

  /** Both screens read an answer into the same address line and city. */
  lemma ScreensAgreeOnAnswers(s: AddressState, g: Geocode)
    ensures CompleteFetchAddress(s, Answered(g)).address == PickupFetchAddress(s, Gave(g)).address
    ensures CompleteFetchAddress(s, Answered(g)).city == PickupFetchAddress(s, Gave(g)).city
  {
  }

  /** The times, among a run of lookup requests, that get past the throttle,
      starting from the reference time `last`. */
  function Accepted(last: int, times: seq<int>): (acc: seq<int>)
    ensures |acc| <= |times|
    decreases |times|
  {
    if times == [] then []
    else if times[0] - last < 1000 then Accepted(last, times[1..])
    else [times[0]] + Accepted(times[0], times[1..])
  }

  /** Each accepted time is at least 1000 ms after the previous accepted one
      (the first after `last`). */
  predicate Spaced(last: int, acc: seq<int>) {
    (|acc| > 0 ==> acc[0] - last >= 1000)
    && forall i :: 0 < i < |acc| ==> acc[i] - acc[i - 1] >= 1000
  }

  /** The throttle's promise: accepted lookups are spaced by a second, and
      every one of them was requested. */
  lemma {:induction false} AcceptedAreSpaced(last: int, times: seq<int>)
    ensures Spaced(last, Accepted(last, times))
    ensures forall t :: t in Accepted(last, times) ==> t in times
    decreases |times|
  {
    if times != [] {
      if times[0] - last < 1000 {
        AcceptedAreSpaced(last, times[1..]);
      } else {
        var rest := Accepted(times[0], times[1..]);
        AcceptedAreSpaced(times[0], times[1..]);
        var acc := [times[0]] + rest;
        assert Accepted(last, times) == acc;
        forall i | 0 < i < |acc|
          ensures acc[i] - acc[i - 1] >= 1000
        {
          assert acc[i] == rest[i - 1];
          if i > 1 {
            assert acc[i - 1] == rest[i - 2];
          }
        }
      }
    }
  }

  /** The throttle gate of `BeginFetchAddress` run over a sequence of
      requests accepts exactly the times `Accepted` lists. */
  function Gate(s: AddressState, times: seq<int>): AddressState
    decreases |times|
  {
    if times == [] then s else Gate(BeginFetchAddress(s, times[0]).next, times[1..])
  }

  lemma {:induction false} GateKeepsLastAccepted(s: AddressState, times: seq<int>)
    ensures var acc := Accepted(s.lastFetchTime, times);
      Gate(s, times).lastFetchTime == if acc == [] then s.lastFetchTime else acc[|acc| - 1]
    decreases |times|
  {
    if times != [] {
      var s' := BeginFetchAddress(s, times[0]).next;
      GateKeepsLastAccepted(s', times[1..]);
    }
  }

  // ----------------------------------------------------------------- Done

  /** Done: the address line, the centre of the map and the city go to the
      pickup slot when the screen was opened with mode "pickup", and to the
      drop-off slot for any other mode, or none. */
  function HandleDone(locs: Locations, mode: Option<string>, address: string, center: Region,
                      city: Option<string>): (r: Locations)
    ensures mode == Some("pickup") ==>
      r.pickup == Some(Place(address, center.latitude, center.longitude, city)) && r.dropoff == locs.dropoff
    ensures mode != Some("pickup") ==>
      r.dropoff == Some(Place(address, center.latitude, center.longitude, city)) && r.pickup == locs.pickup
  {
    var patch := PlacePatch(Some(address), Some(center.latitude), Some(center.longitude), Some(city));
    if mode == Some("pickup") then SetPickup(locs, patch) else SetDropoff(locs, patch)
  }

  /** A place chosen with Done is where the map opens next time for that
      slot, unless it lies on the equator or the prime meridian. */
  lemma DoneThenReopen(locs: Locations, address: string, center: Region, city: Option<string>,
                       cached: Reply<Option<CachedLocation>>)
    requires center.latitude != 0.0 && center.longitude != 0.0
    ensures var r := SmartInitialRegion(HandleDone(locs, Some("pickup"), address, center, city).pickup, cached);
      r.latitude == center.latitude && r.longitude == center.longitude
  {
  }
}

=== FILE: order_button.dfy ===
/** The ORDER button shared by the home screen and the service selector. */
module OrderButton {
  import opened Js

  datatype ButtonView = ButtonView(disabled: bool, spinner: bool, price: string, text: string)

  /** What the button shows: disabled while an address is missing or a price
      or an order is loading; the formatted price once both addresses are
      known, otherwise the fallback; a spinner instead of the price while the
      price loads; and the label, "ORDER" unless one is given. */
  function Render(hasPickupAddress: bool, hasDropoffAddress: bool, loadingPrice: bool, loading: bool,
                  formattedPrice: string, fallbackPrice: string, buttonText: Option<string>): (v: ButtonView)
    ensures v.disabled <==> !hasPickupAddress || !hasDropoffAddress || loadingPrice || loading
    ensures hasPickupAddress && hasDropoffAddress ==> v.price == formattedPrice
    ensures !(hasPickupAddress && hasDropoffAddress) ==> v.price == fallbackPrice
    ensures v.spinner <==> loadingPrice
    ensures buttonText.None? ==> v.text == "ORDER"
    ensures buttonText.Some? ==> v.text == buttonText.value
  {
    var isDisabled := !hasPickupAddress || !hasDropoffAddress || loadingPrice || loading;
    var displayPrice := if hasPickupAddress && hasDropoffAddress then formattedPrice else fallbackPrice;
    ButtonView(isDisabled, loadingPrice, displayPrice, buttonText.GetOr("ORDER"))
  }

  /** A pressable button always shows the computed price, never the fallback
      or a spinner; and a button showing the fallback cannot be pressed. */
  lemma EnabledShowsRealPrice(p: bool, d: bool, lp: bool, l: bool, f: string, fb: string, t: Option<string>)
    ensures var v := Render(p, d, lp, l, f, fb, t);
      (!v.disabled ==> v.price == f && !v.spinner)
      && (f != fb && v.price == fb ==> v.disabled)
  {
  }
}

=== FILE: order_details.dfy ===
/** The order-details screen: receiver fields, cash on delivery, additional
    compensation and tip, each mirrored into the order draft by an effect, a
    displayed total built from the stored fee, and Done, which stores that
    total as the delivery fee. The 150 ms debounce of the tip and the
    compensation is modelled as explicit timer events. */
module OrderDetails {
  import opened Js
  import opened JsNumber
  import opened DeliveryStore
  import Pricing

  /** The amounts the compensation and tip buttons offer. */
  const AmountOptions: seq<real> := [10.0, 20.0, 30.0, 40.0, 50.0, 60.0]

  /** The screen's local state. */
  datatype Screen = Screen(
    receiverName: string,
    receiverPhone: string,
    additionalInfo: string,
    codOn: bool,
    parcelText: string,
    compOn: bool,
    selectedComp: real,
    debouncedComp: real,
    tipOn: bool,
    selectedTip: real,
    debouncedTip: real,
    priceLoading: bool)

  /** `x || d` on a number: 0 is falsy. */
  function NumberOr(x: real, d: real): (r: real)
    ensures x != 0.0 ==> r == x
    ensures x == 0.0 ==> r == d
  {
    if x != 0.0 then x else d
  }

  /** The screen right after its first render and effects: switches are on for
      positive stored amounts, an unset tip or compensation preselects 10,
      the amount field shows `amountText` (the stored parcel amount as
      `toString` renders it), and both debounce effects have raised
      `priceLoading`. */
  function Mount(d: DeliveryData, amountText: string): (sc: Screen)
    ensures sc.codOn <==> d.parcelAmount > 0.0
    ensures sc.compOn <==> d.additionalCompensation > 0.0
    ensures sc.tipOn <==> d.tip > 0.0
    ensures d.tip != 0.0 ==> sc.selectedTip == d.tip
    ensures d.tip == 0.0 ==> sc.selectedTip == 10.0
    ensures d.additionalCompensation != 0.0 ==> sc.selectedComp == d.additionalCompensation
    ensures d.additionalCompensation == 0.0 ==> sc.selectedComp == 10.0
    ensures sc.debouncedTip == sc.selectedTip && sc.debouncedComp == sc.selectedComp
    ensures sc.receiverName == d.receiverName && sc.receiverPhone == d.receiverContact && sc.additionalInfo == d.addInfo
    ensures sc.parcelText == amountText && sc.priceLoading
  {
    var comp := NumberOr(d.additionalCompensation, 10.0);
    var tip := NumberOr(d.tip, 10.0);
    Screen(
      d.receiverName, d.receiverContact, d.addInfo,
      d.parcelAmount > 0.0, amountText,
      d.additionalCompensation > 0.0, comp, comp,
      d.tip > 0.0, tip, tip,
      true)
  }

  /** The tip and compensation the price uses: the debounced choice while the
      switch is on, otherwise 0. */
  function CurrentTip(sc: Screen): real {
    if sc.tipOn then sc.debouncedTip else 0.0
  }

  function CurrentComp(sc: Screen): real {
    if sc.compOn then sc.debouncedComp else 0.0
  }

  /** The stored fee with the stored tip and compensation taken out. */
  function BaseFeeWithoutExtras(d: DeliveryData): real {
    d.deliveryFee - d.tip - d.additionalCompensation
  }

  /** The displayed total: the base fee plus the current extras. With both
      switches off it is the base fee; when the draft already holds the
      screen's extras it is the stored fee. */
  function TotalPrice(d: DeliveryData, sc: Screen): (t: real)
    ensures !sc.tipOn && !sc.compOn ==> t == BaseFeeWithoutExtras(d)
    ensures d.tip == CurrentTip(sc) && d.additionalCompensation == CurrentComp(sc) ==> t == d.deliveryFee
  {
    BaseFeeWithoutExtras(d) + CurrentTip(sc) + CurrentComp(sc)
  }

  /** While the home screen keeps the stored fee equal to its fare plus the
      stored extras, the displayed total is that fare plus the screen's
      extras, whatever the stored extras were. */
  lemma TotalTracksHomePricing(d: DeliveryData, sc: Screen, fare: real)
    requires d.deliveryFee == fare + d.tip + d.additionalCompensation
    ensures TotalPrice(d, sc) == fare + CurrentTip(sc) + CurrentComp(sc)
  {
  }

  /** Picking a tip or compensation amount: the effect raises
      `priceLoading` and schedules the debounce timer when the value changes. */
  function SelectTip(sc: Screen, v: real): (r: Screen)
    requires v in AmountOptions
    ensures r.selectedTip == v && r.debouncedTip == sc.debouncedTip
    ensures r.priceLoading == (sc.priceLoading || v != sc.selectedTip)
  {
    if v == sc.selectedTip then sc else sc.(selectedTip := v, priceLoading := true)
  }

  function SelectComp(sc: Screen, v: real): (r: Screen)
    requires v in AmountOptions
    ensures r.selectedComp == v && r.debouncedComp == sc.debouncedComp
    ensures r.priceLoading == (sc.priceLoading || v != sc.selectedComp)
  {
    if v == sc.selectedComp then sc else sc.(selectedComp := v, priceLoading := true)
  }

  /** A debounce timer fires: the choice becomes current and `priceLoading`,
      shared by both timers, drops. */
  function TipTimerFires(sc: Screen): (r: Screen)
    ensures r.debouncedTip == sc.selectedTip && !r.priceLoading
    ensures r.debouncedComp == sc.debouncedComp && r.selectedComp == sc.selectedComp
  {
    sc.(debouncedTip := sc.selectedTip, priceLoading := false)
  }

  function CompTimerFires(sc: Screen): (r: Screen)
    ensures r.debouncedComp == sc.selectedComp && !r.priceLoading
    ensures r.debouncedTip == sc.debouncedTip && r.selectedTip == sc.selectedTip
  {
    sc.(debouncedComp := sc.selectedComp, priceLoading := false)
  }

  /** A chosen tip reaches the price once its timer fires. */
  lemma ChosenTipIsCharged(sc: Screen, v: real)
    requires v in AmountOptions && sc.tipOn
    ensures CurrentTip(TipTimerFires(SelectTip(sc, v))) == v
  {
  }

  /** The tip timer clears `priceLoading` while a changed compensation is
      still waiting for its own timer. */
  lemma LoadingClearedBeforeCompSettles(sc: Screen, t: real, c: real)
    requires t in AmountOptions && c in AmountOptions && t != sc.selectedTip && c != sc.debouncedComp
    ensures var r := TipTimerFires(SelectComp(SelectTip(sc, t), c));
      !r.priceLoading && r.debouncedComp != r.selectedComp
  {
  }

  /** The cash-on-delivery effect: with the switch on and some text, the
      parsed amount (0 for `NaN`) and the sender as payer; otherwise amount 0
      and no payer. Nothing else in the draft changes. */
  function ApplyCod(d: DeliveryData, codOn: bool, text: string): (r: DeliveryData)
    ensures r.payer.Some? <==> codOn && text != ""
    ensures r.payer.Some? ==> r.payer == Some(Sender)
    ensures r.parcelAmount != 0.0 ==> codOn && text != "" && ParseFloat(text) == Some(r.parcelAmount)
    ensures codOn && text != "" && ParseFloat(text).Some? ==> r.parcelAmount == ParseFloat(text).value
    ensures forall k :: k != ParcelAmount && k != Payer ==> Get(r, k) == Get(d, k)
  {
    if codOn && text != "" then
      var parsed := ParseFloat(text);
      var amount := if parsed.None? then 0.0 else parsed.value;
      SetDeliveryField(SetDeliveryField(d, ParcelAmount, Amount(amount)), Payer, Role(Some(Sender)))
    else
      SetDeliveryField(SetDeliveryField(d, ParcelAmount, Amount(0.0)), Payer, Role(None))
  }

  /** A whole cash-on-delivery amount survives a visit to the screen: the
      field shows it, the effect parses it back, and the sender pays. */
  lemma CodAmountRoundTrip(d: DeliveryData, k: nat)
    requires k > 0 && d.parcelAmount == k as real
    ensures var sc := Mount(d, Decimal(k));
      var r := ApplyCod(d, sc.codOn, sc.parcelText);
      r.parcelAmount == k as real && r.payer == Some(Sender)
  {
    DecimalRoundTrip(k, []);
    assert Decimal(k) + [] == Decimal(k);
  }

  /** Turning cash on delivery off clears the amount and the payer, so an
      order sent afterwards defaults the payer to the sender. */
  lemma CodOffClears(d: DeliveryData, text: string)
    ensures ApplyCod(d, false, text).parcelAmount == 0.0 && ApplyCod(d, false, text).payer.None?
  {
  }

  /** The other write-back effects: receiver name and contact, the extra
      information, and the current compensation and tip. */
  function WriteBack(d: DeliveryData, sc: Screen): (r: DeliveryData)
    ensures r.tip == CurrentTip(sc) && r.additionalCompensation == CurrentComp(sc)
    ensures r.receiverName == sc.receiverName && r.receiverContact == sc.receiverPhone && r.addInfo == sc.additionalInfo
    ensures r.deliveryFee == d.deliveryFee && r.senderId == d.senderId && r.parcelAmount == d.parcelAmount
    ensures r.pickupAddress == d.pickupAddress && r.dropoffAddress == d.dropoffAddress
    ensures forall k :: k != ReceiverName && k != ReceiverContact && k != AddInfo && k != AdditionalCompensation && k != Tip ==>
      Get(r, k) == Get(d, k)
  {
    d.(receiverName := sc.receiverName, receiverContact := sc.receiverPhone, addInfo := sc.additionalInfo,
       additionalCompensation := CurrentComp(sc), tip := CurrentTip(sc))
  }

  /** Once the extras are written back, the displayed total is the stored
      fee: a changed tip shows up in the total only because the home screen
      re-prices the stored fee. */
  lemma WrittenBackTotalIsStoredFee(d: DeliveryData, sc: Screen)
    ensures TotalPrice(WriteBack(d, sc), sc) == d.deliveryFee
  {
  }

  /** The home screen's re-pricing after the write-back: the fare plus the
      stored extras becomes the fee. The total the screen then shows is the
      full price of the trip with the screen's tip and compensation. */
  lemma WriteBackThenRepriceMatchesPricing(d: DeliveryData, sc: Screen, km: real, basePrice: real)
    ensures var w := WriteBack(d, sc);
      var fee := Pricing.Pricing(km, basePrice, Some(w.tip), Some(w.additionalCompensation)).totalPrice;
      TotalPrice(w.(deliveryFee := fee), sc)
        == Pricing.Pricing(km, basePrice, Some(CurrentTip(sc)), Some(CurrentComp(sc))).totalPrice
  {
  }

  /** `handleDone`: the displayed total becomes the stored delivery fee;
      navigation is not modelled. */
  function HandleDone(d: DeliveryData, sc: Screen): (r: DeliveryData)
    ensures r.deliveryFee == TotalPrice(d, sc)
    ensures forall k :: k != DeliveryFee ==> Get(r, k) == Get(d, k)
  {
    SetDeliveryField(d, DeliveryFee, Amount(TotalPrice(d, sc)))
  }

  /** Done after the write-back stores back the fee that was already there. */
  lemma DoneAfterWriteBackKeepsFee(d: DeliveryData, sc: Screen)
    ensures HandleDone(WriteBack(d, sc), sc).deliveryFee == d.deliveryFee
  {
    WrittenBackTotalIsStoredFee(d, sc);
  }
}

=== FILE: order_submission.dfy ===
/** Confirming an order: the draft becomes the POST payload, and only a
    successful POST resets the draft (keeping the sender) and clears the
    chosen places. The `loading` flag is raised before the request and lowered
    whichever way it ends. The POST itself is a parameter: it succeeded or it
    threw. */
module OrderSubmission {
  import opened Js
  import opened DeliveryStore
  import opened LocationStore

  /** The body of `POST /api/client/deliveries`. */
  datatype Payload = Payload(
    senderId: Option<int>,
    pickupAddress: string,
    dropoffAddress: string,
    payer: PayerRole,
    addInfo: string,
    pickupLat: Option<real>,
    pickupLong: Option<real>,
    dropoffLat: Option<real>,
    dropoffLong: Option<real>,
    parcelAmount: real,
    receiverName: string,
    receiverContact: string,
    deliveryFee: real,
    commissionAmount: real,
    driverEarnings: real,
    commissionDeducted: bool,
    additionalCompensation: real,
    tip: real,
    distanceKm: real,
    durationMinutes: real,
    pickupCity: string,
    dropoffCity: string)

  /** The payload built from a draft: an unset payer is sent as the sender,
      a falsy city as the empty string, and the remaining fields as they are. */
  function PayloadOf(d: DeliveryData): (p: Payload)
    ensures p.payer == Receiver <==> d.payer == Some(Receiver)
    ensures Truthy(d.pickupCity) ==> p.pickupCity == d.pickupCity.value
    ensures Truthy(d.dropoffCity) ==> p.dropoffCity == d.dropoffCity.value
    ensures !Truthy(d.pickupCity) ==> p.pickupCity == ""
    ensures !Truthy(d.dropoffCity) ==> p.dropoffCity == ""
    ensures p.senderId == d.senderId && p.deliveryFee == d.deliveryFee && p.tip == d.tip
    ensures p.pickupLat == d.pickupLat && p.pickupLong == d.pickupLong
    ensures p.dropoffLat == d.dropoffLat && p.dropoffLong == d.dropoffLong
    ensures p.pickupAddress == d.pickupAddress && p.dropoffAddress == d.dropoffAddress
    ensures p.addInfo == d.addInfo && p.parcelAmount == d.parcelAmount
    ensures p.receiverName == d.receiverName && p.receiverContact == d.receiverContact
    ensures p.commissionAmount == d.commissionAmount && p.driverEarnings == d.driverEarnings
    ensures p.commissionDeducted == d.commissionDeducted && p.additionalCompensation == d.additionalCompensation
    ensures p.distanceKm == d.distanceKm && p.durationMinutes == d.durationMinutes
  {
    Payload(
      d.senderId, d.pickupAddress, d.dropoffAddress,
      d.payer.GetOr(Sender),
      d.addInfo,
      d.pickupLat, d.pickupLong, d.dropoffLat, d.dropoffLong,
      d.parcelAmount, d.receiverName, d.receiverContact,
      d.deliveryFee, d.commissionAmount, d.driverEarnings, d.commissionDeducted,
      d.additionalCompensation, d.tip,
      d.distanceKm, d.durationMinutes,
      if Truthy(d.pickupCity) then d.pickupCity.value else "",
      if Truthy(d.dropoffCity) then d.dropoffCity.value else "")
  }

  /** The payload leaves out the receiver and driver ids, the status and the
      two timestamps: changing them does not change what is sent. An unset
      payer or city is sent exactly like the explicit default. */
  lemma PayloadIgnoresServerFields(d: DeliveryData, receiver: Option<int>, driver: Option<int>, status: string, accepted: Option<string>, received: Option<string>)
    ensures PayloadOf(d.(receiverId := receiver, driverId := driver, status := status, acceptedAt := accepted, receivedAt := received))
         == PayloadOf(d)
    ensures PayloadOf(d.(payer := None)) == PayloadOf(d.(payer := Some(Sender)))
    ensures PayloadOf(d.(pickupCity := None, dropoffCity := None)) == PayloadOf(d.(pickupCity := Some(""), dropoffCity := Some("")))
  {
  }

  /** Both stores plus the hook's `loading` flag. */
  datatype Session = Session(delivery: DeliveryData, locations: Locations, loading: bool)

  datatype Begun = Begun(next: Session, payload: Payload)

  /** The first half of `handleOrderConfirm`: raise `loading`, read the draft
      and build the payload; nothing else changes. */
  function BeginConfirm(s: Session): (r: Begun)
    ensures r.next.loading
    ensures r.next.delivery == s.delivery && r.next.locations == s.locations
    ensures r.payload == PayloadOf(s.delivery)
  {
    Begun(s.(loading := true), PayloadOf(s.delivery))
  }

  datatype Confirmed = Confirmed(next: Session, ok: bool)

  /** The second half, once the POST settles: on success the draft is reset
      (sender kept) and both places cleared, and the result is true; on
      failure both stores are left as they were and the result is false.
      Either way `loading` ends false. */
  function CompleteConfirm(s: Session, posted: bool): (r: Confirmed)
    ensures !r.next.loading
    ensures r.ok == posted
    ensures posted ==> r.next.delivery == ResetDeliveryData(s.delivery) && r.next.locations == NoLocations
    ensures !posted ==> r.next.delivery == s.delivery && r.next.locations == s.locations
  {
    if posted then
      Confirmed(Session(ResetDeliveryData(s.delivery), ClearLocations(s.locations), false), true)
    else
      Confirmed(s.(loading := false), false)
  }

  /** `handleOrderConfirm` as one step. */
  function HandleOrderConfirm(s: Session, posted: bool): (r: Confirmed)
    ensures !r.next.loading && r.ok == posted
    ensures Get(r.next.delivery, SenderId) == Get(s.delivery, SenderId)
    ensures !posted ==> r.next.delivery == s.delivery && r.next.locations == s.locations
  {
    CompleteConfirm(BeginConfirm(s).next, posted)
  }

  /** After a successful order the next payload carries the same sender and
      nothing of the old draft: empty addresses, no coordinates, zero fee and
      tip, the sender as payer. */
  lemma SuccessStartsAFreshOrder(s: Session)
    ensures var t := HandleOrderConfirm(s, true).next;
      var p := BeginConfirm(t).payload;
      && p.senderId == s.delivery.senderId
      && p.pickupAddress == "" && p.dropoffAddress == ""
      && p.pickupLat.None? && p.dropoffLat.None?
      && p.deliveryFee == 0.0 && p.tip == 0.0 && p.payer == Sender
      && p.pickupCity == "" && p.dropoffCity == ""
      && t.locations == NoLocations
  {
  }

  /** A failed order can be retried: the retry sends the same payload. */
  lemma FailureAllowsIdenticalRetry(s: Session)
    ensures BeginConfirm(HandleOrderConfirm(s, false).next).payload == BeginConfirm(s).payload
  {
  }
}

=== FILE: pricing.dfy ===
/** The fare and duration estimator of the delivery-pricing hook: a banded
    speed for the trip duration, a banded per-kilometre rate for the fare,
    rounding to the nearest peso, and a 15% platform commission taken from the
    fare before tip and additional compensation. Money and distance are reals. */
module Pricing {
  import opened Js

  /** Assumed average speed (km/h) of the band a trip falls in: urban up to
      7 km, city edge up to 15 km, inter-city beyond. */
  function SpeedKmh(km: real): (v: real)
    ensures v == 30.0 || v == 35.0 || v == 40.0
  {
    if km <= 7.0 then 30.0 else if km <= 15.0 then 35.0 else 40.0
  }

  /** `estimateDuration`: minutes needed to cover `km` at the band's speed. */
  function EstimateDuration(km: real): (mins: real)
    ensures mins / 60.0 * SpeedKmh(km) == km
    ensures km >= 0.0 ==> mins >= 0.0
    ensures km == 0.0 ==> mins == 0.0
  {
    if km <= 7.0 then km / 30.0 * 60.0
    else if km <= 15.0 then km / 35.0 * 60.0
    else km / 40.0 * 60.0
  }

  /** The faster speed of the next band makes a trip just over 7 km quicker
      than one of exactly 7 km: the duration is not monotone in the distance. */
  lemma DurationNotMonotone()
    ensures EstimateDuration(7.0) == 14.0
    ensures EstimateDuration(7.35) == 12.6
    ensures 7.0 < 7.35 && EstimateDuration(7.35) < EstimateDuration(7.0)
  {
  }

  /** Pesos per kilometre, by band with inclusive upper bounds 2, 6 and 10 km. */
  function PerKmRate(km: real): (rate: real)
    ensures 10.5 <= rate <= 13.5
    ensures km <= 2.0 <==> rate == 10.5
    ensures 2.0 < km <= 6.0 <==> rate == 11.0
    ensures 6.0 < km <= 10.0 <==> rate == 12.5
    ensures 10.0 < km <==> rate == 13.5
  {
    if km <= 2.0 then 10.5
    else if km <= 6.0 then 11.0
    else if km <= 10.0 then 12.5
    else 13.5
  }

  /** `estimateFare`: the base price plus the banded distance charge, to the
      nearest peso. */
  function EstimateFare(km: real, basePrice: real): (fare: int)
    ensures basePrice + km * PerKmRate(km) - 0.5 < fare as real <= basePrice + km * PerKmRate(km) + 0.5
  {
    Round(basePrice + km * PerKmRate(km))
  }

  /** A zero-length trip costs the rounded base price; an integral base price
      is charged exactly. */
  lemma FareAtZero(basePrice: real)
    ensures EstimateFare(0.0, basePrice) == Round(basePrice)
    ensures basePrice == basePrice.Floor as real ==> EstimateFare(0.0, basePrice) == basePrice.Floor
  {
    RoundOfInteger(basePrice.Floor);
  }

  /** A longer trip never costs less, including across the band edges at 2, 6
      and 10 km where the per-kilometre rate steps up. */
  lemma FareMonotone(basePrice: real, d1: real, d2: real)
    requires 0.0 <= d1 <= d2
    ensures EstimateFare(d1, basePrice) <= EstimateFare(d2, basePrice)
  {
    var r1, r2 := PerKmRate(d1), PerKmRate(d2);
    assert r1 <= r2;
    assert d1 * r1 <= d2 * r1 by { MultiplyRight(d1, d2, r1); }
    assert d2 * r1 <= d2 * r2 by { MultiplyRight(r1, r2, d2); }
    RoundMonotone(basePrice + d1 * r1, basePrice + d2 * r2);
  }

  lemma MultiplyRight(a: real, b: real, c: real)
    requires a <= b && 0.0 <= c
    ensures a * c <= b * c
  {
  }

  const CommissionRate: real := 0.15

  /** The hook's `pricingData`; the formatted price string is not modelled. */
  datatype PricingResult = PricingResult(
    partialPrice: int,
    totalPrice: real,
    durationMins: real,
    commissionAmount: real,
    driverEarnings: real)

  /** `useDeliveryPricing`: tip and additional compensation default to 0 when
      absent; they are added to the fare but never carry commission. */
  function Pricing(km: real, basePrice: real, tip: Option<real>, compensation: Option<real>): (p: PricingResult)
    ensures p.partialPrice == EstimateFare(km, basePrice)
    ensures p.totalPrice - p.partialPrice as real == tip.GetOr(0.0) + compensation.GetOr(0.0)
    ensures p.commissionAmount * 100.0 == p.partialPrice as real * 15.0
    ensures p.driverEarnings + p.commissionAmount == p.totalPrice
    ensures p.durationMins == EstimateDuration(km)
  {
    var partial := EstimateFare(km, basePrice);
    var total := partial as real + tip.GetOr(0.0) + compensation.GetOr(0.0);
    var commission := partial as real * CommissionRate;
    PricingResult(partial, total, EstimateDuration(km), commission, total - commission)
  }

  /** The commission depends on distance and base price only: changing the tip
      or the compensation leaves it unchanged. */
  lemma CommissionIgnoresExtras(km: real, basePrice: real, t1: Option<real>, c1: Option<real>, t2: Option<real>, c2: Option<real>)
    ensures Pricing(km, basePrice, t1, c1).commissionAmount == Pricing(km, basePrice, t2, c2).commissionAmount
    ensures Pricing(km, basePrice, t1, c1).partialPrice == Pricing(km, basePrice, t2, c2).partialPrice
  {
  }

  /** Raising the tip by `x` raises the driver's earnings by exactly `x`. */
  lemma TipGoesToDriver(km: real, basePrice: real, tip: real, compensation: Option<real>, x: real)
    ensures Pricing(km, basePrice, Some(tip + x), compensation).driverEarnings
         == Pricing(km, basePrice, Some(tip), compensation).driverEarnings + x
  {
  }

  /** An absent tip or compensation prices like an explicit zero. */
  lemma AbsentExtrasAreZero(km: real, basePrice: real)
    ensures Pricing(km, basePrice, None, None) == Pricing(km, basePrice, Some(0.0), Some(0.0))
  {
  }

  /** The worked example: 6 km at base 10 falls in the 11/km band, fare 76;
      a tip of 20 gives 96, commission 11.4 and driver earnings 84.6. */
  lemma SixKilometreExample()
    ensures Pricing(6.0, 10.0, Some(20.0), Some(0.0)) == PricingResult(76, 96.0, 12.0, 11.4, 84.6)
  {
    assert Round(76.0) == 76 by { RoundOfInteger(76); }
  }
}

=== FILE: register.dfy ===
/** Customer sign-up: the form's six checks (name, phone, email, password
    length, confirmation, terms), the normalisation of a ten-digit mobile
    number to the eleven-digit `09…` form, and what the screen does with the
    outcome of the registration request. The two regular expressions are
    given as index-level patterns, and scanning methods are proved to decide
    exactly those patterns. */
module Register {
  import opened Js
  import opened JsNumber

  // ---------------------------------------------------------------- phone

  /** `/^0?9\d{9}$/`: a 9 and nine more digits, optionally after a 0. */
  predicate PhonePattern(s: string) {
    || (|s| == 10 && s[0] == '9' && AllDigits(s[1..]))
    || (|s| == 11 && s[0] == '0' && s[1] == '9' && AllDigits(s[2..]))
  }

  /** `/^9\d{9}$/`: the ten-digit form without the leading 0. */
  predicate ShortMobile(s: string) {
    |s| == 10 && s[0] == '9' && AllDigits(s[1..])
  }

  /** Decides the phone pattern by one scan over the digits. */
  method CheckPhone(s: string) returns (ok: bool)
    ensures ok <==> PhonePattern(s)
  {
    var start: nat;
    if |s| == 10 && s[0] == '9' {
      start := 1;
    } else if |s| == 11 && s[0] == '0' && s[1] == '9' {
      start := 2;
    } else {
      return false;
    }
    var i := start;
    while i < |s|
      invariant start <= i <= |s|
      invariant AllDigits(s[start..i])
    {
      if !IsDigit(s[i]) {
        assert s[start..][i - start] == s[i];
        return false;
      }
      assert s[start..i + 1] == s[start..i] + [s[i]];
      i := i + 1;
    }
    assert s[start..i] == s[start..];
    return true;
  }

  /** `formattedPhone`: a ten-digit number gains its leading 0. */
  function NormalizePhone(s: string): (r: string)
    ensures ShortMobile(s) ==> r == ['0'] + s
    ensures !ShortMobile(s) ==> r == s
  {
    if ShortMobile(s) then ['0'] + s else s
  }

  /** Every accepted number is sent in the eleven-digit `09…` form, which is
      itself accepted and left alone by a second normalisation. */
  lemma NormalizedPhoneIsLongForm(s: string)
    requires PhonePattern(s)
    ensures var r := NormalizePhone(s);
      |r| == 11 && r[0] == '0' && r[1] == '9' && AllDigits(r[2..])
      && PhonePattern(r) && NormalizePhone(r) == r
  {
    if ShortMobile(s) {
      var r := ['0'] + s;
      assert r[2..] == s[1..];
    }
  }

  /** The two ways of typing the same number are sent identically. */
  lemma BothFormsNormalizeAlike(d: string)
    requires |d| == 9 && AllDigits(d)
    ensures NormalizePhone(['9'] + d) == NormalizePhone(['0', '9'] + d)
  {
    assert (['9'] + d)[1..] == d;
    assert ['0'] + (['9'] + d) == ['0', '9'] + d;
  }

  // ---------------------------------------------------------------- email

  /** `[^\s@]`: neither white space nor `@`. */
  predicate Plain(c: char) {
    !IsWhitespace(c) && c != '@'
  }

  predicate AllPlain(s: string) {
    forall k :: 0 <= k < |s| ==> Plain(s[k])
  }

  /** `s` read as `local@host.tld` with the `@` at `i` and the final dot of
      the match at `j`, each of the three parts non-empty and plain. */
  predicate EmailSplit(s: string, i: int, j: int) {
    && 0 < i < |s| && i + 1 < j < |s| - 1
    && s[i] == '@' && s[j] == '.'
    && AllPlain(s[..i]) && AllPlain(s[i + 1..j]) && AllPlain(s[j + 1..])
  }

  /** `/^[^\s@]+@[^\s@]+\.[^\s@]+$/` */
  predicate EmailPattern(s: string) {
    exists i, j | 0 <= i < |s| && 0 <= j < |s| :: EmailSplit(s, i, j)
  }

  /** A split, character by character: every character before the `@` is
      plain, every character after it is plain (the dot included), and the dot
      sits strictly inside the part after the `@`. */
  lemma EmailSplitAnatomy(s: string, i: int, j: int)
    ensures EmailSplit(s, i, j) <==>
      && 0 < i < |s| && i + 1 < j < |s| - 1 && s[i] == '@' && s[j] == '.'
      && (forall x :: 0 <= x < i ==> Plain(s[x]))
      && (forall x :: i < x < |s| ==> Plain(s[x]))
  {
    if 0 < i < |s| && i + 1 < j < |s| - 1 && s[i] == '@' && s[j] == '.' {
      if AllPlain(s[..i]) && AllPlain(s[i + 1..j]) && AllPlain(s[j + 1..]) {
        forall x | 0 <= x < i ensures Plain(s[x]) {
          assert s[..i][x] == s[x];
        }
        forall x | i < x < |s| ensures Plain(s[x]) {
          if x < j {
            assert s[i + 1..j][x - i - 1] == s[x];
          } else if x > j {
            assert s[j + 1..][x - j - 1] == s[x];
          }
        }
      }
    }
  }

  /** Decides the email pattern: the first non-plain character must be an
      `@` after a non-empty prefix, everything after it must be plain, and a
      dot must sit strictly inside that rest. */
  method CheckEmail(s: string) returns (ok: bool)
    ensures ok <==> EmailPattern(s)
  {
    var i := 0;
    while i < |s| && Plain(s[i])
      invariant 0 <= i <= |s|
      invariant forall x :: 0 <= x < i ==> Plain(s[x])
    {
      i := i + 1;
    }
    if i == 0 || i == |s| || s[i] != '@' {
      forall a, b | 0 <= a < |s| && 0 <= b < |s| ensures !EmailSplit(s, a, b) {
        EmailSplitAnatomy(s, a, b);
      }
      return false;
    }
    var p := i + 1;
    var dot := -1;
    while p < |s|
      invariant i < p <= |s|
      invariant forall x :: i < x < p ==> Plain(s[x])
      invariant dot == -1 || (i + 1 < dot < p && dot < |s| - 1 && s[dot] == '.')
      invariant dot == -1 ==> forall m :: i + 1 < m < p && m < |s| - 1 ==> s[m] != '.'
    {
      if !Plain(s[p]) {
        forall a, b | 0 <= a < |s| && 0 <= b < |s| ensures !EmailSplit(s, a, b) {
          EmailSplitAnatomy(s, a, b);
        }
        return false;
      }
      if s[p] == '.' && i + 1 < p < |s| - 1 {
        dot := p;
      }
      p := p + 1;
    }
    if dot == -1 {
      forall a, b | 0 <= a < |s| && 0 <= b < |s| ensures !EmailSplit(s, a, b) {
        EmailSplitAnatomy(s, a, b);
      }
      return false;
    }
    EmailSplitAnatomy(s, i, dot);
    return true;
  }

  // ---------------------------------------------------------------- form

  datatype Form = Form(
    fullName: string,
    phoneNumber: string,
    email: string,
    password: string,
    confirmPassword: string,
    agree: bool)

  /** One message per field; the empty string means no error. */
  datatype Errors = Errors(
    fullName: string,
    phone: string,
    email: string,
    password: string,
    confirmPassword: string,
    agree: string)

  const NameRequired := "Full name is required."
  const PhoneInvalid := "Enter a valid phone number (starts with 09 or 9 and has 10\U{2013}11 digits)."
  const EmailInvalid := "Enter a valid email address."
  const PasswordShort := "Password must be at least 6 characters."
  const PasswordMismatch := "Passwords do not match."
  const TermsRequired := "You must agree to the Terms and Conditions."

  const NoErrors := Errors("", "", "", "", "", "")

  datatype Validation = Validation(errors: Errors, valid: bool)

  /** `validateForm`: every check runs (all messages are produced at once),
      each message is set exactly when its check fails, and the form is valid
      exactly when no message is set. */
  method ValidateForm(f: Form) returns (v: Validation)
    ensures v.errors.fullName == (if AllWhitespace(f.fullName) then NameRequired else "")
    ensures v.errors.phone == (if PhonePattern(f.phoneNumber) then "" else PhoneInvalid)
    ensures v.errors.email == (if EmailPattern(f.email) then "" else EmailInvalid)
    ensures v.errors.password == (if |f.password| < 6 then PasswordShort else "")
    ensures v.errors.confirmPassword == (if f.password != f.confirmPassword then PasswordMismatch else "")
    ensures v.errors.agree == (if f.agree then "" else TermsRequired)
    ensures v.valid <==> v.errors == NoErrors
  {
    TrimEmptyIffBlank(f.fullName);
    var phoneOk := CheckPhone(f.phoneNumber);
    var emailOk := CheckEmail(f.email);
    var e := Errors(
      if Trim(f.fullName) == [] then NameRequired else "",
      if phoneOk then "" else PhoneInvalid,
      if emailOk then "" else EmailInvalid,
      if |f.password| < 6 then PasswordShort else "",
      if f.password != f.confirmPassword then PasswordMismatch else "",
      if f.agree then "" else TermsRequired);
    v := Validation(e, e == NoErrors);
  }

  /** The body of `POST /api/register/customer`. */
  datatype Request = Request(fullName: string, email: string, password: string, phone: string)

  /** `handleRegister` up to the request: an invalid form sends nothing;
      a valid one sends the form with the phone normalised. */
  method RegisterRequest(f: Form) returns (r: Option<Request>)
    ensures r.Some? <==> && !AllWhitespace(f.fullName) && PhonePattern(f.phoneNumber)
                         && EmailPattern(f.email) && |f.password| >= 6
                         && f.password == f.confirmPassword && f.agree
    ensures r.Some? ==> r.value == Request(f.fullName, f.email, f.password, NormalizePhone(f.phoneNumber))
    ensures r.Some? ==> |r.value.phone| == 11 && r.value.phone[..2] == "09"
  {
    var v := ValidateForm(f);
    if !v.valid {
      return None;
    }
    NormalizedPhoneIsLongForm(f.phoneNumber);
    var phone := NormalizePhone(f.phoneNumber);
    return Some(Request(f.fullName, f.email, f.password, phone));
  }

  /** How the registration request ends: accepted; rejected by the server or
      the network (an HTTP-client error, maybe with the server's message); or
      failed in some other way. */
  datatype Outcome = Registered | ClientError(message: Option<string>) | OtherError

  datatype Reaction = Reaction(alert: Option<string>, modal: Option<string>, goesToLogin: bool, loading: bool)

  const ProceedSuffix := "\nProceed to login?"

  /** The screen after the request settles: success alerts and goes to the
      login screen; a client error shows the server's message (or a generic
      one) with the prompt to log in; anything else shows a fixed message.
      `loading` ends false in every case. */
  function React(o: Outcome): (r: Reaction)
    ensures !r.loading
    ensures r.goesToLogin <==> o.Registered?
    ensures r.alert.Some? <==> o.Registered?
    ensures r.modal.Some? <==> !o.Registered?
    ensures o.ClientError? && Truthy(o.message) ==> r.modal == Some(o.message.value + ProceedSuffix)
    ensures o.ClientError? && !Truthy(o.message) ==> r.modal == Some("Something went wrong" + ProceedSuffix)
    ensures o.OtherError? ==> r.modal == Some("An unexpected error occurred")
  {
    match o
    case Registered => Reaction(Some("Registered successfully!"), None, true, false)
    case ClientError(m) =>
      var text := if Truthy(m) then m.value else "Something went wrong";
      Reaction(None, Some(text + ProceedSuffix), false, false)
    case OtherError => Reaction(None, Some("An unexpected error occurred"), false, false)
  }

  /** Every client error offers the way to the login screen, and only
      client errors do. */
  lemma ClientErrorsOfferLogin(o: Outcome)
    ensures React(o).modal.Some? && !o.OtherError? ==> o.ClientError?
    ensures o.ClientError? ==> var m := React(o).modal.value;
      |m| >= |ProceedSuffix| && m[|m| - |ProceedSuffix|..] == ProceedSuffix
  {
  }

  /** Concrete cases of both patterns. */
  lemma PatternExamples()
    ensures PhonePattern("09171234567") && PhonePattern("9171234567")
    ensures !PhonePattern("0817123456")
    ensures EmailPattern("a@b.c")
    ensures !EmailPattern("a@b")
  {
    assert EmailSplit("a@b.c", 1, 3) by {
      assert "a@b.c"[..1] == "a" && "a@b.c"[2..3] == "b" && "a@b.c"[4..] == "c";
    }
    assert "09171234567"[2..] == "171234567";
    assert "9171234567"[1..] == "171234567";
  }
}

=== FILE: route_lookup.dfy ===
/** The route-distance hook: once all four coordinates are known it schedules
    a debounced request to the route service, stores the mapped answer, and
    then never asks again until `resetRoute`. The debounce timer, the request
    and React's effect scheduling are modelled as events: a render with new
    coordinates, the timer firing, a request settling, a reset. */
module RouteLookup {
  import opened Js

  datatype RouteInfo = RouteInfo(km: real, mins: real, trafficMins: real)

  /** How a route-distance request ends: the fetch throws, the server answers
      with a non-2xx status, the body is not JSON, or a JSON body with the
      three figures. */
  datatype Response =
    | Unreachable
    | HttpError(status: int)
    | Malformed
    | Body(distanceInKm: real, durationInMinutes: real, trafficDelayInMinutes: real)

  /** `fetchRouteDistance`: the body's figures renamed, or null on any error. */
  function FetchRouteDistance(resp: Response): (r: Option<RouteInfo>)
    ensures r.Some? <==> resp.Body?
    ensures r.Some? ==> r.value == RouteInfo(resp.distanceInKm, resp.durationInMinutes, resp.trafficDelayInMinutes)
  {
    match resp
    case Body(km, mins, traffic) => Some(RouteInfo(km, mins, traffic))
    case _ => None
  }

  /** The hook's four props; `undefined` is `None`. */
  datatype Coords = Coords(pickupLat: Option<real>, pickupLon: Option<real>, dropoffLat: Option<real>, dropoffLon: Option<real>)

  predicate Complete(c: Coords) {
    c.pickupLat.Some? && c.pickupLon.Some? && c.dropoffLat.Some? && c.dropoffLon.Some?
  }

  /** The hook's state: the props of the last render (the effect's
      dependencies), its two state variables, `fetchedOnceRef`, the scheduled
      but not yet fired timer (with the coordinates it will request) and the
      number of requests still in flight. */
  datatype Lookup = Lookup(
    deps: Coords,
    routeInfo: Option<RouteInfo>,
    loadingPrice: bool,
    fetchedOnce: bool,
    pending: Option<Coords>,
    inFlight: nat)

  /** The effect body: nothing once a route was fetched or while a coordinate
      is missing, otherwise a timer for the current coordinates. */
  function RunEffect(s: Lookup): (r: Lookup)
    requires s.pending.None?
    ensures r.pending.Some? <==> !s.fetchedOnce && Complete(s.deps)
    ensures r.pending.Some? ==> r.pending.value == s.deps
    ensures r.(pending := None) == s
  {
    if s.fetchedOnce || !Complete(s.deps) then s else s.(pending := Some(s.deps))
  }

  /** The first render: both state variables empty, then the effect runs. */
  function Mount(c: Coords): (r: Lookup)
    ensures r.routeInfo.None? && !r.loadingPrice && !r.fetchedOnce && r.inFlight == 0
    ensures r.pending.Some? <==> Complete(c)
  {
    RunEffect(Lookup(c, None, false, false, None, 0))
  }

  /** A re-render with props `c`: when they differ from the dependencies the
      previous effect's cleanup clears its timer and the effect runs again;
      otherwise nothing happens. */
  function Render(s: Lookup, c: Coords): (r: Lookup)
    ensures r.deps == c
    ensures c == s.deps ==> r == s
    ensures c != s.deps ==> (r.pending.Some? <==> !s.fetchedOnce && Complete(c))
    ensures r.pending.Some? && r != s ==> r.pending.value == c
    ensures r.routeInfo == s.routeInfo && r.loadingPrice == s.loadingPrice
    ensures r.fetchedOnce == s.fetchedOnce && r.inFlight == s.inFlight
  {
    if c == s.deps then s else RunEffect(s.(deps := c, pending := None))
  }

  datatype Fired = Fired(next: Lookup, request: Coords)

  /** The timer fires: `loadingPrice` goes up and a request for the
      scheduled coordinates leaves. The callback does not look at
      `fetchedOnceRef`. */
  function TimerFires(s: Lookup): (r: Fired)
    requires s.pending.Some?
    ensures r.request == s.pending.value
    ensures r.next.pending.None? && r.next.loadingPrice && r.next.inFlight == s.inFlight + 1
    ensures r.next.routeInfo == s.routeInfo && r.next.fetchedOnce == s.fetchedOnce && r.next.deps == s.deps
  {
    Fired(s.(pending := None, loadingPrice := true, inFlight := s.inFlight + 1), s.pending.value)
  }

  /** A request settles: its mapped answer replaces the route (a failure
      writes null), `fetchedOnceRef` is set even on failure, and
      `loadingPrice` drops even if another request is still in flight. */
  function Settle(s: Lookup, resp: Response): (r: Lookup)
    requires s.inFlight > 0
    ensures r.routeInfo == FetchRouteDistance(resp)
    ensures r.fetchedOnce && !r.loadingPrice && r.inFlight == s.inFlight - 1
    ensures r.pending == s.pending && r.deps == s.deps
  {
    s.(routeInfo := FetchRouteDistance(resp), fetchedOnce := true, loadingPrice := false, inFlight := s.inFlight - 1)
  }

  /** `resetRoute`: forget the route and allow another request. It does not
      re-run the effect: nothing is scheduled until the coordinates change. */
  function ResetRoute(s: Lookup): (r: Lookup)
    ensures r.routeInfo.None? && !r.fetchedOnce
    ensures r.pending == s.pending && r.deps == s.deps && r.inFlight == s.inFlight && r.loadingPrice == s.loadingPrice
  {
    s.(fetchedOnce := false, routeInfo := None)
  }

  datatype Event = NewProps(c: Coords) | Fire | Arrive(resp: Response) | Reset

  /** One event; a `Fire` with no timer scheduled or an `Arrive` with no
      request in flight cannot occur and changes nothing. */
  function Apply(s: Lookup, e: Event): Lookup {
    match e
    case NewProps(c) => Render(s, c)
    case Fire => if s.pending.Some? then TimerFires(s).next else s
    case Arrive(resp) => if s.inFlight > 0 then Settle(s, resp) else s
    case Reset => ResetRoute(s)
  }

  function Run(s: Lookup, events: seq<Event>): Lookup
    decreases |events|
  {
    if events == [] then s else Run(Apply(s, events[0]), events[1..])
  }

  /** A scheduled timer always holds the current, complete coordinates. */
  predicate Scheduled(s: Lookup) {
    s.pending.Some? ==> s.pending.value == s.deps && Complete(s.deps)
  }

  lemma ApplyKeepsScheduled(s: Lookup, e: Event)
    requires Scheduled(s)
    ensures Scheduled(Apply(s, e))
  {
  }

  lemma MountThenRunKeepsScheduled(c: Coords, events: seq<Event>)
    ensures Scheduled(Run(Mount(c), events))
  {
    RunKeepsScheduled(Mount(c), events);
  }

  lemma {:induction false} RunKeepsScheduled(s: Lookup, events: seq<Event>)
    requires Scheduled(s)
    ensures Scheduled(Run(s, events))
    decreases |events|
  {
    if events != [] {
      ApplyKeepsScheduled(s, events[0]);
      RunKeepsScheduled(Apply(s, events[0]), events[1..]);
    }
  }

  predicate NoReset(events: seq<Event>) {
    forall i :: 0 <= i < |events| ==> !events[i].Reset?
  }

  /** Once a request has settled and no timer is left, no further request
      leaves, whatever the coordinates do, until a reset: `pending` stays
      empty, the in-flight count only falls, and the flag stays set. */
  lemma {:induction false} FetchedOnceIsSticky(s: Lookup, events: seq<Event>)
    requires s.fetchedOnce && s.pending.None? && NoReset(events)
    ensures var t := Run(s, events); t.fetchedOnce && t.pending.None? && t.inFlight <= s.inFlight
    decreases |events|
  {
    if events != [] {
      var s' := Apply(s, events[0]);
      assert !events[0].Reset?;
      assert NoReset(events[1..]) by {
        forall i | 0 <= i < |events[1..]| ensures !events[1..][i].Reset? {
          assert events[1..][i] == events[i + 1];
        }
      }
      FetchedOnceIsSticky(s', events[1..]);
    }
  }

  /** A failed request leaves no route and still blocks any later request:
      new complete coordinates schedule nothing. */
  lemma FailureIsNotRetried(s: Lookup, c: Coords)
    requires s.inFlight > 0 && s.pending.None?
    ensures var t := Render(Settle(s, Unreachable), c); t.routeInfo.None? && t.pending.None?
  {
  }

  /** After a reset the same coordinates fetch nothing; different complete
      ones schedule a request again. */
  lemma ResetNeedsNewCoordinates(s: Lookup, c: Coords)
    requires s.pending.None?
    ensures Render(ResetRoute(s), s.deps).pending.None?
    ensures c != s.deps && Complete(c) ==> Render(ResetRoute(s), c).pending == Some(c)
  {
  }

  /** The flag does not stop a timer scheduled before the settle: the
      effect's dependencies leave `fetchedOnceRef` out, so a timer set by new
      coordinates while the first request was in flight still fires after
      it settled, and a second request leaves. */
  lemma TimerSetBeforeSettleStillFires(a: Coords, b: Coords, resp: Response)
    requires Complete(a) && Complete(b) && a != b
    ensures var s := Run(Mount(a), [Fire, NewProps(b), Arrive(resp), Fire]);
      s.fetchedOnce && s.inFlight == 1 && s.loadingPrice
  {
    var s0 := Mount(a);
    var s1 := Apply(s0, Fire);
    var s2 := Apply(s1, NewProps(b));
    var s3 := Apply(s2, Arrive(resp));
    var s4 := Apply(s3, Fire);
    assert Run(s0, [Fire, NewProps(b), Arrive(resp), Fire]) == Run(s1, [NewProps(b), Arrive(resp), Fire]);
    assert Run(s1, [NewProps(b), Arrive(resp), Fire]) == Run(s2, [Arrive(resp), Fire]);
    assert Run(s2, [Arrive(resp), Fire]) == Run(s3, [Fire]);
    assert Run(s3, [Fire]) == Run(s4, []);
  }

  /** Two overlapping requests: when the first settles `loadingPrice` is
      already false while the second is still in flight. */
  lemma LoadingDropsWithRequestInFlight(a: Coords, b: Coords, resp: Response)
    requires Complete(a) && Complete(b) && a != b
    ensures var s := Run(Mount(a), [Fire, NewProps(b), Fire, Arrive(resp)]);
      !s.loadingPrice && s.inFlight == 1
  {
    var s0 := Mount(a);
    var s1 := Apply(s0, Fire);
    var s2 := Apply(s1, NewProps(b));
    var s3 := Apply(s2, Fire);
    var s4 := Apply(s3, Arrive(resp));
    assert Run(s0, [Fire, NewProps(b), Fire, Arrive(resp)]) == Run(s1, [NewProps(b), Fire, Arrive(resp)]);
    assert Run(s1, [NewProps(b), Fire, Arrive(resp)]) == Run(s2, [Fire, Arrive(resp)]);
    assert Run(s2, [Fire, Arrive(resp)]) == Run(s3, [Arrive(resp)]);
    assert Run(s3, [Arrive(resp)]) == Run(s4, []);
  }
}

=== FILE: service_selector.dfy ===
/** The vehicle picker at the bottom of the home screen: the service table,
    the press handler that lets only motorcycles through, and the Details
    badge. */
module ServiceSelector {
  import opened Js
  import opened JsNumber
  import Pricing

  /** An entry of the services table; `labelText` is the entry's `label`,
      a word Dafny reserves. */
  datatype Service = Service(key: string, labelText: string, price: string, basePrice: real)

  /** The offered services; the icons are not modelled. */
  const Services: seq<Service> := [
    Service("motorcycles", "Motorcycles", "from \U{20B1}10", 10.0),
    Service("cars", "Passenger cars", "from \U{20B1}40", 10.0),
    Service("trucks", "Trucks", "from \U{20B1}10", 10.0)
  ]

  /** Pressing a service: cars and trucks only alert "Not available for now";
      any other key is passed on to the parent. */
  datatype Press = NotAvailable | Forwarded(key: string)

  function HandleServicePress(key: string): (r: Press)
    ensures r.NotAvailable? <==> key == "cars" || key == "trucks"
    ensures r.Forwarded? ==> r.key == key
  {
    if key == "cars" || key == "trucks" then NotAvailable else Forwarded(key)
  }

  /** Of the listed services only motorcycles can be chosen; the keys are
      distinct. */
  lemma OnlyMotorcyclesSelectable()
    ensures forall i :: 0 <= i < |Services| ==>
      (HandleServicePress(Services[i].key).Forwarded? <==> Services[i].key == "motorcycles")
    ensures forall i, j :: 0 <= i < j < |Services| ==> Services[i].key != Services[j].key
  {
  }

  /** Every service prices from a base of 10: a zero-length trip costs 10,
      which is what the motorcycle and truck cards advertise; the car card's
      "from ₱40" is not what its base price charges. */
  lemma AdvertisedFromPrice()
    ensures forall i :: 0 <= i < |Services| ==> Pricing.EstimateFare(0.0, Services[i].basePrice) == 10
    ensures Services[0].price == "from \U{20B1}" + Decimal(10) && Services[2].price == "from \U{20B1}" + Decimal(10)
    ensures Services[1].price != "from \U{20B1}" + Decimal(10)
  {
    Pricing.FareAtZero(10.0);
    assert Decimal(10) == "10" by {
      assert Decimal(1) == "1";
      assert Decimal(0) == "0";
    }
  }

  /** The Details badge: the count when positive, nothing otherwise. */
  function DetailsBadge(count: nat): (s: string)
    ensures s == "" <==> count == 0
  {
    if count > 0 then Decimal(count) else ""
  }

  /** A badge reads back as the count it shows. */
  lemma BadgeReadsBack(count: nat)
    requires count > 0
    ensures ParseFloat(DetailsBadge(count)) == Some(count as real)
  {
    DecimalRoundTrip(count, []);
    assert Decimal(count) + [] == Decimal(count);
  }
}
